=== FILE: README.md ===
# steam-tradeoffers: the data-shaping core, in Dafny

This project models the pure logic of the `steam-tradeoffers` Rust client. It leaves out the network, the clock and the cryptographic primitives. It covers:

- **Tolerant response readers.** These are the serde visitors of `src/response/deserializers.rs`. They turn loosely typed JSON values into strict ones:
  - numbers given as integers or decimal strings;
  - booleans given as `0`/`1`, `"0"`/`"1"` or `true`/`false`;
  - sequences given as arrays, maps, `""` or nothing;
  - the fraud-warnings field;
  - the description (classinfo) caches keyed by `(classid, instanceid)`, including the parser for `"<classid>[_<instanceid>]"` keys.
- **Decimal (de)serialisers.** These are the `string`, `option_string` and `option_string_0_as_none` pairs of `src/serializers.rs`.
- **Mobile-confirmation helpers.** These are in `src/mobile_api/helpers.rs`:
  - the big-endian time bytes;
  - the message the confirmation hash signs;
  - the device id;
  - the reading of the confirmation page, over an element tree.
- **Confirmation request parameters.** These are in `src/mobile_api/mod.rs`: the signed query, the accept/deny action query, the mapping of the `success` flag to a result, and `get_uri`.
- **Small value types.**
  - `TradeOffer`: its `Display` and `is_glitched`.
  - The `TradeStatus` and `ConfirmationMethod` code enums.

Each JSON value a visitor sees is a `Wire` value:

- a non-negative integer, or a negative one;
- a string or a boolean;
- a missing value (`visit_none`) or null (`visit_unit`);
- a sequence, or a map as an ordered list of entries;
- anything else.

Results and errors are `Result` values. A serde error is `Custom(message)`, `InvalidType`, `InvalidValue` or `InvalidDiscriminant`.

Rust's `str::parse::<uN>` is modelled exactly:

- `""` is `Empty`;
- a lone sign is `InvalidDigit`;
- a leading `+` is skipped;
- digits are scanned left to right, and each is checked for validity before the overflow check.

A `HashMap` built by repeated `insert` is the map in which every key holds the value of the last insertion carrying it (module `LastWins`).

## Model

| member | source | states |
|---|---|---|
| DecimalText.Decimal | src/response/trade_offer.rs:35 | The `Display` text of an unsigned integer is a non-empty digit string; it starts with '0' only for zero. |
| DecimalText.DecimalValue | src/mobile_api/mod.rs:101 | The printed digits denote the printed number (`to_string` is read back by value). |
| DecimalText.DecimalInjective | src/mobile_api/mod.rs:119-120 | Distinct numbers print distinct texts, so `cid`/`ck` identify the confirmation's id and key. |
| DecimalText.SignedDecimalRoundTrip | src/mobile_api/mod.rs:103 | The `t` parameter (`i64::to_string`) is an optional '-' followed by digits, and it denotes the time. |
| DecimalText.Accumulate | src/response/deserializers.rs:74 | The digit scan of `str::parse` either stays within the width's maximum or fails, and never with `Empty`. |
| DecimalText.AccumulateSpec | src/response/deserializers.rs:74 | The scan succeeds exactly on all-digit text whose value fits. It then returns that value. It fails with `PosOverflow` on all-digit text that is too large, and fails on any non-digit. |
| DecimalText.ParseUnsigned | src/response/deserializers.rs:74 | `str::parse::<uN>` returns a value that fits the width; `Empty` is returned exactly for the empty string. |
| DecimalText.ParseUnsignedSpec | src/response/deserializers.rs:74 | `str::parse::<uN>` yields `n` exactly when the text is an optional '+' and digits denoting `n`, and `n` fits the width. |
| DecimalText.ParseUnsignedErrors | src/response/deserializers.rs:74 | A well-formed literal that is too large gives `PosOverflow`. `InvalidDigit` is returned only for text that is not a literal. |
| DecimalText.DecimalRoundTrip | src/serializers.rs:7-22 | Parsing the `Display` text of a fitting number gives the number back. |
| WireValues.StringOf | src/serializers.rs:21 | `String::deserialize` accepts exactly strings. It returns the string, and refuses anything else with `invalid type`, expecting a string. |
| WireValues.U8Of | src/response/deserializers.rs:85 | `u8::deserialize` accepts exactly integers up to 255. Larger or negative integers are `invalid value`, and other shapes are `invalid type`. |
| Deserializers.FromStr | src/response/deserializers.rs:74 | `v.parse::<T>()` through `de::Error::custom` returns values that fit `T`. |
| Deserializers.StringOrNumber | src/response/deserializers.rs:56-78 | Only integers and strings are visited. Every other shape is refused with `invalid type`, expecting "an integer or a string", and an accepted value fits the width. |
| Deserializers.StringOrNumberSpec | src/response/deserializers.rs:56-78 | The reader yields `n` exactly when the value is `n` as an integer or as an unsigned decimal literal, and `n` fits the target width. |
| Deserializers.StringOrNumberTooLarge | src/response/deserializers.rs:60-66 | An oversized integer gives "Number too large to fit in target type". An oversized decimal string gives Rust's overflow message. |
| Deserializers.IntoBool | src/response/deserializers.rs:201-234 | Integers and strings other than 0/1 are refused with `invalid value`, expecting "zero or one". Shapes other than integer, string and boolean are `invalid type`. |
| Deserializers.IntoBoolSpec | src/response/deserializers.rs:201-234 | `into_bool` reads `b` exactly from `b`, from `0`/`1` and from `"0"`/`"1"`. |
| Deserializers.FromIntToBool | src/response/deserializers.rs:85-92 | Integers 2..255 are refused with `invalid value`, expecting "zero or one". Everything else that fails fails as `u8::deserialize` does. |
| Deserializers.FromIntToBoolSpec | src/response/deserializers.rs:85-92 | `from_int_to_bool` accepts exactly the integers 0 and 1. It agrees with `into_bool` wherever it accepts. |
| Deserializers.ReadAll | src/response/deserializers.rs:303-307 | Elements are read in order: all are read, one value per element, or the error is that of the first failing element. |
| Deserializers.Values | src/response/deserializers.rs:336-338 | A map's values are kept in entry order and the keys are dropped. |
| Deserializers.HashmapOrVec | src/response/deserializers.rs:297-341 | Accepted values are sequence-like: a sequence, a map (its values), a missing value or `""`. The result is one element per value, in order. A non-empty string is `invalid value`, expecting "zero or one" as the source's message reads; any other shape is `invalid type`, expecting "a map". |
| Deserializers.SequenceEncodingsAgree | src/response/deserializers.rs:297-341 | A map reads exactly like the sequence of its values, whatever its keys. A missing value, `""` and `[]` all read as the empty vector. |
| Deserializers.FromFraudWarnings | src/response/deserializers.rs:134-182 | The result is `None` exactly for `""`, a missing value and null. A non-empty string `s` gives `Some([s])`, and other shapes are refused. |
| Deserializers.FraudWarningsCollections | src/response/deserializers.rs:158-182 | A sequence of strings, or a map whose values are those strings, gives `Some` of all of them in order (so `[]` gives `Some([])`). |
| Deserializers.FraudWarningsNonString | src/response/deserializers.rs:158-182 | The first non-string element of a sequence, or the first non-string value of a map, fails the whole field with String's `invalid type`. |
| Deserializers.OptionStrToNumber | src/response/deserializers.rs:461-494 | The result is `None` exactly for a missing value and for any boolean. Shapes other than integer and string are refused, expecting "a number string". |
| Deserializers.OptionStrToNumberAgrees | src/response/deserializers.rs:475-494 | On integers and strings the optional reader accepts and refuses exactly as `string_or_number` does, wrapping the value in `Some`. |
| Deserializers.OptionStrToNumberEmptyString | src/response/deserializers.rs:489-494 | `""` is an error (Rust's empty-string message), not `None`. |
| ClassKeys.CapturesOf | src/response/deserializers.rs:410 | `(\d+)_?(\d+)?` matches exactly keys containing a digit. The class capture is a non-empty digit run, and the instance capture is a digit run. |
| ClassKeys.ClassKeyOf | src/response/deserializers.rs:409-415 | A key is stored exactly when it contains a digit. |
| ClassKeys.CapturesOfClassOnly | src/response/deserializers.rs:410 | For digit-free text followed by digits `c`, the captures are `c` and the empty instance. |
| ClassKeys.CapturesOfPair | src/response/deserializers.rs:410 | For digit-free text, then `c`, '_' and `i`, the captures are `c` and `i`. |
| ClassKeys.ClassKeyRoundTrip | src/response/deserializers.rs:409-415 | The key `"<c>"` reads as `(c, None)` and `"<c>_<i>"` reads as `(c, Some(i))`, after any digit-free prefix. |
| ClassKeys.InstanceOverflow | src/response/deserializers.rs:412-415 | An instance id too large for a u64 is dropped to `None`, and the key is still stored. |
| ClassKeys.ClassOverflow | src/response/deserializers.rs:411 | A class id too large for a u64 is the parse error, raised through `de::Error::custom`. |
| ClassInfoMaps.ToClassInfoMap | src/response/deserializers.rs:253-267 | Only sequences are read, and the read fails exactly when some record fails, with the first failing record's error. |
| ClassInfoMaps.ToClassInfoMapSpec | src/response/deserializers.rs:257-263 | The result is `m` exactly when every record reads and `m` is their cache: exactly their keys, each holding the last record with that key. |
| ClassInfoMaps.ToClassInfoMapShape | src/response/deserializers.rs:260 | Every stored record sits under its own key, and there are at most as many entries as records. |
| ClassInfoMaps.RecordSlotsDescribe | src/response/deserializers.rs:260 | Inserting each record under its own key describes exactly the record cache. |
| ClassInfoMaps.DeserializeClassInfoMap | src/response/deserializers.rs:360-365 | `[]` reads as the empty map; the elements of a non-empty sequence are left unconsumed, and the error that causes is not modelled. Shapes other than sequences and maps are refused, expecting "a map". |
| ClassInfoMaps.ClassInfoSlotsAsSequence | src/response/deserializers.rs:373-381 | Reading a map entry by entry fails exactly when reading its digit-keyed values as a sequence fails, with the same error, and otherwise gives the same records. |
| ClassInfoMaps.MapReadsAsSequence | src/response/deserializers.rs:367-384 | A map reads as the sequence of its digit-keyed values would. The record's own key decides where it is stored, and other keys' values are discarded. |
| ClassInfoMaps.DeserializeClassInfoMapSpec | src/response/deserializers.rs:367-384 | A map reads as `m` exactly when its digit-keyed values all read and `m` is their cache. |
| ClassInfoMaps.AllDigitKeyed | src/response/deserializers.rs:374 | When every key has a digit, every value is read. |
| ClassInfoMaps.RawSlots | src/response/deserializers.rs:409-423 | Each entry gives its raw text under its parsed key, or nothing when the key has no digit. The first class-id overflow aborts with its error. |
| ClassInfoMaps.DeserializeClassInfoMapRaw | src/response/deserializers.rs:403-429 | Only maps are read, and the read fails exactly when some class id overflows, with the first such error. |
| ClassInfoMaps.DeserializeClassInfoMapRawSpec | src/response/deserializers.rs:407-425 | The result is `m` exactly when no class id overflows and `m` holds, under each parsed key, the raw text of the last entry with that key. |
| ClassInfoMaps.DeserializeClassInfoMapRawSize | src/response/deserializers.rs:419 | There is at most one entry per map entry. |
| LastWins.InsertAllKeys | src/response/deserializers.rs:260 | The keys after repeated `insert` are the old keys plus the inserted ones. |
| LastWins.InsertAllLast | src/response/deserializers.rs:377 | The last insertion for a key decides its value. |
| LastWins.InsertAllBuilds | src/response/deserializers.rs:419 | Inserting into an empty map builds the map the insertions describe, with at most one entry per insertion. |
| LastWins.BuiltFromIsInsertAll | src/response/deserializers.rs:257-263 | A map is the one the insertions describe exactly when it is what inserting them in order produces. |
| LastWins.InsertAllFromSlots | src/response/deserializers.rs:371-383 | Every key of the built map comes from the last insertion that carries it. |
| Serializers.OptionStringOf | src/serializers.rs:47 | `Option::<String>::deserialize`: null or nothing is `None` and a string is `Some`. Anything else is refused as String refuses it. |
| Serializers.SerializeString | src/serializers.rs:7-13 | `collect_str` writes a non-empty digit string. |
| Serializers.DeserializeString | src/serializers.rs:15-22 | A non-string is refused with `invalid type`. A string that does not parse gives Rust's parse message, and an accepted value fits the width. |
| Serializers.DeserializeStringSpec | src/serializers.rs:15-22 | Exactly the unsigned literals of fitting values are read, as those values. |
| Serializers.StringRoundTrip | src/serializers.rs:7-22 | What `string` writes, it reads back. |
| Serializers.SerializeOptionString | src/serializers.rs:30-39 | `None` is written as null and `Some(n)` as `n`'s text. |
| Serializers.DeserializeOptionString | src/serializers.rs:41-54 | The result is `None` exactly for null or nothing. `Some` comes only from a string holding a fitting number. |
| Serializers.OptionStringAgrees | src/serializers.rs:49-51 | On a string, the optional reader agrees with `string` (in `Some`), errors included. |
| Serializers.OptionStringRoundTrip | src/serializers.rs:30-54 | What `option_string` writes, it reads back, `None` included. |
| Serializers.SerializeOptionString0AsNone | src/serializers.rs:62-71 | `None` is written as null and `Some(n)` as n's decimal text, so the string `"0"` is written exactly for `Some(0)`. That is the value the reading side turns into `None`. |
| Serializers.DeserializeOptionString0AsNone | src/serializers.rs:73-89 | The result is `None` exactly for null, nothing and `"0"`. Otherwise it reads as `option_string` does. |
| Serializers.OptionString0AsNoneRoundTrip | src/serializers.rs:62-89 | Every value but `Some(0)` reads back as itself. `Some(0)` is written as `"0"` and reads back as `None`. |
| Bytes.FromBigEndianOf | src/mobile_api/helpers.rs:12-14 | Reading `n` big-endian bytes of `u` gives `u` modulo 256^n. |
| Bytes.BigEndianOf | src/mobile_api/helpers.rs:12-14 | Bytes read as a number and written back give the same bytes. |
| Bytes.TimeBytes | src/mobile_api/helpers.rs:12-14 | `to_be_bytes` of an i64 is 8 bytes. |
| Bytes.TimeBytesRoundTrip | src/mobile_api/helpers.rs:12-14 | Decoding the 8 two's-complement big-endian bytes gives the time back. |
| Bytes.TimeOfRoundTrip | src/mobile_api/helpers.rs:12-14 | Every 8 bytes are the time bytes of exactly one i64. |
| Bytes.TimeBytesSign | src/mobile_api/helpers.rs:12-14 | The top bit of the first byte is set exactly for negative times. |
| Bytes.Utf8Char | src/mobile_api/helpers.rs:19 | A character encodes to 1 to 4 bytes, and to one byte exactly when it is ASCII. |
| Bytes.Utf8CharRoundTrip | src/mobile_api/helpers.rs:19 | A character's UTF-8 bytes decode back to its code point. |
| Bytes.Utf8 | src/mobile_api/helpers.rs:19 | `as_bytes` gives between one and four bytes per character. |
| Bytes.Utf8Ascii | src/mobile_api/helpers.rs:29 | ASCII text encodes as its own character codes, one byte each. |
| Bytes.Utf8Append | src/mobile_api/helpers.rs:19-20 | The bytes of a concatenation are the concatenation of the bytes. |
| Bytes.Hex | src/mobile_api/helpers.rs:32-34 | Every byte becomes exactly two hex digits. |
| Bytes.HexAt | src/mobile_api/helpers.rs:32-34 | Byte `i` is written as two lower-case hex digits at positions `2i` and `2i+1` (`{:02x}`). |
| Bytes.HexRoundTrip | src/mobile_api/helpers.rs:32-34 | The hex text is lower-case hex, and it reads back as the bytes. |
| Bytes.HexPrefix | src/mobile_api/helpers.rs:32-34 | The first `2k` hex digits spell the first `k` bytes. |
| ConfirmationHash.HashMessage | src/mobile_api/helpers.rs:18-20 | The signed message is the 8 time bytes plus the tag's UTF-8 bytes. |
| ConfirmationHash.HashMessageSplits | src/mobile_api/helpers.rs:18-20 | The message's first 8 bytes decode to the time, and the rest is the tag's bytes. |
| ConfirmationHash.HashMessageUnique | src/mobile_api/helpers.rs:18-20 | Any message that splits into that time and tag is the hash message. |
| ConfirmationHash.HashMessageAsciiLength | src/mobile_api/helpers.rs:20 | For an ASCII tag such as "conf" the message is 8 bytes longer than the tag. |
| ConfirmationHash.ConfirmationHashSigns | src/mobile_api/helpers.rs:16-24 | `GenerateConfirmationHash`, the model of `generate_confirmation_hash_for_time`, is base64 of HMAC-SHA1, keyed with the decoded secret, over exactly the message that splits into the time and the tag. |
| ConfirmationHash.GroupHex | src/mobile_api/helpers.rs:35-39 | With at least 32 hex digits the result is the 36-character 8-4-4-4-12 grouping. Shorter text does not match the pattern and is left as it is. |
| ConfirmationHash.GetDeviceId | src/mobile_api/helpers.rs:26-42 | The device id starts with `android:`. |
| ConfirmationHash.DeviceIdShape | src/mobile_api/helpers.rs:32-41 | For a digest of at least 16 bytes, the id is `android:` plus 32 lower-case hex digits grouped 8-4-4-4-12, and those digits spell the first 16 digest bytes. |
| ConfirmationHash.DeviceIdIgnoresTail | src/mobile_api/helpers.rs:36 | Digest bytes after the sixteenth do not affect the id. |
| ConfirmationHash.DeviceIdInjective | src/mobile_api/helpers.rs:32-41 | Different leading 16 bytes give different ids. |
| ConfirmationHash.GetDeviceIdShape | src/mobile_api/helpers.rs:26-42 | With a 20-byte SHA-1, every account's id is 44 characters of that shape. It spells the first 16 bytes of the digest of the account id's decimal text. |
| ConfirmationHash.DeviceIdInput | src/mobile_api/helpers.rs:29 | The digest is taken over the account id's decimal digits, one ASCII byte each. |
| TextOps.TrimStart | src/mobile_api/helpers.rs:60 | `trim_start` drops exactly the leading whitespace. |
| TextOps.TrimEnd | src/mobile_api/helpers.rs:60 | `trim_end` drops exactly the trailing whitespace. |
| TextOps.TrimOf | src/mobile_api/helpers.rs:60 | The trim of whitespace, then text with non-whitespace ends, then whitespace, is that middle text. |
| TextOps.TrimSplits | src/mobile_api/helpers.rs:60 | Every string is its trim with whitespace before and after. |
| TextOps.TrimIdempotent | src/mobile_api/helpers.rs:60 | Trimming twice is trimming once. |
| TextOps.Trim | src/mobile_api/helpers.rs:60 | `str::trim` leaves text with no whitespace at either end, and never longer than the input. |
| TextOps.JoinSpace | src/mobile_api/helpers.rs:63 | `join(" ")` of pieces is as long as their concatenation plus one separator between each pair of neighbours. |
| TextOps.JoinSpaceAppend | src/mobile_api/helpers.rs:63 | Joining two non-empty runs of pieces is joining each run and putting one space between them, so neighbouring pieces are separated by exactly one space. |
| TextOps.JoinSpaceEnds | src/mobile_api/helpers.rs:63 | The joined text starts with the first piece and ends with the last. |
| HtmlTree.ElementsMembers | src/mobile_api/helpers.rs:84 | The document-order element list holds exactly the elements of the trees. |
| HtmlTree.Filter | src/mobile_api/helpers.rs:102 | A selection keeps exactly the elements the selector matches, never more than it is given. |
| HtmlTree.FilterAppend | src/mobile_api/helpers.rs:102 | Selection keeps document order: filtering two runs of elements in turn gives the first run's matches before the second's. |
| HtmlTree.FilterOne | src/mobile_api/helpers.rs:102 | A single element is kept, once, exactly when it matches. |
| HtmlTree.Select | src/mobile_api/helpers.rs:84 | `Html::select` yields only elements the selector matches. |
| HtmlTree.SelectWithin | src/mobile_api/helpers.rs:46 | `ElementRef::select` yields only matching elements, taken from below the element. |
| HtmlTree.SelectMembers | src/mobile_api/helpers.rs:84 | `select` finds exactly the matching elements inside the fragment. |
| HtmlTree.TextsMembers | src/mobile_api/helpers.rs:59 | `text()` yields exactly the text nodes below the element. |
| HtmlTree.TextOf | src/mobile_api/helpers.rs:59 | `element.text()` yields exactly the texts of the text nodes below the element. |
| HtmlTree.First | src/mobile_api/helpers.rs:46 | `.next()` is the first match, or `None` when there is none. |
| ConfirmationPage.ParseU64 | src/mobile_api/helpers.rs:70-74 | An attribute reads as a u64 exactly when it is an unsigned literal that fits, and then as its value. Otherwise it is a `ParseInt` error carrying the `ParseIntError` kind the u64 parse reports. |
| ConfirmationPage.NonEmptyTrimmed | src/mobile_api/helpers.rs:60-61 | Every surviving piece is a non-empty, trimmed text, at most one per input piece. |
| ConfirmationPage.NonEmptyTrimmedAppend | src/mobile_api/helpers.rs:60-61 | Pieces keep their order: the survivors of two runs of pieces are the first run's followed by the second's. |
| ConfirmationPage.NonEmptyTrimmedOne | src/mobile_api/helpers.rs:60-61 | A single piece survives, as its trim, exactly when its trim is not empty. |
| ConfirmationPage.NonEmptyTrimmedNone | src/mobile_api/helpers.rs:60-61 | No piece survives exactly when every piece trims to nothing. |
| ConfirmationPage.JoinTrimmed | src/mobile_api/helpers.rs:61-63 | Joining trimmed, non-empty pieces gives trimmed text, which is empty only for no pieces. |
| ConfirmationPage.DescriptionText | src/mobile_api/helpers.rs:57-63 | The description never starts or ends with whitespace, and it is empty exactly when every text piece is whitespace. |
| ConfirmationPage.DescriptionTextAppend | src/mobile_api/helpers.rs:57-63 | The description of two runs of pieces, neither blank, is the first run's description, one space, then the second's. |
| ConfirmationPage.DescriptionTextOne | src/mobile_api/helpers.rs:57-63 | The description of a single piece is that piece trimmed. |
| ConfirmationPage.ParseDescription | src/mobile_api/helpers.rs:45-76 | An entry is `Malformed("Unexpected description format")` exactly when it lacks the description child, `data-type`, `data-key` or `data-creator`. Otherwise it fails only with `ParseInt`, whose kind `ParseDescriptionFirstError` fixes. When read, the three numbers are the attributes' values, an unconvertible type becomes `Unknown`, and the description is the text of the first description child, blank pieces dropped and the rest trimmed and joined by spaces. |
| ConfirmationPage.ParseDescriptionFirstError | src/mobile_api/helpers.rs:70-74 | On a complete entry, the error is the `ParseInt` error, with its kind, of the first of `data-confid`, `data-key` and `data-creator` that does not parse, in that order. |
| ConfirmationPage.EntryFailsSpec | src/mobile_api/helpers.rs:69-75 | A complete entry is read exactly when its three numbers are u64 literals. |
| ConfirmationPage.ParseEntries | src/mobile_api/helpers.rs:102-104 | The list is read exactly when every entry is read, and then there is one confirmation per entry. |
| ConfirmationPage.ParseEntriesValues | src/mobile_api/helpers.rs:102-104 | Confirmation `i` is entry `i` read. |
| ConfirmationPage.ParseEntriesFirstFailure | src/mobile_api/helpers.rs:104 | The error is that of the first failing entry. |
| ConfirmationPage.ParseConfirmations | src/mobile_api/helpers.rs:84-98 | With an empty marker the result is `Ok([])` or a server message, and a non-empty list means there is no marker. |
| ConfirmationPage.ResponseFromMarker | src/mobile_api/helpers.rs:84-91 | A server message comes exactly from a first marker that has class `mobileconf_done` and two `div`s below it. The message is the second div's untrimmed text, drawn from text nodes inside it. |
| ConfirmationPage.EntriesWithoutMarker | src/mobile_api/helpers.rs:100-106 | Without a marker the page yields one confirmation per list entry in document order, or fails exactly when some entry fails. |
| ConfirmationPage.EntryErrors | src/mobile_api/helpers.rs:53-55 | A `Malformed` failure names an entry lacking a part. A `ParseInt` failure names a complete entry whose number does not parse. |
| MobileRequests.GetUri | src/mobile_api/mod.rs:59-61 | The address is the community host followed by the path. |
| MobileRequests.GetUriInjective | src/mobile_api/mod.rs:59-61 | Different paths give different addresses. |
| MobileRequests.ConfirmationQueryParams | src/mobile_api/mod.rs:84-108 | Without an identity secret the result is `Parameter("No identity secret")`. Otherwise the keys are exactly p, a, k, t, m and tag, with m = "android" and the tag echoed. |
| MobileRequests.QueryParamsReadBack | src/mobile_api/mod.rs:91-105 | `a` parses back to the account id and `t` to the time. `k` is the confirmation hash of that time and tag. |
| MobileRequests.QueryParamsDeviceId | src/mobile_api/mod.rs:100 | `p` has the device-id shape and spells the account's digest. |
| MobileRequests.QueryParamsSize | src/mobile_api/mod.rs:97-107 | The signed query has six parameters. |
| MobileRequests.ActionParams | src/mobile_api/mod.rs:116-120 | Without a secret the action fails with the parameter error. Otherwise its keys are the six signed ones plus op, cid and ck, the tag is "conf" and op is the operation. |
| MobileRequests.ActionParamsExtend | src/mobile_api/mod.rs:116-120 | The action keeps the signed query's entries. `cid` and `ck` read back as the confirmation's id and key. |
| MobileRequests.ActionParamsSize | src/mobile_api/mod.rs:116-120 | The action query has nine parameters. |
| MobileRequests.ActionOutcome | src/mobile_api/mod.rs:131-135 | The result is `Ok` exactly when `success` is set, and otherwise the fixed "Confirmation unsuccessful…" response error. |
| MobileRequests.SendConfirmationAjax | src/mobile_api/mod.rs:110-116 | Without a secret nothing is sent and the parameter error is returned. |
| MobileRequests.SendConfirmationAjaxSpec | src/mobile_api/mod.rs:116-135 | With a secret, the action succeeds exactly when the answer to the action query at `/mobileconf/ajaxop` is a success. |
| MobileRequests.AcceptConfirmation | src/mobile_api/mod.rs:138-140 | Accepting sends op "allow", and succeeds exactly when the server reports success. |
| MobileRequests.DenyConfirmation | src/mobile_api/mod.rs:142-144 | Denying sends op "cancel", and succeeds exactly when the server reports success. |
| MobileRequests.AcceptDenyDiffer | src/mobile_api/mod.rs:138-144 | Accept and deny queries have the same keys and agree on everything but `op`. |
| MobileRequests.ListingRequest | src/mobile_api/mod.rs:146-148 | The listing goes to `/mobileconf/conf` with the signed query and tag "conf", or fails without a secret. |
| MobileRequests.GetTradeConfirmations | src/mobile_api/mod.rs:146-158 | Without a secret it fails with the parameter error, and it never yields a bare `Response` error. |
| MobileRequests.GetTradeConfirmationsSpec | src/mobile_api/mod.rs:154-157 | With a secret, the listing is the page as read by `parse_confirmations`, with its errors wrapped as `Html`. |
| TradeStatuses.Code | src/enums/trade_status.rs:7-19 | Every status's code is at most 11. |
| TradeStatuses.FromCode | src/enums/trade_status.rs:5-6 | `try_from(u8)` succeeds exactly for 0..=11, with the status whose code it is. |
| TradeStatuses.CodeRoundTrip | src/enums/trade_status.rs:5-19 | `try_from(u8::from(s))` is `s`. |
| TradeStatuses.CodeInjective | src/enums/trade_status.rs:8-19 | Distinct statuses have distinct codes. |
| TradeStatuses.FromName | src/enums/trade_status.rs:5 | A name that parses parses to the status printed with that name. |
| TradeStatuses.Name | src/enums/trade_status.rs:5 | strum's `Display` prints a variant identifier: ASCII letters, the first one upper-case. |
| TradeStatuses.NameRoundTrip | src/enums/trade_status.rs:5 | Parsing the printed name gives the status. |
| TradeStatuses.Serialize | src/enums/trade_status.rs:5 | A status is written as its bare code. |
| TradeStatuses.Deserialize | src/enums/trade_status.rs:5-6 | Exactly the integers 0..=11 are read. Other `u8` values are an invalid discriminant, and other values fail as `u8` does. |
| TradeStatuses.SerializeRoundTrip | src/enums/trade_status.rs:5 | What is written reads back as the same status. |
| TradeStatuses.DeserializeSpec | src/enums/trade_status.rs:5 | A value reads as `s` exactly when it is `s`'s code. |
| ConfirmationMethods.Code | src/enums/confirmation_method.rs:7-11 | Every method's code is at most 2. |
| ConfirmationMethods.FromCode | src/enums/confirmation_method.rs:5-6 | `try_from(u8)` succeeds exactly for 0..=2, with the method whose code it is. |
| ConfirmationMethods.CodeRoundTrip | src/enums/confirmation_method.rs:5-11 | `try_from(u8::from(m))` is `m`. |
| ConfirmationMethods.CodeInjective | src/enums/confirmation_method.rs:8-10 | Distinct methods have distinct codes. |
| ConfirmationMethods.FromName | src/enums/confirmation_method.rs:5 | A name that parses parses to the method printed with that name. |
| ConfirmationMethods.Name | src/enums/confirmation_method.rs:5 | strum's `Display` prints a variant identifier: ASCII letters, the first one upper-case. |
| ConfirmationMethods.NameRoundTrip | src/enums/confirmation_method.rs:5 | Parsing the printed name gives the method. |
| ConfirmationMethods.Serialize | src/enums/confirmation_method.rs:5 | A method is written as its bare code. |
| ConfirmationMethods.Deserialize | src/enums/confirmation_method.rs:5-6 | Exactly the integers 0..=2 are read. Other `u8` values are an invalid discriminant, and other values fail as `u8` does. |
| ConfirmationMethods.SerializeRoundTrip | src/enums/confirmation_method.rs:5 | What is written reads back as the same method. |
| ConfirmationMethods.DeserializeSpec | src/enums/confirmation_method.rs:5 | A value reads as `m` exactly when it is `m`'s code. |
| TradeOffers.Display | src/response/trade_offer.rs:34-36 | The text is bracketed. |
| TradeOffers.DisplayRoundTrip | src/response/trade_offer.rs:35 | The text reads back as the partner's account id and the offer id, split at the colon. |
| TradeOffers.DisplayIdentifies | src/response/trade_offer.rs:35 | Two offers display alike exactly when they have the same partner and offer id, so no other field shows. |
| TradeOffers.IsGlitchedAsWritten | src/response/trade_offer.rs:41-43 | `is_glitched` as written holds exactly when there is nothing to receive. |
| TradeOffers.AsWrittenIgnoresGive | src/response/trade_offer.rs:41-43 | Changing what an offer gives never changes `is_glitched` as written. |
| TradeOffers.AsWrittenFlagsGifts | src/response/trade_offer.rs:42 | An offer that gives items and receives none is flagged, although it moves items. |
| TradeOffers.IsGlitched | src/response/trade_offer.rs:41-43 | The intended `is_glitched` holds exactly when the offer exchanges no items. |
| TradeOffers.GlitchedMovesNothing | src/response/trade_offer.rs:41-43 | The intended test holds exactly when no asset is in either the items to give or the items to receive. |
| TradeOffers.GlitchedAgreement | src/response/trade_offer.rs:42 | Every offer the intended test flags is flagged as written. The two tests differ exactly on offers that give items and receive none. |

## Left out

- HTTP, cookies and sessions are not modelled: `MobileAPI::new`, `set_session`/`set_cookies` and the async send and receive. The transport is a parameter, a function from the request to the response's `success` flag or to the parsed page. Transport and body-decoding errors are left out.
- SHA-1, HMAC-SHA1 and base64 are foreign crates. They are function-valued fields of a `Crypto` record. Only SHA-1's 20-byte digest length is assumed, and only where a lemma says so.
- `server_time` reads the system clock, so the time is a parameter of the query builders.
- The HTML tokenizer and CSS selector engine are not modelled. A page is an already-parsed element tree with exact `#id`, `.class` and tag matching, searched in document order (pre-order). `ElementRef::select` searches descendants only.
- JSON lexing and serde_json stream mechanics are not modelled. This includes errors from values a visitor leaves unconsumed: the elements of a non-empty sequence given to `deserialize_classinfo_map`, and object or array values under digit-free keys that `next_value::<u8>` refuses. It also covers `HashMap` iteration order. `ClassInfo` is a record with its two key fields; the rest stays the wire value. `RawValue` text is an opaque `render` function.
- Numeric targets are the unsigned widths u8, u16, u32 and u64; signed targets of `string_or_number` are not modelled.
- The regexes' `\d` is Unicode-aware in Rust, but the model uses ASCII digits only.
- `ConfirmationType` and its `TryFrom<&str>` are not part of this model. The conversion is a parameter, `convert`, with `unknown` as the fallback.
- `asset.rs` and `TradeOfferState` are not part of this model. They are type parameters of `TradeOffer`, and server times are integers of seconds.
- `src/error.rs` is mirrored only in `ParseHtmlError` and the three `Error` variants the confirmation API raises. `MissingClassInfoError` is mirrored as a datatype carrying the app id and the looked-up key. No function of this core raises it, and its `Display` text is not modelled. The `Display` text of `ParseIntError` is modelled as a fixed message per error kind.
- The texts of serde's own error messages for `Deserialize_repr` are not modelled; an unknown code is `InvalidDiscriminant(code)`.
- `parse_description` panics on an entry with every checked part but no `data-confid`. Those pages are excluded by a precondition (`SafeEntries`, `PageReadable`).
- `generate_confirmation_hash_for_time` panics on an identity secret that is not base64. That is excluded by a precondition (`SecretDecodes`).
- `src/manager/poll_data.rs` and `examples/polling.rs` are not part of this model: the first is a record with no logic, the second an example program doing I/O.
- ConfirmationHash.GetDeviceId: its own contract states only the `android:` prefix. The 44-character shape needs the 20-byte digest, which is stated in `GetDeviceIdShape`.

## Findings

| source | as written | input that shows it | evidently intended | confidence | as-written member | corrected member |
|---|---|---|---|---|---|---|
| src/response/trade_offer.rs:42 | `is_glitched` tests `items_to_receive.is_empty()` twice and never looks at `items_to_give` | an offer with one item to give and none to receive: reported as glitched although it moves an item | glitched when both `items_to_receive` and `items_to_give` are empty | high (the duplicated operand is visible in the text); not executed | TradeOffers.AsWrittenFlagsGifts | TradeOffers.GlitchedMovesNothing |

=== FILE: bytes.dfy ===
/** Byte strings: the big-endian two's-complement form of a 64-bit time, the
    UTF-8 bytes of text, and the lowercase hexadecimal text of bytes. */
module Bytes {
  import opened DecimalText

  type byte = b: int | 0 <= b < 256

  function Pow256(n: nat): (p: nat)
    ensures p > 0
  {
    if n == 0 then 1 else 256 * Pow256(n - 1)
  }

  // ---------------------------------------------------------------------------
  // Big-endian integers

  /** The `n` low bytes of `u`, most significant first. */
  function BigEndian(u: nat, n: nat): (bs: seq<byte>)
    ensures |bs| == n
    decreases n
  {
    if n == 0 then [] else BigEndian(u / 256, n - 1) + [u % 256]
  }

  /** The number big-endian bytes denote. */
  function FromBigEndian(bs: seq<byte>): nat
    decreases |bs|
  {
    if |bs| == 0 then 0 else FromBigEndian(bs[..|bs| - 1]) * 256 + bs[|bs| - 1]
  }

  lemma {:induction false} ModUnique(u: int, m: int, k: int, r: int)
    requires m > 0 && 0 <= r < m && u == k * m + r
    ensures u % m == r && u / m == k
  {
    var q, s := u / m, u % m;
    assert (q - k) * m == r - s;
    if q > k {
      MulAtLeast(q - k, m);
    } else if q < k {
      MulAtLeast(k - q, m);
    }
  }

  lemma {:induction false} MulAtLeast(a: int, m: int)
    requires a >= 1 && m > 0
    ensures a * m >= m
  {
  }

  /** Peeling the lowest byte off a remainder modulo `256 * p`. */
  lemma {:induction false} ModSplit(u: nat, p: nat)
    requires p > 0
    ensures (u / 256) % p * 256 + u % 256 == u % (256 * p)
  {
    var q, r := u / 256, u % 256;
    var a, b := q / p, q % p;
    assert u == 256 * q + r;
    assert q == p * a + b;
    assert u == a * (256 * p) + (256 * b + r);
    ModUnique(u, 256 * p, a, 256 * b + r);
  }

  /** Big-endian bytes denote a number below `256^n`. */
  lemma {:induction false} FromBigEndianBound(bs: seq<byte>)
    ensures FromBigEndian(bs) < Pow256(|bs|)
    decreases |bs|
  {
    if |bs| > 0 {
      var init := bs[..|bs| - 1];
      FromBigEndianBound(init);
      assert FromBigEndian(init) + 1 <= Pow256(|init|);
      assert (FromBigEndian(init) + 1) * 256 <= Pow256(|init|) * 256;
    }
  }

  /** Reading the bytes back gives the number modulo `256^n`. */
  lemma {:induction false} FromBigEndianOf(u: nat, n: nat)
    ensures FromBigEndian(BigEndian(u, n)) == u % Pow256(n)
    decreases n
  {
    if n > 0 {
      var bs := BigEndian(u, n);
      assert bs[..n - 1] == BigEndian(u / 256, n - 1);
      FromBigEndianOf(u / 256, n - 1);
      ModSplit(u, Pow256(n - 1));
    }
  }

  /** Writing what was read gives the bytes back. */
  lemma {:induction false} BigEndianOf(bs: seq<byte>)
    ensures BigEndian(FromBigEndian(bs), |bs|) == bs
    decreases |bs|
  {
    if |bs| > 0 {
      var init, last := bs[..|bs| - 1], bs[|bs| - 1];
      var v := FromBigEndian(init) * 256 + last;
      ModUnique(v, 256, FromBigEndian(init), last);
      BigEndianOf(init);
      assert bs == init + [last];
    }
  }

  // ---------------------------------------------------------------------------
  // i64::to_be_bytes

  /** `time.to_be_bytes()`: the eight bytes of the two's-complement form,
      most significant first. */
  function TimeBytes(time: i64): (bs: seq<byte>)
    ensures |bs| == 8
  {
    BigEndian(if time < 0 then time + U64_LIMIT else time, 8)
  }

  /** `i64::from_be_bytes`: the inverse reading. */
  function TimeOf(bs: seq<byte>): (t: i64)
    requires |bs| == 8
  {
    FromBigEndianBound(bs);
    var u := FromBigEndian(bs);
    if u >= I64_LIMIT then u - U64_LIMIT else u
  }

  lemma {:induction false} Pow256Eight()
    ensures Pow256(8) == U64_LIMIT
  {
    assert Pow256(4) == 0x1_0000_0000;
  }

  /** Reading the bytes of a time gives the time back. */
  lemma {:induction false} TimeBytesRoundTrip(time: i64)
    ensures TimeOf(TimeBytes(time)) == time
  {
    var u := if time < 0 then time + U64_LIMIT else time;
    Pow256Eight();
    FromBigEndianOf(u, 8);
    ModUnique(u, U64_LIMIT, 0, u);
  }

  /** Every eight bytes are the bytes of the time they denote. */
  lemma {:induction false} TimeOfRoundTrip(bs: seq<byte>)
    requires |bs| == 8
    ensures TimeBytes(TimeOf(bs)) == bs
  {
    FromBigEndianBound(bs);
    Pow256Eight();
    BigEndianOf(bs);
  }

  /** The first byte carries the sign: it is 0x80 or above exactly for a
      negative time. */
  lemma {:induction false} TimeBytesSign(time: i64)
    ensures TimeBytes(time)[0] >= 0x80 <==> time < 0
  {
    var u := if time < 0 then time + U64_LIMIT else time;
    var bs := TimeBytes(time);
    FromBigEndianOf(u, 8);
    Pow256Eight();
    ModUnique(u, U64_LIMIT, 0, u);
    FromBigEndianHead(bs);
    FromBigEndianBound(bs[1..]);
  }

  /** The most significant byte weighs `256^(n-1)`. */
  lemma {:induction false} FromBigEndianHead(bs: seq<byte>)
    requires |bs| > 0
    ensures FromBigEndian(bs) == bs[0] * Pow256(|bs| - 1) + FromBigEndian(bs[1..])
    decreases |bs|
  {
    if |bs| > 1 {
      var init := bs[..|bs| - 1];
      FromBigEndianHead(init);
      assert init[1..] == bs[1..][..|bs| - 2];
      assert init[0] == bs[0];
    } else {
      assert bs[..0] == [];
      assert bs[1..] == [];
    }
  }

  // ---------------------------------------------------------------------------
  // UTF-8 (`str::as_bytes`)

  /** The UTF-8 encoding of one Unicode scalar value. */
  function Utf8Char(c: char): (bs: seq<byte>)
    ensures 1 <= |bs| <= 4
    ensures |bs| == 1 <==> c as int < 0x80
  {
    var n := c as int;
    if n < 0x80 then [n]
    else if n < 0x800 then [0xC0 + n / 64, 0x80 + n % 64]
    else if n < 0x1_0000 then [0xE0 + n / 4096, 0x80 + n / 64 % 64, 0x80 + n % 64]
    else [0xF0 + n / 262144, 0x80 + n / 4096 % 64, 0x80 + n / 64 % 64, 0x80 + n % 64]
  }

  /** The scalar value a UTF-8 sequence of one to four bytes encodes. */
  function Utf8Decode(bs: seq<byte>): int
    requires 1 <= |bs| <= 4
  {
    var b: seq<int> := bs;
    if |b| == 1 then b[0]
    else if |b| == 2 then (b[0] - 0xC0) * 64 + (b[1] - 0x80)
    else if |b| == 3 then (b[0] - 0xE0) * 4096 + (b[1] - 0x80) * 64 + (b[2] - 0x80)
    else (b[0] - 0xF0) * 262144 + (b[1] - 0x80) * 4096 + (b[2] - 0x80) * 64 + (b[3] - 0x80)
  }

  /** Decoding the bytes of a character gives the character back. */
  lemma {:induction false} Utf8CharRoundTrip(c: char)
    ensures Utf8Decode(Utf8Char(c)) == c as int
  {
    var n := c as int;
    assert n == n / 64 * 64 + n % 64;
    assert n / 64 == n / 4096 * 64 + n / 64 % 64;
    assert n / 4096 == n / 262144 * 64 + n / 4096 % 64;
  }

  /** `s.as_bytes()`: the UTF-8 encodings of the characters, in order. */
  function Utf8(s: string): (bs: seq<byte>)
    ensures |s| <= |bs| <= 4 * |s|
    decreases |s|
  {
    if |s| == 0 then [] else Utf8Char(s[0]) + Utf8(s[1..])
  }

  predicate IsAscii(s: string) {
    forall i :: 0 <= i < |s| ==> s[i] as int < 0x80
  }

  /** Text of ASCII characters encodes as one byte per character, its code. */
  lemma {:induction false} Utf8Ascii(s: string)
    requires IsAscii(s)
    ensures |Utf8(s)| == |s|
    ensures forall i :: 0 <= i < |s| ==> Utf8(s)[i] == s[i] as int
    decreases |s|
  {
    if |s| > 0 {
      assert IsAscii(s[1..]) by {
        forall i | 0 <= i < |s[1..]| ensures s[1..][i] as int < 0x80 {
          assert s[1..][i] == s[i + 1];
        }
      }
      Utf8Ascii(s[1..]);
    }
  }

  /** Encoding distributes over concatenation. */
  lemma {:induction false} Utf8Append(a: string, b: string)
    ensures Utf8(a + b) == Utf8(a) + Utf8(b)
    decreases |a|
  {
    if |a| == 0 {
      assert a + b == b;
    } else {
      assert (a + b)[1..] == a[1..] + b;
      Utf8Append(a[1..], b);
    }
  }

  // ---------------------------------------------------------------------------
  // Lowercase hexadecimal (`format!("{:02x}", b)`)

  const HEX_DIGITS: string := "0123456789abcdef"

  predicate IsLowerHex(c: char) {
    '0' <= c <= '9' || 'a' <= c <= 'f'
  }

  function HexDigit(d: nat): (c: char)
    requires d < 16
    ensures IsLowerHex(c)
  {
    HEX_DIGITS[d]
  }

  function HexDigitValue(c: char): (d: nat)
    requires IsLowerHex(c)
    ensures d < 16
  {
    if '0' <= c <= '9' then c as int - '0' as int else c as int - 'a' as int + 10
  }

  lemma {:induction false} HexDigitRoundTrip(d: nat)
    requires d < 16
    ensures HexDigitValue(HexDigit(d)) == d
  {
  }

  /** `format!("{:02x}", b)`: two lowercase hex digits, high nibble first. */
  function HexByte(b: byte): (s: string)
    ensures |s| == 2
  {
    [HexDigit(b / 16), HexDigit(b % 16)]
  }

  /** The hex text of each byte, concatenated. */
  function Hex(bs: seq<byte>): (s: string)
    ensures |s| == 2 * |bs|
    decreases |bs|
  {
    if |bs| == 0 then "" else HexByte(bs[0]) + Hex(bs[1..])
  }

  predicate AllLowerHex(s: string) {
    forall i :: 0 <= i < |s| ==> IsLowerHex(s[i])
  }

  /** The bytes that lowercase hex text of even length spells. */
  function Unhex(s: string): (bs: seq<byte>)
    requires |s| % 2 == 0 && AllLowerHex(s)
    ensures |bs| == |s| / 2
    decreases |s|
  {
    if |s| == 0 then []
    else [HexDigitValue(s[0]) * 16 + HexDigitValue(s[1])] + Unhex(s[2..])
  }

  /** Character `2i` is the high nibble of byte `i`, character `2i+1` its
      low nibble. */
  lemma {:induction false} HexAt(bs: seq<byte>, i: nat)
    requires i < |bs|
    ensures Hex(bs)[2 * i] == HexDigit(bs[i] / 16)
    ensures Hex(bs)[2 * i + 1] == HexDigit(bs[i] % 16)
    decreases i
  {
    if i > 0 {
      HexAt(bs[1..], i - 1);
    }
  }

  /** Hex text consists of lowercase hex digits. */
  lemma {:induction false} HexIsLowerHex(bs: seq<byte>)
    ensures AllLowerHex(Hex(bs))
  {
    forall j | 0 <= j < |Hex(bs)| ensures IsLowerHex(Hex(bs)[j]) {
      HexAt(bs, j / 2);
    }
  }

  /** Reading the hex text of bytes gives the bytes back. */
  lemma {:induction false} HexRoundTrip(bs: seq<byte>)
    ensures AllLowerHex(Hex(bs))
    ensures Unhex(Hex(bs)) == bs
    decreases |bs|
  {
    HexIsLowerHex(bs);
    if |bs| > 0 {
      var h := Hex(bs);
      assert h[2..] == Hex(bs[1..]);
      HexDigitRoundTrip(bs[0] / 16);
      HexDigitRoundTrip(bs[0] % 16);
      HexRoundTrip(bs[1..]);
    }
  }

  /** The hex text of a prefix is the matching prefix of the hex text. */
  lemma {:induction false} HexPrefix(bs: seq<byte>, k: nat)
    requires k <= |bs|
    ensures Hex(bs)[..2 * k] == Hex(bs[..k])
  {
    forall j | 0 <= j < 2 * k ensures Hex(bs)[j] == Hex(bs[..k])[j] {
      HexAt(bs, j / 2);
      HexAt(bs[..k], j / 2);
    }
  }
}

=== FILE: class_keys.dfy ===
/** The `"<classid>[_<instanceid>]"` keys of a raw description map, and how
    the raw deserializer reads a composite key out of them with the Rust
    regex `(\d+)_?(\d+)?`. */
module ClassKeys {
  import opened Wrappers
  import opened DecimalText
  import opened WireValues
  import opened Deserializers

  /** The composite key of a description: `(classid, instanceid)`. */
  type ClassKey = (u64, Option<u64>)

  /** The regex `\d+` finds a match in the text. */
  predicate ContainsDigit(s: string) {
    exists i :: 0 <= i < |s| && IsDigit(s[i])
  }

  /** The index of the first digit at or after `from`, or `|s|` if none. */
  function FirstDigit(s: string, from: nat): (r: nat)
    requires from <= |s|
    ensures from <= r <= |s|
    ensures forall i :: from <= i < r ==> !IsDigit(s[i])
    ensures r < |s| ==> IsDigit(s[r])
    decreases |s| - from
  {
    if from == |s| || IsDigit(s[from]) then from else FirstDigit(s, from + 1)
  }

  /** The end of the run of digits that starts at `from`. */
  function DigitRunEnd(s: string, from: nat): (r: nat)
    requires from <= |s|
    ensures from <= r <= |s|
    ensures AllDigits(s[from..r])
    ensures r < |s| ==> !IsDigit(s[r])
    decreases |s| - from
  {
    if from == |s| || !IsDigit(s[from]) then from
    else DigitRunEnd(s, from + 1)
  }

  /** What `(\d+)_?(\d+)?` captures: the first run of digits, and the run of
      digits right after a '_' that follows it. A group that takes no part in
      the match captures "". */
  datatype Captures = Captures(classid: string, instanceid: string)

  function CapturesOf(key: string): (c: Option<Captures>)
    ensures c.None? <==> !ContainsDigit(key)
    ensures c.Some? ==> |c.value.classid| > 0 && AllDigits(c.value.classid) && AllDigits(c.value.instanceid)
  {
    var start := FirstDigit(key, 0);
    if start == |key| then None
    else
      var end := DigitRunEnd(key, start);
      var instance :=
        if end < |key| && key[end] == '_' then key[end + 1..DigitRunEnd(key, end + 1)] else "";
      Some(Captures(key[start..end], instance))
  }

  /** The key a raw description is stored under: `None` for a key without a
      digit (its entry is discarded), an error when the classid does not fit
      a u64. An instanceid that does not parse, because it is absent or too
      large, becomes `None`. */
  function ClassKeyOf(key: string): (r: Option<Result<ClassKey, DeError>>)
    ensures r.None? <==> !ContainsDigit(key)
  {
    match CapturesOf(key)
    case None => None
    case Some(caps) =>
      match FromStr(caps.classid, W64)
      case Err(e) => Some(Err(e))
      case Ok(classid) =>
        var instanceid: Option<u64> :=
          match ParseUnsigned(caps.instanceid, W64)
          case Ok(i) => Some(i)
          case Err(_) => None;
        Some(Ok((classid, instanceid)))
  }

  /** The canonical text of a key: `"<classid>"` or `"<classid>_<instanceid>"`. */
  function FormatClassKey(k: ClassKey): string {
    match k.1
    case None => Decimal(k.0)
    case Some(i) => Decimal(k.0) + "_" + Decimal(i)
  }

  lemma {:induction false} DigitRunEndAt(s: string, from: nat, end: nat)
    requires from <= end <= |s|
    requires forall i :: from <= i < end ==> IsDigit(s[i])
    requires end == |s| || !IsDigit(s[end])
    ensures DigitRunEnd(s, from) == end
    decreases end - from
  {
    if from < end {
      DigitRunEndAt(s, from + 1, end);
    }
  }

  lemma {:induction false} FirstDigitAt(s: string, from: nat, at: nat)
    requires from <= at < |s|
    requires forall i :: from <= i < at ==> !IsDigit(s[i])
    requires IsDigit(s[at])
    ensures FirstDigit(s, from) == at
    decreases at - from
  {
    if from < at {
      FirstDigitAt(s, from + 1, at);
    }
  }

  /** In digit-free text followed by a run of digits and then a non-digit
      (or the end), the first run of digits is exactly that run. */
  lemma {:induction false} FirstRunOf(prefix: string, c: string, tail: string)
    requires !ContainsDigit(prefix)
    requires |c| > 0 && AllDigits(c)
    requires tail == [] || !IsDigit(tail[0])
    ensures FirstDigit(prefix + c + tail, 0) == |prefix|
    ensures DigitRunEnd(prefix + c + tail, |prefix|) == |prefix| + |c|
    ensures (prefix + c + tail)[|prefix|..|prefix| + |c|] == c
  {
    var key := prefix + c + tail;
    assert forall j :: 0 <= j < |prefix| ==> key[j] == prefix[j];
    FirstDigitAt(key, 0, |prefix|);
    assert forall j :: |prefix| <= j < |prefix| + |c| ==> key[j] == c[j - |prefix|];
    DigitRunEndAt(key, |prefix|, |prefix| + |c|);
  }

  /** A run of digits that follows a '_' reaches to the end of the text. */
  lemma {:induction false} SecondRunOf(head: string, i: string)
    requires AllDigits(i)
    ensures DigitRunEnd(head + "_" + i, |head| + 1) == |head + "_" + i|
    ensures (head + "_" + i)[|head| + 1..] == i
  {
    var key := head + "_" + i;
    assert forall j :: |head| + 1 <= j < |key| ==> key[j] == i[j - |head| - 1];
    DigitRunEndAt(key, |head| + 1, |key|);
  }

  /** The captures of a key laid out as digit-free text and a run of digits. */
  lemma {:induction false} CapturesOfClassOnly(prefix: string, c: string)
    requires !ContainsDigit(prefix)
    requires |c| > 0 && AllDigits(c)
    ensures CapturesOf(prefix + c) == Some(Captures(c, ""))
  {
    FirstRunOf(prefix, c, "");
    assert prefix + c + "" == prefix + c;
  }

  /** The captures of a key whose first run of digits, `c`, is followed by
      '_' and the run of digits `i`. */
  lemma {:induction false} CapturesAfterUnderscore(key: string, start: nat, end: nat, c: string, i: string)
    requires start < |key| && FirstDigit(key, 0) == start
    requires end < |key| && DigitRunEnd(key, start) == end && key[end] == '_'
    requires key[start..end] == c && key[end + 1..DigitRunEnd(key, end + 1)] == i
    ensures CapturesOf(key) == Some(Captures(c, i))
  {
  }

  /** The captures of a key laid out as digit-free text, a run of digits,
      '_' and a second run of digits. */
  lemma {:induction false} CapturesOfPair(prefix: string, c: string, i: string)
    requires !ContainsDigit(prefix)
    requires |c| > 0 && AllDigits(c) && AllDigits(i)
    ensures CapturesOf(prefix + c + "_" + i) == Some(Captures(c, i))
  {
    var key := prefix + c + "_" + i;
    var start, end := |prefix|, |prefix| + |c|;
    PairLayout(prefix, c, i);
    FirstDigitAt(key, 0, start);
    DigitRunEndAt(key, start, end);
    DigitRunEndAt(key, end + 1, |key|);
    CapturesAfterUnderscore(key, start, end, c, i);
  }

  /** Where the parts of `prefix + c + "_" + i` sit. */
  lemma {:induction false} PairLayout(prefix: string, c: string, i: string)
    requires !ContainsDigit(prefix)
    requires AllDigits(c) && AllDigits(i)
    ensures var key := prefix + c + "_" + i;
      && (forall j :: 0 <= j < |prefix| ==> !IsDigit(key[j]))
      && (forall j :: |prefix| <= j < |prefix| + |c| ==> IsDigit(key[j]))
      && key[|prefix| + |c|] == '_'
      && (forall j :: |prefix| + |c| < j < |key| ==> IsDigit(key[j]))
      && key[|prefix|..|prefix| + |c|] == c
      && key[|prefix| + |c| + 1..|key|] == i
  {
    var key := prefix + c + "_" + i;
    var start, end := |prefix|, |prefix| + |c|;
    assert forall j :: 0 <= j < start ==> key[j] == prefix[j];
    assert forall j :: start <= j < end ==> key[j] == c[j - start];
    assert forall j :: end < j < |key| ==> key[j] == i[j - end - 1];
  }

  /** How a key whose classid capture parses is read. */
  lemma {:induction false} ClassKeyOfCaptured(key: string, c: string, i: string, n: nat)
    requires CapturesOf(key) == Some(Captures(c, i))
    requires ParseUnsigned(c, W64) == Ok(n)
    ensures ClassKeyOf(key) ==
      Some(Ok((n, if ParseUnsigned(i, W64).Ok? then Some(ParseUnsigned(i, W64).value) else None)))
  {
  }

  /** Keys read back from their canonical text, whatever digit-free text
      comes before it. */
  lemma {:induction false} ClassKeyRoundTrip(prefix: string, k: ClassKey)
    requires !ContainsDigit(prefix)
    ensures ClassKeyOf(prefix + FormatClassKey(k)) == Some(Ok(k))
  {
    var c := Decimal(k.0);
    DecimalRoundTrip(k.0, W64);
    match k.1
    case None =>
      CapturesOfClassOnly(prefix, c);
      ClassKeyOfCaptured(prefix + c, c, "", k.0);
    case Some(i) =>
      var d := Decimal(i);
      CapturesOfPair(prefix, c, d);
      assert prefix + FormatClassKey(k) == prefix + c + "_" + d;
      DecimalRoundTrip(i, W64);
      ClassKeyOfCaptured(prefix + c + "_" + d, c, d, k.0);
  }

  /** An instanceid too large for a u64 is dropped to `None`. */
  lemma {:induction false} InstanceOverflow(c: u64, big: nat)
    requires !Fits(big, W64)
    ensures ClassKeyOf(Decimal(c) + "_" + Decimal(big)) == Some(Ok((c, None)))
  {
    var d := Decimal(big);
    DecimalValue(big);
    assert IsUnsignedLiteral(d) && UnsignedDigits(d) == d;
    ParseUnsignedErrors(d, W64);
    CapturesOfPair("", Decimal(c), d);
    assert "" + Decimal(c) + "_" + d == Decimal(c) + "_" + d;
    DecimalRoundTrip(c, W64);
    ClassKeyOfCaptured(Decimal(c) + "_" + d, Decimal(c), d, c);
  }

  /** A classid too large for a u64 is an error. */
  lemma {:induction false} ClassOverflow(big: nat)
    requires !Fits(big, W64)
    ensures ClassKeyOf(Decimal(big)) == Some(Err(Custom(IntErrorMessage(PosOverflow))))
  {
    var d := Decimal(big);
    DecimalValue(big);
    assert IsUnsignedLiteral(d) && UnsignedDigits(d) == d;
    ParseUnsignedErrors(d, W64);
    CapturesOfClassOnly("", d);
    assert "" + d == d;
  }
}

=== FILE: classinfo_maps.dfy ===
/** The description (classinfo) caches the response deserializers build:
    every record is stored under its own composite key `(classid, instanceid)`,
    and a later record with the same key replaces an earlier one. */
module ClassInfoMaps {
  import opened Wrappers
  import opened DecimalText
  import opened WireValues
  import opened Deserializers
  import opened ClassKeys
  import opened LastWins

  /** A description record. Only its key fields matter to the caches; the
      rest of the record stays the wire value it was read from. */
  datatype ClassInfo = ClassInfo(classid: u64, instanceid: Option<u64>, details: Wire)

  function KeyOf(ci: ClassInfo): ClassKey {
    (ci.classid, ci.instanceid)
  }

  /** The error for an item whose description is missing from the cache: the
      app (a u32 app id) and the composite key that was looked up. */
  datatype MissingClassInfoError = MissingClassInfoError(appid: nat, classid: u64, instanceid: Option<u64>)

  function Keyed(ci: ClassInfo): (ClassKey, ClassInfo) {
    (KeyOf(ci), ci)
  }

  /** Every stored record sits under its own key. */
  ghost predicate KeysAgree(m: map<ClassKey, ClassInfo>) {
    forall k :: k in m ==> KeyOf(m[k]) == k
  }

  /** No later record carries the key of record `i`. */
  ghost predicate LastWithKey(records: seq<ClassInfo>, i: int)
    requires 0 <= i < |records|
  {
    forall j :: i < j < |records| ==> KeyOf(records[j]) != KeyOf(records[i])
  }

  /** The cache of a sequence of records: exactly their keys, each holding
      the last record that carries it. */
  ghost predicate CacheOf(m: map<ClassKey, ClassInfo>, records: seq<ClassInfo>) {
    && m.Keys == (set i | 0 <= i < |records| :: KeyOf(records[i]))
    && forall i :: 0 <= i < |records| && LastWithKey(records, i) ==>
         KeyOf(records[i]) in m && m[KeyOf(records[i])] == records[i]
  }

  /** The records a sequence of wire values reads as, when every one reads. */
  function Parsed(items: seq<Wire>, parse: Wire -> Result<ClassInfo, DeError>): (records: seq<ClassInfo>)
    requires forall i :: 0 <= i < |items| ==> parse(items[i]).Ok?
    ensures |records| == |items|
    ensures forall i :: 0 <= i < |items| ==> parse(items[i]) == Ok(records[i])
  {
    seq(|items|, i requires 0 <= i < |items| => parse(items[i]).value)
  }

  function RecordSlots(records: seq<ClassInfo>): (slots: Slots<ClassKey, ClassInfo>)
    ensures |slots| == |records|
    ensures forall i :: 0 <= i < |records| ==> slots[i] == Some(Keyed(records[i]))
  {
    seq(|records|, i requires 0 <= i < |records| => Some(Keyed(records[i])))
  }

  /** The slots of a record sequence describe its cache. */
  lemma {:induction false} RecordSlotsDescribe(m: map<ClassKey, ClassInfo>, records: seq<ClassInfo>)
    ensures CacheOf(m, records) <==> BuiltFrom(m, RecordSlots(records))
  {
    var slots := RecordSlots(records);
    var keys := set i | 0 <= i < |records| :: KeyOf(records[i]);
    forall k ensures k in keys <==> k in KeysOf(slots) {
      if k in keys {
        var i :| 0 <= i < |records| && KeyOf(records[i]) == k;
        assert slots[i].value.0 == k;
      }
      if k in KeysOf(slots) {
        var i :| 0 <= i < |slots| && slots[i].Some? && slots[i].value.0 == k;
        assert KeyOf(records[i]) == k;
      }
    }
    assert keys == KeysOf(slots);
    forall i | 0 <= i < |records| ensures LastWithKey(records, i) <==> LastFor(slots, i) {
      assert forall j :: i < j < |records| ==> slots[j].value.0 == KeyOf(records[j]);
    }
  }

  lemma {:induction false} RecordSlotsAgree(slots: Slots<ClassKey, ClassInfo>)
    requires forall i :: 0 <= i < |slots| && slots[i].Some? ==> slots[i].value == Keyed(slots[i].value.1)
    ensures KeysAgree(InsertAll(map[], slots))
  {
    var m := InsertAll(map[], slots);
    forall k | k in m ensures KeyOf(m[k]) == k {
      var i := InsertAllFromSlots(slots, k);
    }
  }

  // ---------------------------------------------------------------------------
  // to_classinfo_map

  /** Reads a sequence of records into the cache; the first record that
      fails to read aborts, and anything but a sequence is refused. */
  function ToClassInfoMap(w: Wire, parse: Wire -> Result<ClassInfo, DeError>): (r: Result<map<ClassKey, ClassInfo>, DeError>)
    ensures r.Ok? ==> w.Seq?
    ensures w.Seq? ==> (r.Ok? <==> forall i :: 0 <= i < |w.items| ==> parse(w.items[i]).Ok?)
    ensures w.Seq? && r.Err? ==>
      exists i :: 0 <= i < |w.items| && parse(w.items[i]) == Err(r.error)
                  && forall j :: 0 <= j < i ==> parse(w.items[j]).Ok?
    ensures !w.Seq? ==> r == Err(InvalidType(UnexpectedOf(w), "a sequence of classinfos"))
  {
    match w
    case Seq(items) =>
      var records :- ReadAll(items, parse);
      Ok(InsertAll(map[], RecordSlots(records)))
    case _ => Reject(w, "a sequence of classinfos")
  }

  /** When every record reads, the result is the cache of the records: each
      record's key is present, a key holds the last record carrying it, and
      nothing else is stored. */
  lemma {:induction false} ToClassInfoMapSpec(items: seq<Wire>, parse: Wire -> Result<ClassInfo, DeError>, m: map<ClassKey, ClassInfo>)
    ensures ToClassInfoMap(Seq(items), parse) == Ok(m) <==>
      (forall i :: 0 <= i < |items| ==> parse(items[i]).Ok?) && CacheOf(m, Parsed(items, parse))
  {
    var r := ToClassInfoMap(Seq(items), parse);
    if forall i :: 0 <= i < |items| ==> parse(items[i]).Ok? {
      var records := Parsed(items, parse);
      assert ReadAll(items, parse).value == records;
      RecordSlotsDescribe(m, records);
      BuiltFromIsInsertAll(m, RecordSlots(records));
    }
  }

  /** Every record is stored under its own key, and there are at most as
      many entries as records. */
  lemma {:induction false} ToClassInfoMapShape(items: seq<Wire>, parse: Wire -> Result<ClassInfo, DeError>)
    requires ToClassInfoMap(Seq(items), parse).Ok?
    ensures KeysAgree(ToClassInfoMap(Seq(items), parse).value)
    ensures |ToClassInfoMap(Seq(items), parse).value| <= |items|
  {
    var records := ReadAll(items, parse).value;
    RecordSlotsAgree(RecordSlots(records));
    InsertAllBuilds(RecordSlots(records));
  }

  // ---------------------------------------------------------------------------
  // deserialize_classinfo_map

  /** One slot per map entry: the record read from the value, under its own
      key, for a key containing a digit, and nothing otherwise; the first
      record that fails to read aborts. */
  function ClassInfoSlots(entries: seq<(string, Wire)>, parse: Wire -> Result<ClassInfo, DeError>): (r: Result<Slots<ClassKey, ClassInfo>, DeError>)
    ensures r.Ok? ==> |r.value| == |entries|
    decreases |entries|
  {
    if |entries| == 0 then Ok([])
    else if ContainsDigit(entries[0].0) then
      var ci :- parse(entries[0].1);
      var slots :- ClassInfoSlots(entries[1..], parse);
      Ok([Some(Keyed(ci))] + slots)
    else
      var slots :- ClassInfoSlots(entries[1..], parse);
      Ok([None] + slots)
  }

  /** A sequence reads as the empty cache; a map is read entry by entry;
      anything else is refused. */
  function DeserializeClassInfoMap(w: Wire, parse: Wire -> Result<ClassInfo, DeError>): (r: Result<map<ClassKey, ClassInfo>, DeError>)
    ensures w.Seq? ==> r == Ok(map[])
    ensures !w.Seq? && !w.Map? ==> r == Err(InvalidType(UnexpectedOf(w), "a map"))
  {
    match w
    case Seq(_) => Ok(map[])
    case Map(entries) =>
      var slots :- ClassInfoSlots(entries, parse);
      Ok(InsertAll(map[], slots))
    case _ => Reject(w, "a map")
  }

  /** The values of the entries whose key contains a digit, in order. */
  function DigitKeyedValues(entries: seq<(string, Wire)>): (vs: seq<Wire>)
    ensures |vs| <= |entries|
  {
    if |entries| == 0 then []
    else if ContainsDigit(entries[0].0) then [entries[0].1] + DigitKeyedValues(entries[1..])
    else DigitKeyedValues(entries[1..])
  }

  /** The present slots, in order. */
  function Present<K, V>(slots: Slots<K, V>): (ps: Slots<K, V>)
    ensures forall i :: 0 <= i < |ps| ==> ps[i].Some?
  {
    if |slots| == 0 then []
    else if slots[0].Some? then [slots[0]] + Present(slots[1..])
    else Present(slots[1..])
  }

  /** Discarded slots insert nothing. */
  lemma {:induction false} InsertAllPresent<K, V>(m: map<K, V>, slots: Slots<K, V>)
    ensures InsertAll(m, slots) == InsertAll(m, Present(slots))
    decreases |slots|
  {
    if |slots| > 0 {
      InsertAllPresent(Insert(m, slots[0]), slots[1..]);
      if slots[0].Some? {
        assert ([slots[0]] + Present(slots[1..]))[1..] == Present(slots[1..]);
      }
    }
  }

  /** Reading the entries one by one fails exactly when reading the
      digit-keyed values as a sequence fails, with the same error, and
      otherwise yields the same records. */
  lemma {:induction false} ClassInfoSlotsAsSequence(entries: seq<(string, Wire)>, parse: Wire -> Result<ClassInfo, DeError>)
    ensures var slots := ClassInfoSlots(entries, parse);
            var records := ReadAll(DigitKeyedValues(entries), parse);
            && slots.Ok? == records.Ok?
            && (slots.Ok? ==> Present(slots.value) == RecordSlots(records.value))
            && (slots.Err? ==> slots.error == records.error)
    decreases |entries|
  {
    if |entries| > 0 {
      ClassInfoSlotsAsSequence(entries[1..], parse);
      if ContainsDigit(entries[0].0) {
        DigitEntryStep(entries, parse);
      } else if ClassInfoSlots(entries[1..], parse).Ok? {
        var slots := ClassInfoSlots(entries, parse).value;
        assert slots[1..] == ClassInfoSlots(entries[1..], parse).value;
      }
    }
  }

  /** The step of ClassInfoSlotsAsSequence for an entry whose key contains a
      digit, given the result for the remaining entries. */
  lemma {:induction false} DigitEntryStep(entries: seq<(string, Wire)>, parse: Wire -> Result<ClassInfo, DeError>)
    requires |entries| > 0 && ContainsDigit(entries[0].0)
    requires var slots := ClassInfoSlots(entries[1..], parse);
            var records := ReadAll(DigitKeyedValues(entries[1..]), parse);
            && slots.Ok? == records.Ok?
            && (slots.Ok? ==> Present(slots.value) == RecordSlots(records.value))
            && (slots.Err? ==> slots.error == records.error)
    ensures var slots := ClassInfoSlots(entries, parse);
            var records := ReadAll(DigitKeyedValues(entries), parse);
            && slots.Ok? == records.Ok?
            && (slots.Ok? ==> Present(slots.value) == RecordSlots(records.value))
            && (slots.Err? ==> slots.error == records.error)
  {
    var rest := entries[1..];
    var restVs := DigitKeyedValues(rest);
    var vs := DigitKeyedValues(entries);
    assert vs == [entries[0].1] + restVs;
    assert vs[0] == entries[0].1 && vs[1..] == restVs;
    var head := parse(entries[0].1);
    var tail := ReadAll(restVs, parse);
    var restSlots := ClassInfoSlots(rest, parse);
    if head.Err? {
      assert ReadAll(vs, parse) == Err(head.error);
      assert ClassInfoSlots(entries, parse) == Err(head.error);
    } else if tail.Err? {
      assert ReadAll(vs, parse) == Err(tail.error);
      assert ClassInfoSlots(entries, parse) == Err(restSlots.error);
    } else {
      var ci := head.value;
      assert ReadAll(vs, parse) == Ok([ci] + tail.value);
      assert ClassInfoSlots(entries, parse) == Ok([Some(Keyed(ci))] + restSlots.value);
      PresentCons(ci, restSlots.value, tail.value);
    }
  }

  /** A keyed record in front of slots that describe `tail` describes the
      record followed by `tail`. */
  lemma {:induction false} PresentCons(ci: ClassInfo, slots: Slots<ClassKey, ClassInfo>, tail: seq<ClassInfo>)
    requires Present(slots) == RecordSlots(tail)
    ensures Present([Some(Keyed(ci))] + slots) == RecordSlots([ci] + tail)
  {
    var all := [Some(Keyed(ci))] + slots;
    assert all[1..] == slots;
    assert RecordSlots([ci] + tail) == [Some(Keyed(ci))] + RecordSlots(tail);
  }

  /** A map reads like the sequence of the values whose keys contain a
      digit: the record's own key decides where it is stored, whatever the
      map key says, and values under other keys are discarded. */
  lemma {:induction false} MapReadsAsSequence(entries: seq<(string, Wire)>, parse: Wire -> Result<ClassInfo, DeError>)
    ensures DeserializeClassInfoMap(Map(entries), parse) == ToClassInfoMap(Seq(DigitKeyedValues(entries)), parse)
  {
    ClassInfoSlotsAsSequence(entries, parse);
    var slots := ClassInfoSlots(entries, parse);
    if slots.Ok? {
      InsertAllPresent(map[], slots.value);
    }
  }

  /** The cache read from a map: that of the records under its digit keys. */
  lemma {:induction false} DeserializeClassInfoMapSpec(entries: seq<(string, Wire)>, parse: Wire -> Result<ClassInfo, DeError>, m: map<ClassKey, ClassInfo>)
    ensures var vs := DigitKeyedValues(entries);
      DeserializeClassInfoMap(Map(entries), parse) == Ok(m) <==>
        (forall i :: 0 <= i < |vs| ==> parse(vs[i]).Ok?) && CacheOf(m, Parsed(vs, parse))
  {
    MapReadsAsSequence(entries, parse);
    ToClassInfoMapSpec(DigitKeyedValues(entries), parse, m);
  }

  /** The digit-keyed values of entries whose keys all contain a digit are
      all of their values. */
  lemma {:induction false} AllDigitKeyed(entries: seq<(string, Wire)>)
    requires forall i :: 0 <= i < |entries| ==> ContainsDigit(entries[i].0)
    ensures DigitKeyedValues(entries) == Values(entries)
    decreases |entries|
  {
    if |entries| > 0 {
      AllDigitKeyed(entries[1..]);
      assert Values(entries) == [entries[0].1] + Values(entries[1..]);
    }
  }

  // ---------------------------------------------------------------------------
  // deserialize_classinfo_map_raw

  /** The entry's key fails to parse: its classid does not fit a u64. */
  predicate KeyFails(key: string) {
    ClassKeyOf(key).Some? && ClassKeyOf(key).value.Err?
  }

  /** The key an entry is stored under, if it is stored. */
  function ParsedKey(key: string): (k: Option<ClassKey>)
    ensures k.Some? <==> ClassKeyOf(key).Some? && ClassKeyOf(key).value.Ok?
  {
    match ClassKeyOf(key)
    case Some(Ok(k)) => Some(k)
    case _ => None
  }

  /** No later entry is stored under the key of entry `i`. */
  ghost predicate LastWithRawKey(entries: seq<(string, Wire)>, i: int)
    requires 0 <= i < |entries| && ParsedKey(entries[i].0).Some?
  {
    forall j :: i < j < |entries| ==> ParsedKey(entries[j].0) != ParsedKey(entries[i].0)
  }

  ghost function RawKeys(entries: seq<(string, Wire)>): set<ClassKey> {
    set i | 0 <= i < |entries| && ParsedKey(entries[i].0).Some? :: ParsedKey(entries[i].0).value
  }

  /** The raw cache of a map: exactly the keys parsed from its keys, each
      holding the raw text of the last value stored under it. */
  ghost predicate RawCacheOf(m: map<ClassKey, string>, entries: seq<(string, Wire)>, render: Wire -> string) {
    && m.Keys == RawKeys(entries)
    && forall i :: 0 <= i < |entries| && ParsedKey(entries[i].0).Some? && LastWithRawKey(entries, i) ==>
         ParsedKey(entries[i].0).value in m && m[ParsedKey(entries[i].0).value] == render(entries[i].1)
  }

  /** What an entry whose key parses inserts: its raw text under the parsed
      key, or nothing for a key without digits. */
  function RawSlotOf(entry: (string, Wire), render: Wire -> string): Option<(ClassKey, string)> {
    match ParsedKey(entry.0)
    case Some(k) => Some((k, render(entry.1)))
    case None => None
  }

  /** One slot per map entry; the first classid that does not fit aborts. */
  function RawSlots(entries: seq<(string, Wire)>, render: Wire -> string): (r: Result<Slots<ClassKey, string>, DeError>)
    ensures r.Ok? <==> forall i :: 0 <= i < |entries| ==> !KeyFails(entries[i].0)
    ensures r.Ok? ==> |r.value| == |entries| && forall i :: 0 <= i < |entries| ==> r.value[i] == RawSlotOf(entries[i], render)
    ensures r.Err? ==> exists i :: 0 <= i < |entries| && KeyFails(entries[i].0) && ClassKeyOf(entries[i].0).value == Err(r.error)
                                 && forall j :: 0 <= j < i ==> !KeyFails(entries[j].0)
    decreases |entries|
  {
    if |entries| == 0 then Ok([])
    else if KeyFails(entries[0].0) then Err(ClassKeyOf(entries[0].0).value.error)
    else
      var slots :- RawSlots(entries[1..], render);
      Ok([RawSlotOf(entries[0], render)] + slots)
  }

  /** Reads a map of raw descriptions keyed by `"<classid>[_<instanceid>]"`;
      anything but a map is refused. */
  function DeserializeClassInfoMapRaw(w: Wire, render: Wire -> string): (r: Result<map<ClassKey, string>, DeError>)
    ensures r.Ok? ==> w.Map?
    ensures w.Map? ==> (r.Ok? <==> forall i :: 0 <= i < |w.entries| ==> !KeyFails(w.entries[i].0))
    ensures w.Map? && r.Err? ==>
      exists i :: 0 <= i < |w.entries| && KeyFails(w.entries[i].0) && ClassKeyOf(w.entries[i].0).value == Err(r.error)
                  && forall j :: 0 <= j < i ==> !KeyFails(w.entries[j].0)
    ensures !w.Map? ==> r == Err(InvalidType(UnexpectedOf(w), "a map"))
  {
    match w
    case Map(entries) =>
      var slots :- RawSlots(entries, render);
      Ok(InsertAll(map[], slots))
    case _ => Reject(w, "a map")
  }

  lemma {:induction false} RawSlotsKeys(entries: seq<(string, Wire)>, render: Wire -> string)
    requires forall i :: 0 <= i < |entries| ==> !KeyFails(entries[i].0)
    ensures KeysOf(RawSlots(entries, render).value) == RawKeys(entries)
  {
    var slots := RawSlots(entries, render).value;
    forall k ensures k in RawKeys(entries) <==> k in KeysOf(slots) {
      if k in RawKeys(entries) {
        var i :| 0 <= i < |entries| && ParsedKey(entries[i].0).Some? && ParsedKey(entries[i].0).value == k;
        assert slots[i].value.0 == k;
      }
      if k in KeysOf(slots) {
        var i :| 0 <= i < |slots| && slots[i].Some? && slots[i].value.0 == k;
        assert ParsedKey(entries[i].0).value == k;
      }
    }
  }

  lemma {:induction false} RawSlotsLast(entries: seq<(string, Wire)>, render: Wire -> string, n: int)
    requires forall i :: 0 <= i < |entries| ==> !KeyFails(entries[i].0)
    requires 0 <= n < |entries| && ParsedKey(entries[n].0).Some?
    ensures RawSlots(entries, render).value[n].Some?
    ensures LastWithRawKey(entries, n) <==> LastFor(RawSlots(entries, render).value, n)
  {
    var slots := RawSlots(entries, render).value;
    assert slots[n] == RawSlotOf(entries[n], render);
  }

  /** The raw slots describe the raw cache. */
  lemma {:induction false} RawSlotsDescribe(entries: seq<(string, Wire)>, render: Wire -> string, m: map<ClassKey, string>)
    requires forall i :: 0 <= i < |entries| ==> !KeyFails(entries[i].0)
    ensures RawCacheOf(m, entries, render) <==> BuiltFrom(m, RawSlots(entries, render).value)
  {
    var slots := RawSlots(entries, render).value;
    RawSlotsKeys(entries, render);
    forall i | 0 <= i < |entries| && ParsedKey(entries[i].0).Some?
      ensures slots[i].Some? && (LastWithRawKey(entries, i) <==> LastFor(slots, i))
    {
      RawSlotsLast(entries, render, i);
    }
  }

  /** When no classid overflows, the result is the raw cache of the map. */
  lemma {:induction false} DeserializeClassInfoMapRawSpec(entries: seq<(string, Wire)>, render: Wire -> string, m: map<ClassKey, string>)
    ensures DeserializeClassInfoMapRaw(Map(entries), render) == Ok(m) <==>
      (forall i :: 0 <= i < |entries| ==> !KeyFails(entries[i].0)) && RawCacheOf(m, entries, render)
  {
    if forall i :: 0 <= i < |entries| ==> !KeyFails(entries[i].0) {
      RawSlotsDescribe(entries, render, m);
      BuiltFromIsInsertAll(m, RawSlots(entries, render).value);
    }
  }

  /** At most one entry per map entry. */
  lemma {:induction false} DeserializeClassInfoMapRawSize(entries: seq<(string, Wire)>, render: Wire -> string)
    requires DeserializeClassInfoMapRaw(Map(entries), render).Ok?
    ensures |DeserializeClassInfoMapRaw(Map(entries), render).value| <= |entries|
  {
    InsertAllBuilds(RawSlots(entries, render).value);
  }
}

=== FILE: confirmation_hash.dfy ===
/** The two secrets-derived values a confirmation request carries: the
    confirmation hash (HMAC-SHA1 of the time and a tag, keyed with the
    identity secret) and the device id (derived from the SHA-1 digest of the
    account id). The digest, HMAC and base64 primitives come from foreign
    crates and are parameters. */
module ConfirmationHash {
  import opened Wrappers
  import opened DecimalText
  import opened Bytes

  /** The foreign primitives: SHA-1, HMAC-SHA1 (key, message), and base64
      encoding and decoding (decoding fails on text that is not base64). */
  datatype Crypto = Crypto(
    sha1: seq<byte> -> seq<byte>,
    hmacSha1: (seq<byte>, seq<byte>) -> seq<byte>,
    base64Encode: seq<byte> -> string,
    base64Decode: string -> Option<seq<byte>>)

  /** SHA-1 digests are 20 bytes long. */
  ghost predicate Sha1Digests(crypto: Crypto) {
    forall m :: |crypto.sha1(m)| == 20
  }

  /** The message the HMAC signs: the time's eight big-endian bytes followed
      by the tag's UTF-8 bytes. */
  function HashMessage(time: i64, tag: string): (m: seq<byte>)
    ensures |m| == 8 + |Utf8(tag)|
  {
    TimeBytes(time) + Utf8(tag)
  }

  /** The message splits back into its time and its tag bytes. */
  lemma {:induction false} HashMessageSplits(time: i64, tag: string)
    ensures TimeOf(HashMessage(time, tag)[..8]) == time
    ensures HashMessage(time, tag)[8..] == Utf8(tag)
  {
    var m := HashMessage(time, tag);
    assert m[..8] == TimeBytes(time);
    TimeBytesRoundTrip(time);
  }

  /** A message whose first eight bytes read as `time` and whose remainder is
      the tag's bytes is the hash message of that time and tag. */
  lemma {:induction false} HashMessageUnique(time: i64, tag: string, m: seq<byte>)
    requires |m| >= 8 && TimeOf(m[..8]) == time && m[8..] == Utf8(tag)
    ensures m == HashMessage(time, tag)
  {
    TimeOfRoundTrip(m[..8]);
    assert TimeBytes(time) == m[..8];
    assert m == m[..8] + m[8..];
  }

  /** For an ASCII tag (such as "conf") the message is `8 + |tag|` bytes. */
  lemma {:induction false} HashMessageAsciiLength(time: i64, tag: string)
    requires IsAscii(tag)
    ensures |HashMessage(time, tag)| == 8 + |tag|
  {
    Utf8Ascii(tag);
  }

  /** `generate_confirmation_hash_for_time`: base64 of the HMAC-SHA1 of the
      hash message, keyed with the base64-decoded identity secret. A secret
      that is not base64 makes the source panic, so it is excluded. What the
      hash signs is stated by `ConfirmationHashSigns`. */
  function GenerateConfirmationHash(crypto: Crypto, time: i64, tag: string, identitySecret: string): string
    requires crypto.base64Decode(identitySecret).Some?
  {
    var key := crypto.base64Decode(identitySecret).value;
    crypto.base64Encode(crypto.hmacSha1(key, HashMessage(time, tag)))
  }

  /** The hash signs exactly the message that reads back as the time and
      the tag. */
  lemma {:induction false} ConfirmationHashSigns(crypto: Crypto, time: i64, tag: string, identitySecret: string, m: seq<byte>)
    requires crypto.base64Decode(identitySecret).Some?
    requires |m| >= 8 && TimeOf(m[..8]) == time && m[8..] == Utf8(tag)
    ensures GenerateConfirmationHash(crypto, time, tag, identitySecret) ==
      crypto.base64Encode(crypto.hmacSha1(crypto.base64Decode(identitySecret).value, m))
  {
    HashMessageUnique(time, tag, m);
  }

  // ---------------------------------------------------------------------------
  // Device id

  const DEVICE_ID_PREFIX: string := "android:"

  /** The regex replacement `^([0-9a-f]{8})([0-9a-f]{4})([0-9a-f]{4})([0-9a-f]{4})([0-9a-f]{12}).*$`
      → `a-b-c-d-e` on lowercase hex text: with at least 32 hex digits the
      first 32 are grouped 8-4-4-4-12 and the rest dropped; shorter text
      does not match and is left as it is. */
  function GroupHex(hex: string): (r: string)
    requires AllLowerHex(hex)
    ensures |hex| >= 32 ==> |r| == 36
    ensures |hex| < 32 ==> r == hex
  {
    if |hex| >= 32 then
      hex[..8] + "-" + hex[8..12] + "-" + hex[12..16] + "-" + hex[16..20] + "-" + hex[20..32]
    else hex
  }

  /** The device id of a digest: `android:` and the grouped hex text. */
  function DeviceIdOf(digest: seq<byte>): (r: string)
    ensures |r| >= |DEVICE_ID_PREFIX| && r[..|DEVICE_ID_PREFIX|] == DEVICE_ID_PREFIX
  {
    HexIsLowerHex(digest);
    DEVICE_ID_PREFIX + GroupHex(Hex(digest))
  }

  /** `get_device_id`: the device id of the SHA-1 digest of the account id's
      decimal text. */
  function GetDeviceId(crypto: Crypto, steamid: u64): (r: string)
    ensures |r| >= 8 && r[..8] == DEVICE_ID_PREFIX
  {
    DeviceIdOf(crypto.sha1(Utf8(Decimal(steamid))))
  }

  /** The hex digits of a 44-character device id, hyphens taken out. */
  function DeviceIdHex(id: string): (hex: string)
    requires |id| == 44
    ensures |hex| == 32
  {
    id[8..16] + id[17..21] + id[22..26] + id[27..31] + id[32..44]
  }

  /** The shape of a device id: `android:`, then 32 lowercase hex digits
      grouped 8-4-4-4-12 by hyphens. */
  predicate IsDeviceId(id: string) {
    && |id| == 44
    && id[..8] == DEVICE_ID_PREFIX
    && id[16] == '-' && id[21] == '-' && id[26] == '-' && id[31] == '-'
    && AllLowerHex(DeviceIdHex(id))
  }

  /** The digest bytes a device id spells. */
  function DigestOfDeviceId(id: string): (bs: seq<byte>)
    requires IsDeviceId(id)
    ensures |bs| == 16
  {
    Unhex(DeviceIdHex(id))
  }

  /** Where the parts of a device id sit. */
  lemma {:induction false} DeviceIdLayout(digest: seq<byte>)
    requires |digest| >= 16
    ensures |DeviceIdOf(digest)| == 44
    ensures DeviceIdHex(DeviceIdOf(digest)) == Hex(digest)[..32]
  {
    var hex := Hex(digest);
    HexIsLowerHex(digest);
    var id := DeviceIdOf(digest);
    assert id == DEVICE_ID_PREFIX + (hex[..8] + "-" + hex[8..12] + "-" + hex[12..16] + "-" + hex[16..20] + "-" + hex[20..32]);
    assert id[8..16] == hex[..8];
    assert id[17..21] == hex[8..12];
    assert id[22..26] == hex[12..16];
    assert id[27..31] == hex[16..20];
    assert id[32..44] == hex[20..32];
    assert hex[..32] == hex[..8] + hex[8..12] + hex[12..16] + hex[16..20] + hex[20..32];
  }

  /** A device id has the 44-character shape and spells the first 16 bytes
      of the digest; the hyphens sit after the 8th, 12th, 16th and 20th hex
      digit. */
  lemma {:induction false} DeviceIdShape(digest: seq<byte>)
    requires |digest| >= 16
    ensures IsDeviceId(DeviceIdOf(digest))
    ensures DigestOfDeviceId(DeviceIdOf(digest)) == digest[..16]
  {
    var id := DeviceIdOf(digest);
    DeviceIdLayout(digest);
    HexPrefix(digest, 16);
    HexRoundTrip(digest[..16]);
    var hex := Hex(digest);
    assert id == DEVICE_ID_PREFIX + (hex[..8] + "-" + hex[8..12] + "-" + hex[12..16] + "-" + hex[16..20] + "-" + hex[20..32]);
  }

  /** Digest bytes after the sixteenth do not affect the device id. */
  lemma {:induction false} DeviceIdIgnoresTail(a: seq<byte>, b: seq<byte>)
    requires |a| >= 16 && |b| >= 16 && a[..16] == b[..16]
    ensures DeviceIdOf(a) == DeviceIdOf(b)
  {
    HexPrefix(a, 16);
    HexPrefix(b, 16);
    HexIsLowerHex(a);
    HexIsLowerHex(b);
    var ha, hb := Hex(a), Hex(b);
    assert ha[..32] == hb[..32];
    assert ha[..8] == hb[..8] && ha[8..12] == hb[8..12] && ha[12..16] == hb[12..16];
    assert ha[16..20] == hb[16..20] && ha[20..32] == hb[20..32];
  }

  /** Different leading 16 bytes give different device ids. */
  lemma {:induction false} DeviceIdInjective(a: seq<byte>, b: seq<byte>)
    requires |a| >= 16 && |b| >= 16 && DeviceIdOf(a) == DeviceIdOf(b)
    ensures a[..16] == b[..16]
  {
    DeviceIdShape(a);
    DeviceIdShape(b);
  }

  /** With a SHA-1 that yields 20 bytes, every account's device id has the
      44-character shape and spells the first 16 bytes of its digest. */
  lemma {:induction false} GetDeviceIdShape(crypto: Crypto, steamid: u64)
    requires Sha1Digests(crypto)
    ensures IsDeviceId(GetDeviceId(crypto, steamid))
    ensures DigestOfDeviceId(GetDeviceId(crypto, steamid)) == crypto.sha1(Utf8(Decimal(steamid)))[..16]
  {
    var digest := crypto.sha1(Utf8(Decimal(steamid)));
    assert |digest| == 20;
    DeviceIdShape(digest);
  }

  /** The digest is taken over the account id's decimal digits, one byte per
      digit. */
  lemma {:induction false} DeviceIdInput(steamid: u64)
    ensures |Utf8(Decimal(steamid))| == |Decimal(steamid)|
    ensures forall i :: 0 <= i < |Decimal(steamid)| ==> '0' as int <= Utf8(Decimal(steamid))[i] <= '9' as int
  {
    var s := Decimal(steamid);
    assert IsAscii(s) by {
      forall i | 0 <= i < |s| ensures s[i] as int < 0x80 {
        assert IsDigit(s[i]);
      }
    }
    Utf8Ascii(s);
  }
}

=== FILE: confirmation_method.dfy ===
/** `ConfirmationMethod`: how a trade offer is confirmed, carried on the wire
    as its one-byte code and printed and read by variant name. */
module ConfirmationMethods {
  import opened Wrappers
  import opened WireValues
  import opened Bytes
  import opened TextOps

  datatype ConfirmationMethod = None | Email | MobileApp

  /** `u8::from(method)`: the declared discriminant. */
  function Code(m: ConfirmationMethod): (c: byte)
    ensures c <= 2
  {
    match m
    case None => 0
    case Email => 1
    case MobileApp => 2
  }

  /** `ConfirmationMethod::try_from(code)`. */
  function FromCode(c: byte): (r: Option<ConfirmationMethod>)
    ensures r.Some? <==> c <= 2
    ensures r.Some? ==> Code(r.value) == c
  {
    if c == 0 then Some(ConfirmationMethod.None)
    else if c == 1 then Some(Email)
    else if c == 2 then Some(MobileApp)
    else Option.None
  }

  lemma {:induction false} CodeRoundTrip(m: ConfirmationMethod)
    ensures FromCode(Code(m)) == Some(m)
  {
  }

  lemma {:induction false} CodeInjective(a: ConfirmationMethod, b: ConfirmationMethod)
    requires Code(a) == Code(b)
    ensures a == b
  {
    CodeRoundTrip(a);
    CodeRoundTrip(b);
  }

  /** strum's `Display`: the variant name. */
  function Name(m: ConfirmationMethod): (name: string)
    ensures IsVariantName(name)
  {
    match m
    case None => "None"
    case Email => "Email"
    case MobileApp => "MobileApp"
  }

  /** strum's `FromStr`: exactly the variant names, case-sensitively. */
  function FromName(name: string): (r: Option<ConfirmationMethod>)
    ensures r.Some? ==> Name(r.value) == name
  {
    if name == "None" then Some(ConfirmationMethod.None)
    else if name == "Email" then Some(Email)
    else if name == "MobileApp" then Some(MobileApp)
    else Option.None
  }

  lemma {:induction false} NameRoundTrip(m: ConfirmationMethod)
    ensures FromName(Name(m)) == Some(m)
  {
  }

  /** `Serialize_repr`: the bare code. */
  function Serialize(m: ConfirmationMethod): (w: Wire)
    ensures w.U64? && w.n <= 2
  {
    U64(Code(m))
  }

  /** `Deserialize_repr`: a `u8`, then its variant. */
  function Deserialize(w: Wire): (r: Result<ConfirmationMethod, DeError>)
    ensures r.Ok? <==> w.U64? && w.n <= 2
    ensures w.U64? && 2 < w.n <= 0xFF ==> r == Err(InvalidDiscriminant(w.n))
    ensures !(w.U64? && w.n <= 0xFF) ==> r == U8Of(w).PropagateFailure()
  {
    match U8Of(w)
    case Err(e) => Err(e)
    case Ok(c) =>
      match FromCode(c)
      case Some(m) => Ok(m)
      case None => Err(InvalidDiscriminant(c))
  }

  lemma {:induction false} SerializeRoundTrip(m: ConfirmationMethod)
    ensures Deserialize(Serialize(m)) == Ok(m)
  {
    CodeRoundTrip(m);
  }

  lemma {:induction false} DeserializeSpec(w: Wire, m: ConfirmationMethod)
    ensures Deserialize(w) == Ok(m) <==> w == Serialize(m)
  {
    if Deserialize(w) == Ok(m) {
      assert FromCode(w.n) == Some(m);
    }
    CodeRoundTrip(m);
  }
}

=== FILE: confirmation_page.dfy ===
/** `parse_confirmations`: reading the confirmations out of the mobile
    confirmation page. An empty-list marker short-circuits the page (with a
    server message or with no confirmations); otherwise every list entry is
    read into a `Confirmation`, and the first entry that cannot be read
    fails the page. The confirmation type's conversion from its `data-type`
    text is a parameter, together with the `Unknown` value it falls back to. */
module ConfirmationPage {
  import opened Wrappers
  import opened DecimalText
  import opened TextOps
  import opened HtmlTree

  /** `ParseHtmlError`. */
  datatype ParseHtmlError =
    | Malformed(msg: string)
    | Response(msg: string)
    | ParseInt(kind: IntErrorKind)

  /** A confirmation, with its type drawn from `K`. */
  datatype Confirmation<K> = Confirmation(id: u64, key: u64, confType: K, description: string, creator: u64)

  const EMPTY_MARKER: Selector := ById("mobileconf_empty")
  const DONE: Selector := ByClass("mobileconf_done")
  const DIV: Selector := ByName("div")
  const LIST_ENTRY: Selector := ByClass("mobileconf_list_entry")
  const DESCRIPTION: Selector := ByClass("mobileconf_list_entry_description")
  const MALFORMED: string := "Unexpected description format"

  /** `s.parse::<u64>()?` inside the parser: a parse failure becomes `ParseInt`. */
  function ParseU64(s: string): (r: Result<u64, ParseHtmlError>)
    ensures r.Ok? <==> IsUnsignedLiteral(s) && Fits(Value(UnsignedDigits(s)), W64)
    ensures r.Ok? ==> r.value == Value(UnsignedDigits(s))
    ensures r.Err? ==> ParseUnsigned(s, W64).Err? && r.error == ParseInt(ParseUnsigned(s, W64).error)
  {
    match ParseUnsigned(s, W64)
    case Ok(n) =>
      ParseUnsignedSpec(s, W64, n);
      Ok(n)
    case Err(kind) =>
      if IsUnsignedLiteral(s) then
        ParseUnsignedSpec(s, W64, Value(UnsignedDigits(s)));
        Err(ParseInt(kind))
      else Err(ParseInt(kind))
  }

  // ---------------------------------------------------------------------------
  // Description text

  /** The trimmed text pieces that are not empty, in order. */
  function NonEmptyTrimmed(texts: seq<string>): (r: seq<string>)
    ensures |r| <= |texts|
    ensures forall i :: 0 <= i < |r| ==> r[i] != "" && Trimmed(r[i])
    decreases |texts|
  {
    if |texts| == 0 then []
    else if Trim(texts[0]) == "" then NonEmptyTrimmed(texts[1..])
    else [Trim(texts[0])] + NonEmptyTrimmed(texts[1..])
  }

  /** The pieces are kept in order: the survivors of a concatenation are
      the first part's survivors followed by the second's. */
  lemma {:induction false} NonEmptyTrimmedAppend(a: seq<string>, b: seq<string>)
    ensures NonEmptyTrimmed(a + b) == NonEmptyTrimmed(a) + NonEmptyTrimmed(b)
    decreases |a|
  {
    if |a| == 0 {
      assert a + b == b;
    } else {
      assert (a + b)[0] == a[0];
      assert (a + b)[1..] == a[1..] + b;
      NonEmptyTrimmedAppend(a[1..], b);
    }
  }

  /** A single piece survives, trimmed, exactly when its trim is not empty. */
  lemma {:induction false} NonEmptyTrimmedOne(t: string)
    ensures NonEmptyTrimmed([t]) == if Trim(t) == "" then [] else [Trim(t)]
  {
    assert [t][1..] == [];
  }

  /** The description: the trimmed, non-empty text pieces joined by single
      spaces. */
  function DescriptionText(texts: seq<string>): (description: string)
    ensures Trimmed(description)
    ensures description == "" <==> forall i :: 0 <= i < |texts| ==> Trim(texts[i]) == ""
  {
    JoinTrimmed(NonEmptyTrimmed(texts));
    NonEmptyTrimmedNone(texts);
    JoinSpace(NonEmptyTrimmed(texts))
  }

  /** Descriptions compose: the description of two non-blank runs of
      pieces is the first run's description, one space, then the second's. */
  lemma {:induction false} DescriptionTextAppend(a: seq<string>, b: seq<string>)
    requires DescriptionText(a) != "" && DescriptionText(b) != ""
    ensures DescriptionText(a + b) == DescriptionText(a) + " " + DescriptionText(b)
  {
    NonEmptyTrimmedAppend(a, b);
    JoinSpaceAppend(NonEmptyTrimmed(a), NonEmptyTrimmed(b));
  }

  /** The description of a single piece is that piece trimmed. */
  lemma {:induction false} DescriptionTextOne(t: string)
    ensures DescriptionText([t]) == Trim(t)
  {
    NonEmptyTrimmedOne(t);
  }

  /** No piece survives exactly when every piece is whitespace. */
  lemma {:induction false} NonEmptyTrimmedNone(texts: seq<string>)
    ensures NonEmptyTrimmed(texts) == [] <==> forall i :: 0 <= i < |texts| ==> Trim(texts[i]) == ""
    decreases |texts|
  {
    if |texts| > 0 {
      NonEmptyTrimmedNone(texts[1..]);
      if forall i :: 0 <= i < |texts[1..]| ==> Trim(texts[1..][i]) == "" {
        forall i | 0 <= i < |texts| ensures Trim(texts[0]) == "" ==> Trim(texts[i]) == "" {
          if i > 0 {
            assert texts[i] == texts[1..][i - 1];
          }
        }
      }
      if forall i :: 0 <= i < |texts| ==> Trim(texts[i]) == "" {
        forall i | 0 <= i < |texts[1..]| ensures Trim(texts[1..][i]) == "" {
          assert texts[1..][i] == texts[i + 1];
        }
      }
    }
  }

  /** Joining non-empty pieces with no whitespace at their ends gives text
      with no whitespace at its ends, and empty text only for no pieces. */
  lemma {:induction false} JoinTrimmed(parts: seq<string>)
    requires forall i :: 0 <= i < |parts| ==> parts[i] != "" && Trimmed(parts[i])
    ensures Trimmed(JoinSpace(parts))
    ensures JoinSpace(parts) == "" <==> parts == []
  {
    if |parts| > 0 {
      JoinSpaceEnds(parts);
      var j := JoinSpace(parts);
      var first, last := parts[0], parts[|parts| - 1];
      assert j[0] == j[..|first|][0] == first[0];
      assert j[|j| - 1] == j[|j| - |last|..][|last| - 1] == last[|last| - 1];
    }
  }

  // ---------------------------------------------------------------------------
  // One list entry

  /** The entry has a description child and the `data-type`, `data-key` and
      `data-creator` attributes. */
  predicate HasRequiredParts(e: Node) {
    && e.Element?
    && |SelectWithin(e, DESCRIPTION)| > 0
    && "data-type" in e.attrs && "data-key" in e.attrs && "data-creator" in e.attrs
  }

  /** The source unwraps `data-confid` without checking it: an entry that
      passes the check but lacks it panics. */
  predicate Panics(e: Node) {
    HasRequiredParts(e) && "data-confid" !in e.attrs
  }

  /** The entry cannot be read: it lacks a required part or one of its
      three numbers is not a u64 literal. */
  predicate EntryFails(e: Node) {
    || !HasRequiredParts(e)
    || ("data-confid" in e.attrs && ParseUnsigned(e.attrs["data-confid"], W64).Err?)
    || ParseUnsigned(e.attrs["data-key"], W64).Err?
    || ParseUnsigned(e.attrs["data-creator"], W64).Err?
  }

  /** `parse_description`. */
  function ParseDescription<K>(e: Node, convert: string -> Option<K>, unknown: K): (r: Result<Confirmation<K>, ParseHtmlError>)
    requires e.Element? && !Panics(e)
    ensures r == Err(Malformed(MALFORMED)) <==> !HasRequiredParts(e)
    ensures r.Ok? <==> !EntryFails(e)
    ensures r.Err? && HasRequiredParts(e) ==> r.error.ParseInt?
    ensures r.Ok? ==>
      && IsUnsignedLiteral(e.attrs["data-confid"]) && r.value.id == Value(UnsignedDigits(e.attrs["data-confid"]))
      && IsUnsignedLiteral(e.attrs["data-key"]) && r.value.key == Value(UnsignedDigits(e.attrs["data-key"]))
      && IsUnsignedLiteral(e.attrs["data-creator"]) && r.value.creator == Value(UnsignedDigits(e.attrs["data-creator"]))
      && (convert(e.attrs["data-type"]).Some? ==> r.value.confType == convert(e.attrs["data-type"]).value)
      && (convert(e.attrs["data-type"]).None? ==> r.value.confType == unknown)
      && r.value.description == DescriptionText(TextOf(SelectWithin(e, DESCRIPTION)[0]))
  {
    var description := First(SelectWithin(e, DESCRIPTION));
    if description.None? || "data-type" !in e.attrs || "data-key" !in e.attrs || "data-creator" !in e.attrs then
      Err(Malformed(MALFORMED))
    else
      var confType := match convert(e.attrs["data-type"]) case Some(k) => k case None => unknown;
      var id :- ParseU64(e.attrs["data-confid"]);
      var key :- ParseU64(e.attrs["data-key"]);
      var creator :- ParseU64(e.attrs["data-creator"]);
      Ok(Confirmation(id, key, confType, DescriptionText(TextOf(description.value)), creator))
  }

  /** On a complete entry the error is that of the first of `data-confid`,
      `data-key` and `data-creator`, in that order, that does not parse,
      with its `ParseIntError` kind. */
  lemma {:induction false} ParseDescriptionFirstError<K>(e: Node, convert: string -> Option<K>, unknown: K)
    requires e.Element? && !Panics(e) && HasRequiredParts(e)
    ensures "data-confid" in e.attrs
    ensures var r := ParseDescription(e, convert, unknown);
      var id := ParseU64(e.attrs["data-confid"]);
      var key := ParseU64(e.attrs["data-key"]);
      var creator := ParseU64(e.attrs["data-creator"]);
      && (id.Err? ==> r == Err(id.error))
      && (id.Ok? && key.Err? ==> r == Err(key.error))
      && (id.Ok? && key.Ok? && creator.Err? ==> r == Err(creator.error))
  {
  }

  /** An entry is read exactly when it has every part and its three numbers
      are unsigned decimal literals that fit a u64. */
  lemma {:induction false} EntryFailsSpec(e: Node)
    requires HasRequiredParts(e) && "data-confid" in e.attrs
    ensures !EntryFails(e) <==>
      && IsUnsignedLiteral(e.attrs["data-confid"]) && Fits(Value(UnsignedDigits(e.attrs["data-confid"])), W64)
      && IsUnsignedLiteral(e.attrs["data-key"]) && Fits(Value(UnsignedDigits(e.attrs["data-key"])), W64)
      && IsUnsignedLiteral(e.attrs["data-creator"]) && Fits(Value(UnsignedDigits(e.attrs["data-creator"])), W64)
  {
    U64TextSpec(e.attrs["data-confid"]);
    U64TextSpec(e.attrs["data-key"]);
    U64TextSpec(e.attrs["data-creator"]);
  }

  lemma {:induction false} U64TextSpec(s: string)
    ensures ParseUnsigned(s, W64).Ok? <==> IsUnsignedLiteral(s) && Fits(Value(UnsignedDigits(s)), W64)
  {
    if IsUnsignedLiteral(s) {
      ParseUnsignedSpec(s, W64, Value(UnsignedDigits(s)));
    }
    if ParseUnsigned(s, W64).Ok? {
      ParseUnsignedSpec(s, W64, ParseUnsigned(s, W64).value);
    }
  }

  // ---------------------------------------------------------------------------
  // All list entries

  /** Reading the entries in order never reaches one that panics: each entry
      up to the first failing one is an element that does not panic. */
  predicate SafeEntries(es: seq<Node>)
    decreases |es|
  {
    |es| == 0 || (es[0].Element? && !Panics(es[0]) && (!EntryFails(es[0]) ==> SafeEntries(es[1..])))
  }

  /** `collect::<Result<Vec<_>, _>>()` over the entries: the confirmations in
      order, or the error of the first entry that fails. */
  function ParseEntries<K>(es: seq<Node>, convert: string -> Option<K>, unknown: K): (r: Result<seq<Confirmation<K>>, ParseHtmlError>)
    requires SafeEntries(es)
    ensures r.Ok? <==> forall i :: 0 <= i < |es| ==> !EntryFails(es[i])
    ensures r.Ok? ==> |r.value| == |es|
    decreases |es|
  {
    if |es| == 0 then Ok([])
    else
      match ParseDescription(es[0], convert, unknown)
      case Err(err) => Err(err)
      case Ok(c) =>
        match ParseEntries(es[1..], convert, unknown)
        case Err(err) => Err(err)
        case Ok(rest) =>
          AllAfterFirst(es);
          Ok([c] + rest)
  }

  lemma {:induction false} AllAfterFirst(es: seq<Node>)
    requires |es| > 0 && !EntryFails(es[0])
    ensures (forall i :: 0 <= i < |es| ==> !EntryFails(es[i])) <==> (forall i :: 0 <= i < |es[1..]| ==> !EntryFails(es[1..][i]))
  {
    if forall i :: 0 <= i < |es[1..]| ==> !EntryFails(es[1..][i]) {
      forall i | 0 <= i < |es| ensures !EntryFails(es[i]) {
        if i > 0 {
          assert es[i] == es[1..][i - 1];
        }
      }
    }
  }

  /** When the list is read, confirmation `i` is entry `i` read. */
  lemma {:induction false} ParseEntriesValues<K>(es: seq<Node>, convert: string -> Option<K>, unknown: K, i: nat)
    requires SafeEntries(es) && i < |es|
    requires ParseEntries(es, convert, unknown).Ok?
    ensures es[i].Element? && !Panics(es[i]) && ParseDescription(es[i], convert, unknown).Ok?
    ensures ParseEntries(es, convert, unknown).value[i] == ParseDescription(es[i], convert, unknown).value
    decreases i
  {
    if i > 0 {
      ParseEntriesShift(es, convert, unknown, i);
      ParseEntriesValues(es[1..], convert, unknown, i - 1);
      var e := es[i];
      assert e == es[1..][i - 1];
      assert ParseDescription(e, convert, unknown) == ParseDescription(es[1..][i - 1], convert, unknown);
    } else {
      ParseEntriesUnfold(es, convert, unknown);
    }
  }

  /** Confirmation `i > 0` of a list is confirmation `i - 1` of its tail. */
  lemma {:induction false} ParseEntriesShift<K>(es: seq<Node>, convert: string -> Option<K>, unknown: K, i: nat)
    requires SafeEntries(es) && 0 < i < |es|
    requires ParseEntries(es, convert, unknown).Ok?
    ensures es[1..][i - 1] == es[i]
    ensures SafeEntries(es[1..]) && ParseEntries(es[1..], convert, unknown).Ok?
    ensures ParseEntries(es, convert, unknown).value[i] == ParseEntries(es[1..], convert, unknown).value[i - 1]
  {
    ParseEntriesUnfold(es, convert, unknown);
  }

  /** A list that is read is its first entry read, then the rest read. */
  lemma {:induction false} ParseEntriesUnfold<K>(es: seq<Node>, convert: string -> Option<K>, unknown: K)
    requires SafeEntries(es) && |es| > 0
    requires ParseEntries(es, convert, unknown).Ok?
    ensures es[0].Element? && !Panics(es[0]) && ParseDescription(es[0], convert, unknown).Ok?
    ensures SafeEntries(es[1..]) && ParseEntries(es[1..], convert, unknown).Ok?
    ensures ParseEntries(es, convert, unknown).value
      == [ParseDescription(es[0], convert, unknown).value] + ParseEntries(es[1..], convert, unknown).value
  {
  }

  /** The error is the error of the first entry that fails. */
  lemma {:induction false} ParseEntriesFirstFailure<K>(es: seq<Node>, convert: string -> Option<K>, unknown: K, i: nat)
    requires SafeEntries(es) && i < |es| && EntryFails(es[i])
    requires forall j :: 0 <= j < i ==> !EntryFails(es[j])
    ensures es[i].Element? && !Panics(es[i])
    ensures ParseEntries(es, convert, unknown) == Err(ParseDescription(es[i], convert, unknown).error)
    decreases i
  {
    if i > 0 {
      assert !EntryFails(es[0]);
      assert es[1..][i - 1] == es[i];
      forall j | 0 <= j < i - 1 ensures !EntryFails(es[1..][j]) {
        assert es[1..][j] == es[j + 1];
      }
      ParseEntriesFirstFailure(es[1..], convert, unknown, i - 1);
    }
  }

  // ---------------------------------------------------------------------------
  // The page

  /** The page can be read without a panic: it has an empty-list marker, or
      reading its list entries never reaches a panicking one. */
  predicate PageReadable(fragment: seq<Node>) {
    |Select(fragment, EMPTY_MARKER)| > 0 || SafeEntries(Select(fragment, LIST_ENTRY))
  }

  /** `parse_confirmations`. */
  function ParseConfirmations<K>(fragment: seq<Node>, convert: string -> Option<K>, unknown: K): (r: Result<seq<Confirmation<K>>, ParseHtmlError>)
    requires PageReadable(fragment)
    ensures |Select(fragment, EMPTY_MARKER)| > 0 ==> r == Ok([]) || (r.Err? && r.error.Response?)
    ensures r.Ok? && r.value != [] ==> |Select(fragment, EMPTY_MARKER)| == 0
  {
    match First(Select(fragment, EMPTY_MARKER))
    case Some(marker) =>
      if Matches(DONE, marker) then
        var divs := SelectWithin(marker, DIV);
        if |divs| >= 2 then Err(Response(Concat(TextOf(divs[1])))) else Ok([])
      else Ok([])
    case None =>
      ParseEntries(Select(fragment, LIST_ENTRY), convert, unknown)
  }

  /** A server message comes only from a `mobileconf_done` empty marker: it
      is the text of the second `div` below the first marker, and each of its
      pieces is a text node inside that marker. */
  lemma {:induction false} ResponseFromMarker<K>(fragment: seq<Node>, convert: string -> Option<K>, unknown: K)
    requires PageReadable(fragment)
    ensures var r := ParseConfirmations(fragment, convert, unknown);
      r.Err? && r.error.Response? <==>
        && |Select(fragment, EMPTY_MARKER)| > 0
        && Matches(DONE, Select(fragment, EMPTY_MARKER)[0])
        && |SelectWithin(Select(fragment, EMPTY_MARKER)[0], DIV)| >= 2
    ensures var r := ParseConfirmations(fragment, convert, unknown);
      r.Err? && r.error.Response? ==>
        var marker := Select(fragment, EMPTY_MARKER)[0];
        var div := SelectWithin(marker, DIV)[1];
        && r.error.msg == Concat(TextOf(div))
        && InForest(div, marker.children)
        && forall t :: t in TextOf(div) ==> InForest(Text(t), div.children)
  {
    var r := ParseConfirmations(fragment, convert, unknown);
    if |Select(fragment, EMPTY_MARKER)| == 0 {
      var es := Select(fragment, LIST_ENTRY);
      if r.Err? {
        var i := FirstFailing(es);
        ParseEntriesFirstFailure(es, convert, unknown, i);
      }
    } else {
      var marker := Select(fragment, EMPTY_MARKER)[0];
      if Matches(DONE, marker) && |SelectWithin(marker, DIV)| >= 2 {
        var div := SelectWithin(marker, DIV)[1];
        SelectMembers(marker.children, DIV, div);
        forall t | t in TextOf(div) ensures InForest(Text(t), div.children) {
          TextsMembers(t, div.children);
        }
      }
    }
  }

  /** The index of the first entry that fails, when one does. */
  lemma {:induction false} FirstFailing(es: seq<Node>) returns (i: nat)
    requires exists j :: 0 <= j < |es| && EntryFails(es[j])
    ensures i < |es| && EntryFails(es[i])
    ensures forall j :: 0 <= j < i ==> !EntryFails(es[j])
    decreases |es|
  {
    if EntryFails(es[0]) {
      i := 0;
    } else {
      var k :| 0 <= k < |es| && EntryFails(es[k]);
      assert es[1..][k - 1] == es[k];
      var i' := FirstFailing(es[1..]);
      i := i' + 1;
      forall j | 0 < j < i ensures !EntryFails(es[j]) {
        assert es[j] == es[1..][j - 1];
      }
    }
  }

  /** Without an empty marker, the page yields one confirmation per list
      entry, in document order, or fails exactly when some entry fails. */
  lemma {:induction false} EntriesWithoutMarker<K>(fragment: seq<Node>, convert: string -> Option<K>, unknown: K, i: nat)
    requires PageReadable(fragment) && |Select(fragment, EMPTY_MARKER)| == 0
    ensures var es := Select(fragment, LIST_ENTRY);
      ParseConfirmations(fragment, convert, unknown).Ok? <==> forall j :: 0 <= j < |es| ==> !EntryFails(es[j])
    ensures var es := Select(fragment, LIST_ENTRY);
      var r := ParseConfirmations(fragment, convert, unknown);
      r.Ok? ==> |r.value| == |es| && (i < |es| ==> es[i].Element? && !Panics(es[i]) && r.value[i] == ParseDescription(es[i], convert, unknown).value)
  {
    var es := Select(fragment, LIST_ENTRY);
    var r := ParseConfirmations(fragment, convert, unknown);
    if r.Ok? && i < |es| {
      ParseEntriesValues(es, convert, unknown, i);
    }
  }

  /** A failure that is not a server message names an entry: `Malformed`
      when some entry lacks a required part, `ParseInt` when some entry has
      every part but a number that does not parse. */
  lemma {:induction false} EntryErrors<K>(fragment: seq<Node>, convert: string -> Option<K>, unknown: K)
    requires PageReadable(fragment)
    ensures var r := ParseConfirmations(fragment, convert, unknown);
      var es := Select(fragment, LIST_ENTRY);
      && (r.Err? && r.error.Malformed? ==> r.error.msg == MALFORMED && exists j :: 0 <= j < |es| && !HasRequiredParts(es[j]))
      && (r.Err? && r.error.ParseInt? ==> exists j :: 0 <= j < |es| && HasRequiredParts(es[j]) && EntryFails(es[j]))
  {
    var r := ParseConfirmations(fragment, convert, unknown);
    var es := Select(fragment, LIST_ENTRY);
    if r.Err? && !r.error.Response? {
      assert |Select(fragment, EMPTY_MARKER)| == 0;
      var i := FirstFailing(es);
      ParseEntriesFirstFailure(es, convert, unknown, i);
    }
  }
}

=== FILE: decimal.dfy ===
/** Decimal text of integers, as Rust prints (`Display`, `to_string`) and reads
    (`str::parse`) them. Every wire value that arrives or leaves as a decimal
    string goes through this module. */
module DecimalText {
  import opened Wrappers

  const U64_LIMIT: int := 0x1_0000_0000_0000_0000
  const I64_LIMIT: int := 0x8000_0000_0000_0000

  /** Rust's `u64` and `i64` value ranges. */
  type u64 = n: int | 0 <= n < U64_LIMIT
  type i64 = n: int | -I64_LIMIT <= n < I64_LIMIT

  /** The unsigned integer types a numeric field can be read into. */
  datatype Width = W8 | W16 | W32 | W64

  function MaxOf(w: Width): nat {
    match w
    case W8 => 0xFF
    case W16 => 0xFFFF
    case W32 => 0xFFFF_FFFF
    case W64 => 0xFFFF_FFFF_FFFF_FFFF
  }

  /** `T::try_from(n)` succeeds for the target width. */
  predicate Fits(n: nat, w: Width) {
    n <= MaxOf(w)
  }

  predicate IsDigit(c: char) {
    '0' <= c <= '9'
  }

  predicate AllDigits(s: string) {
    forall i :: 0 <= i < |s| ==> IsDigit(s[i])
  }

  function DigitValue(c: char): nat
    requires IsDigit(c)
  {
    c as int - '0' as int
  }

  function DigitChar(d: nat): (c: char)
    requires d < 10
    ensures IsDigit(c) && DigitValue(c) == d
  {
    ('0' as int + d) as char
  }

  /** The number a digit string denotes, read left to right on top of `acc`. */
  function ValueFrom(acc: nat, s: string): nat
    requires AllDigits(s)
    decreases |s|
  {
    if |s| == 0 then acc else ValueFrom(acc * 10 + DigitValue(s[0]), s[1..])
  }

  function Value(s: string): nat
    requires AllDigits(s)
  {
    ValueFrom(0, s)
  }

  lemma {:induction false} ValueFromAtLeast(acc: nat, s: string)
    requires AllDigits(s)
    ensures ValueFrom(acc, s) >= acc
    decreases |s|
  {
    if |s| > 0 {
      ValueFromAtLeast(acc * 10 + DigitValue(s[0]), s[1..]);
    }
  }

  lemma {:induction false} ValueFromAppend(acc: nat, s: string, c: char)
    requires AllDigits(s) && IsDigit(c)
    ensures AllDigits(s + [c])
    ensures ValueFrom(acc, s + [c]) == ValueFrom(acc, s) * 10 + DigitValue(c)
    decreases |s|
  {
    if |s| == 0 {
      assert s + [c] == [c];
    } else {
      assert (s + [c])[1..] == s[1..] + [c];
      ValueFromAppend(acc * 10 + DigitValue(s[0]), s[1..], c);
    }
  }

  /** Rust's `Display` of an unsigned integer: the shortest decimal form,
      which starts with '0' only for zero itself. */
  function Decimal(n: nat): (s: string)
    ensures |s| > 0 && AllDigits(s)
    ensures s[0] == '0' <==> n == 0
    decreases n
  {
    if n < 10 then [DigitChar(n)] else Decimal(n / 10) + [DigitChar(n % 10)]
  }

  /** The printed digits denote the number printed. */
  lemma {:induction false} DecimalValue(n: nat)
    ensures Value(Decimal(n)) == n
    decreases n
  {
    if n < 10 {
      var single := Decimal(n);
      assert single[1..] == [];
      assert ValueFrom(0, single) == ValueFrom(n, single[1..]);
    } else {
      DecimalValue(n / 10);
      ValueFromAppend(0, Decimal(n / 10), DigitChar(n % 10));
    }
  }

  lemma {:induction false} DecimalInjective(a: nat, b: nat)
    requires Decimal(a) == Decimal(b)
    ensures a == b
  {
    DecimalValue(a);
    DecimalValue(b);
  }

  /** Rust's `Display` of a signed integer (`i64::to_string`). */
  function SignedDecimal(t: int): string {
    if t < 0 then "-" + Decimal(-t) else Decimal(t)
  }

  /** The number a signed decimal literal denotes. */
  function SignedValue(s: string): int
    requires |s| > 0
    requires if s[0] == '-' then AllDigits(s[1..]) else AllDigits(s)
  {
    if s[0] == '-' then -(Value(s[1..]) as int) else Value(s) as int
  }

  lemma {:induction false} SignedDecimalRoundTrip(t: int)
    ensures var s := SignedDecimal(t);
      |s| > 0 && (if s[0] == '-' then AllDigits(s[1..]) else AllDigits(s)) && SignedValue(s) == t
  {
    if t < 0 {
      assert SignedDecimal(t)[1..] == Decimal(-t);
      DecimalValue(-t);
    } else {
      DecimalValue(t);
    }
  }

  /** The kinds of Rust's `ParseIntError` an unsigned parse can raise. */
  datatype IntErrorKind = Empty | InvalidDigit | PosOverflow

  /** The `Display` text of Rust's `ParseIntError` of each kind. */
  function IntErrorMessage(k: IntErrorKind): string {
    match k
    case Empty => "cannot parse integer from empty string"
    case InvalidDigit => "invalid digit found in string"
    case PosOverflow => "number too large to fit in target type"
  }

  /** Rust's digit loop: left to right, the digit check of each character
      comes before its overflow check. */
  function Accumulate(acc: nat, s: string, max: nat): (r: Result<nat, IntErrorKind>)
    requires acc <= max
    ensures r.Ok? ==> acc <= r.value <= max
    ensures r.Err? ==> r.error != Empty
    decreases |s|
  {
    if |s| == 0 then Ok(acc)
    else if !IsDigit(s[0]) then Err(InvalidDigit)
    else if acc * 10 + DigitValue(s[0]) > max then Err(PosOverflow)
    else Accumulate(acc * 10 + DigitValue(s[0]), s[1..], max)
  }

  /** Rust's `str::parse` into an unsigned integer of width `w`: an optional
      leading '+', then one or more ASCII digits; a lone sign is an invalid
      digit and '-' is never accepted. */
  function ParseUnsigned(s: string, w: Width): (r: Result<nat, IntErrorKind>)
    ensures r.Ok? ==> Fits(r.value, w)
    ensures r == Err(Empty) <==> s == ""
  {
    if |s| == 0 then Err(Empty)
    else if (s[0] == '+' || s[0] == '-') && |s| == 1 then Err(InvalidDigit)
    else if s[0] == '+' then Accumulate(0, s[1..], MaxOf(w))
    else Accumulate(0, s, MaxOf(w))
  }

  /** The part of `s` after the one leading '+' an unsigned literal may carry. */
  function UnsignedDigits(s: string): string {
    if |s| > 0 && s[0] == '+' then s[1..] else s
  }

  /** `s` is an unsigned decimal literal in Rust's sense, whatever its size. */
  predicate IsUnsignedLiteral(s: string) {
    var d := UnsignedDigits(s);
    |d| > 0 && AllDigits(d)
  }

  lemma {:induction false} AccumulateSpec(acc: nat, s: string, max: nat)
    requires acc <= max
    ensures Accumulate(acc, s, max).Ok? <==> AllDigits(s) && ValueFrom(acc, s) <= max
    ensures Accumulate(acc, s, max).Ok? ==> AllDigits(s) && Accumulate(acc, s, max).value == ValueFrom(acc, s)
    ensures AllDigits(s) && ValueFrom(acc, s) > max ==> Accumulate(acc, s, max) == Err(PosOverflow)
    ensures !AllDigits(s) ==> Accumulate(acc, s, max).Err?
    decreases |s|
  {
    if |s| > 0 && IsDigit(s[0]) {
      var next := acc * 10 + DigitValue(s[0]);
      if next > max {
        if AllDigits(s) {
          ValueFromAtLeast(next, s[1..]);
        }
      } else {
        AccumulateSpec(next, s[1..], max);
        assert AllDigits(s) <==> AllDigits(s[1..]) by {
          if AllDigits(s[1..]) {
            forall i | 0 <= i < |s| ensures IsDigit(s[i]) {
              if i > 0 { assert s[i] == s[1..][i - 1]; }
            }
          }
        }
      }
    }
  }

  /** Rust accepts exactly the unsigned literals whose value fits the width,
      and yields that value. */
  lemma {:induction false} ParseUnsignedSpec(s: string, w: Width, n: nat)
    ensures ParseUnsigned(s, w) == Ok(n) <==>
      IsUnsignedLiteral(s) && Value(UnsignedDigits(s)) == n && Fits(n, w)
  {
    if |s| > 0 && !(( s[0] == '+' || s[0] == '-') && |s| == 1) {
      AccumulateSpec(0, UnsignedDigits(s), MaxOf(w));
    }
  }

  /** A literal too large for the width fails with the overflow kind, and an
      invalid-digit failure only happens to a string that is no literal. */
  lemma {:induction false} ParseUnsignedErrors(s: string, w: Width)
    ensures IsUnsignedLiteral(s) && !Fits(Value(UnsignedDigits(s)), w) ==> ParseUnsigned(s, w) == Err(PosOverflow)
    ensures ParseUnsigned(s, w) == Err(InvalidDigit) ==> !IsUnsignedLiteral(s)
  {
    if |s| > 0 && !(( s[0] == '+' || s[0] == '-') && |s| == 1) {
      AccumulateSpec(0, UnsignedDigits(s), MaxOf(w));
    }
  }

  /** Parsing what `Display` printed gives the number back. */
  lemma {:induction false} DecimalRoundTrip(n: nat, w: Width)
    requires Fits(n, w)
    ensures ParseUnsigned(Decimal(n), w) == Ok(n)
  {
    var s := Decimal(n);
    DecimalValue(n);
    assert IsDigit(s[0]);
    assert UnsignedDigits(s) == s;
    ParseUnsignedSpec(s, w, n);
  }
}

=== FILE: deserializers.dfy ===
/** The tolerant field readers of the response deserializers: each turns the
    loose wire shapes one field may take into a strict value, or an error.
    A reader accepts exactly the shapes its visitor overrides; every other
    shape reaches serde's default callback and is refused with the visitor's
    `expecting` text. */
module Deserializers {
  import opened Wrappers
  import opened DecimalText
  import opened WireValues

  /** The custom error `visit_u64` raises when `T::try_from` fails. */
  const TOO_LARGE: string := "Number too large to fit in target type"

  /** How a failed `str::parse` surfaces through `de::Error::custom`. */
  function ParseError(k: IntErrorKind): DeError {
    Custom(IntErrorMessage(k))
  }

  /** `v.parse::<T>().map_err(de::Error::custom)` */
  function FromStr(s: string, width: Width): (r: Result<nat, DeError>)
    ensures r.Ok? ==> Fits(r.value, width)
  {
    ParseUnsigned(s, width).MapErr(ParseError)
  }

  /** Reference reading of a numeric field: `w` is a wire encoding of `n`,
      either the integer itself or its unsigned decimal literal. */
  predicate DenotesNumber(w: Wire, n: nat) {
    || (w.U64? && w.n == n)
    || (w.Str? && IsUnsignedLiteral(w.s) && Value(UnsignedDigits(w.s)) == n)
  }

  // ---------------------------------------------------------------------------
  // string_or_number

  function StringOrNumber(w: Wire, width: Width): (r: Result<nat, DeError>)
    ensures r.Ok? ==> Fits(r.value, width)
    ensures !w.U64? && !w.Str? ==> r == Err(InvalidType(UnexpectedOf(w), "an integer or a string"))
  {
    match w
    case U64(n) => if Fits(n, width) then Ok(n) else Err(Custom(TOO_LARGE))
    case Str(s) => FromStr(s, width)
    case _ => Reject(w, "an integer or a string")
  }

  /** A numeric field reads as `n` exactly when the wire value encodes `n`
      and `n` fits the target width. */
  lemma {:induction false} StringOrNumberSpec(w: Wire, width: Width, n: nat)
    ensures StringOrNumber(w, width) == Ok(n) <==> DenotesNumber(w, n) && Fits(n, width)
  {
    if w.Str? {
      ParseUnsignedSpec(w.s, width, n);
    }
  }

  /** The two overflow errors: the visitor's own for integers, Rust's parse
      error for decimal strings. */
  lemma {:induction false} StringOrNumberTooLarge(w: Wire, width: Width)
    ensures w.U64? && !Fits(w.n, width) ==> StringOrNumber(w, width) == Err(Custom(TOO_LARGE))
    ensures w.Str? && IsUnsignedLiteral(w.s) && !Fits(Value(UnsignedDigits(w.s)), width) ==>
      StringOrNumber(w, width) == Err(Custom(IntErrorMessage(PosOverflow)))
  {
    if w.Str? {
      ParseUnsignedErrors(w.s, width);
    }
  }

  // ---------------------------------------------------------------------------
  // Booleans

  /** The wire encodings of a boolean: the boolean, `0`/`1`, `"0"`/`"1"`. */
  predicate EncodesBool(w: Wire, b: bool) {
    || w == Bool(b)
    || w == U64(if b then 1 else 0)
    || w == Str(if b then "1" else "0")
  }

  function IntoBool(w: Wire): (r: Result<bool, DeError>)
    ensures r.Err? && (w.U64? || w.Str?) ==> r.error == InvalidValue(UnexpectedOf(w), "zero or one")
    ensures !w.U64? && !w.Str? && !w.Bool? ==> r == Err(InvalidType(UnexpectedOf(w), "an integer or a string"))
  {
    match w
    case U64(n) =>
      if n == 0 then Ok(false)
      else if n == 1 then Ok(true)
      else Err(InvalidValue(Unsigned(n), "zero or one"))
    case Str(s) =>
      if s == "0" then Ok(false)
      else if s == "1" then Ok(true)
      else Err(InvalidValue(UStr(s), "zero or one"))
    case Bool(b) => Ok(b)
    case _ => Reject(w, "an integer or a string")
  }

  /** `into_bool` reads `b` exactly from the encodings of `b`. */
  lemma {:induction false} IntoBoolSpec(w: Wire, b: bool)
    ensures IntoBool(w) == Ok(b) <==> EncodesBool(w, b)
  {
  }

  function FromIntToBool(w: Wire): (r: Result<bool, DeError>)
    ensures w.U64? && 1 < w.n <= 0xFF ==> r == Err(InvalidValue(Unsigned(w.n), "zero or one"))
    ensures r.Err? && !(w.U64? && w.n <= 0xFF) ==> U8Of(w) == Err(r.error)
  {
    var n :- U8Of(w);
    if n == 0 then Ok(false)
    else if n == 1 then Ok(true)
    else Err(InvalidValue(Unsigned(n), "zero or one"))
  }

  /** `from_int_to_bool` accepts the unsigned integers 0 and 1 only, and
      agrees with `into_bool` wherever it accepts. */
  lemma {:induction false} FromIntToBoolSpec(w: Wire, b: bool)
    ensures FromIntToBool(w) == Ok(b) <==> w == U64(if b then 1 else 0)
    ensures FromIntToBool(w) == Ok(b) ==> IntoBool(w) == Ok(b)
  {
  }

  // ---------------------------------------------------------------------------
  // Collections

  /** Reads the elements in order; the first element that fails aborts. */
  function ReadAll<T>(ws: seq<Wire>, elem: Wire -> Result<T, DeError>): (r: Result<seq<T>, DeError>)
    ensures r.Ok? <==> forall i :: 0 <= i < |ws| ==> elem(ws[i]).Ok?
    ensures r.Ok? ==> |r.value| == |ws| && forall i :: 0 <= i < |ws| ==> elem(ws[i]) == Ok(r.value[i])
    ensures r.Err? ==> exists i :: 0 <= i < |ws| && elem(ws[i]) == Err(r.error)
                                 && forall j :: 0 <= j < i ==> elem(ws[j]).Ok?
    decreases |ws|
  {
    if |ws| == 0 then Ok([])
    else
      var head :- elem(ws[0]);
      var tail := ReadAll(ws[1..], elem);
      if tail.Err? then
        Err(tail.error)
      else
        Ok([head] + tail.value)
  }

  /** The values of a map's entries, keys dropped, in entry order. */
  function Values(entries: seq<(string, Wire)>): (vs: seq<Wire>)
    ensures |vs| == |entries|
    ensures forall i :: 0 <= i < |entries| ==> vs[i] == entries[i].1
  {
    seq(|entries|, i requires 0 <= i < |entries| => entries[i].1)
  }

  /** The shapes a sequence-like field may take, with the elements each carries:
      an array, a map (its values), an absent field, or the empty string. */
  predicate IsSequenceLike(w: Wire) {
    w.Seq? || w.Map? || w.Absent? || w == Str("")
  }

  function ElementsOf(w: Wire): seq<Wire>
    requires IsSequenceLike(w)
  {
    match w
    case Seq(items) => items
    case Map(entries) => Values(entries)
    case _ => []
  }

  function HashmapOrVec<T>(w: Wire, elem: Wire -> Result<T, DeError>): (r: Result<seq<T>, DeError>)
    ensures r.Ok? ==> IsSequenceLike(w)
    ensures r.Ok? ==> |r.value| == |ElementsOf(w)|
                      && forall i :: 0 <= i < |ElementsOf(w)| ==> elem(ElementsOf(w)[i]) == Ok(r.value[i])
    ensures IsSequenceLike(w) ==> (r.Ok? <==> forall i :: 0 <= i < |ElementsOf(w)| ==> elem(ElementsOf(w)[i]).Ok?)
    ensures w.Str? && w.s != "" ==> r == Err(InvalidValue(UStr(w.s), "zero or one"))
    ensures !IsSequenceLike(w) && !w.Str? ==> r == Err(InvalidType(UnexpectedOf(w), "a map"))
  {
    if IsSequenceLike(w) then ReadAll(ElementsOf(w), elem)
    else if w.Str? then Err(InvalidValue(UStr(w.s), "zero or one"))
    else Reject(w, "a map")
  }

  /** Pairs keys with values into map entries. */
  function Entries(keys: seq<string>, vs: seq<Wire>): (es: seq<(string, Wire)>)
    requires |keys| == |vs|
    ensures Values(es) == vs
  {
    seq(|vs|, i requires 0 <= i < |vs| => (keys[i], vs[i]))
  }

  /** Every encoding of a sequence-like field gives the same ordered contents:
      an array and a map holding the same values read alike, whatever the
      keys, and an absent field reads like the empty string and `[]`. */
  lemma {:induction false} SequenceEncodingsAgree<T>(vs: seq<Wire>, keys: seq<string>, elem: Wire -> Result<T, DeError>)
    requires |keys| == |vs|
    ensures HashmapOrVec(Map(Entries(keys, vs)), elem) == HashmapOrVec(Seq(vs), elem)
    ensures HashmapOrVec(Absent, elem) == HashmapOrVec(Str(""), elem) == HashmapOrVec(Seq([]), elem) == Ok([])
  {
  }

  // ---------------------------------------------------------------------------
  // Fraud warnings

  /** The string values of a list of warnings as wire strings. */
  function Strs(ss: seq<string>): (ws: seq<Wire>)
    ensures |ws| == |ss| && forall i :: 0 <= i < |ss| ==> ws[i] == Str(ss[i])
  {
    seq(|ss|, i requires 0 <= i < |ss| => Str(ss[i]))
  }

  function FromFraudWarnings(w: Wire): (r: Result<Option<seq<string>>, DeError>)
    ensures r == Ok(None) <==> w == Str("") || w.Absent? || w.Null?
    ensures w.Str? && w.s != "" ==> r == Ok(Some([w.s]))
    ensures !(w.Str? || w.Absent? || w.Null? || w.Seq? || w.Map?) ==> r == Err(InvalidType(UnexpectedOf(w), "a sequence"))
  {
    match w
    case Str(s) => Ok(if s == "" then None else Some([s]))
    case Absent => Ok(None)
    case Null => Ok(None)
    case Seq(items) =>
      var xs :- ReadAll(items, StringOf);
      Ok(Some(xs))
    case Map(entries) =>
      var xs :- ReadAll(Values(entries), StringOf);
      Ok(Some(xs))
    case _ => Reject(w, "a sequence")
  }

  /** A sequence of warnings, or a map whose values are the warnings, yields
      all of them in order (so no warnings at all is `Some([])`, not `None`);
      a non-string element is refused as String would refuse it. */
  lemma {:induction false} FraudWarningsCollections(ss: seq<string>, keys: seq<string>)
    requires |keys| == |ss|
    ensures FromFraudWarnings(Seq(Strs(ss))) == Ok(Some(ss))
    ensures FromFraudWarnings(Map(Entries(keys, Strs(ss)))) == Ok(Some(ss))
  {
    var r := ReadAll(Strs(ss), StringOf);
    assert r.Ok?;
    assert r.value == ss;
  }

  /** The first warning that is not a string, in a sequence or among a map's
      values, fails the whole field as String refuses it. */
  lemma {:induction false} FraudWarningsNonString(items: seq<Wire>, keys: seq<string>, i: nat)
    requires |keys| == |items|
    requires i < |items| && !items[i].Str?
    requires forall j :: 0 <= j < i ==> items[j].Str?
    ensures FromFraudWarnings(Seq(items)) == Err(InvalidType(UnexpectedOf(items[i]), "a string"))
    ensures FromFraudWarnings(Map(Entries(keys, items))) == Err(InvalidType(UnexpectedOf(items[i]), "a string"))
  {
    assert Values(Entries(keys, items)) == items;
    var r := ReadAll(items, StringOf);
    assert r.Err?;
    var k :| 0 <= k < |items| && StringOf(items[k]) == Err(r.error)
             && forall j :: 0 <= j < k ==> StringOf(items[j]).Ok?;
    assert StringOf(items[i]).Err?;
    assert k == i;
  }

  // ---------------------------------------------------------------------------
  // option_str_to_number

  function OptionStrToNumber(w: Wire, width: Width): (r: Result<Option<nat>, DeError>)
    ensures r == Ok(None) <==> w.Absent? || w.Bool?
    ensures !(w.Absent? || w.Bool? || w.U64? || w.Str?) ==> r == Err(InvalidType(UnexpectedOf(w), "a number string"))
  {
    match w
    case Absent => Ok(None)
    case Bool(_) => Ok(None)
    case U64(n) => if Fits(n, width) then Ok(Some(n)) else Err(Custom(TOO_LARGE))
    case Str(s) =>
      var n :- FromStr(s, width);
      Ok(Some(n))
    case _ => Reject(w, "a number string")
  }

  /** On integers and strings the optional reader accepts, refuses and
      reports exactly as `string_or_number` does, wrapping the value in
      `Some`; so the empty string is an error, not `None`. */
  lemma {:induction false} OptionStrToNumberAgrees(w: Wire, width: Width)
    requires w.U64? || w.Str?
    ensures StringOrNumber(w, width).Ok? ==> OptionStrToNumber(w, width) == Ok(Some(StringOrNumber(w, width).value))
    ensures StringOrNumber(w, width).Err? ==> OptionStrToNumber(w, width) == Err(StringOrNumber(w, width).error)
  {
  }

  lemma {:induction false} OptionStrToNumberEmptyString(width: Width)
    ensures OptionStrToNumber(Str(""), width) == Err(Custom(IntErrorMessage(Empty)))
  {
  }
}

=== FILE: html.dfy ===
/** A parsed HTML fragment as a tree of element and text nodes, with the
    three kinds of selector the confirmation page parser uses (`#id`,
    `.class`, `tag`) and document-order (pre-order) search. */
module HtmlTree {
  import opened Wrappers
  import opened TextOps

  /** An element has a tag name, its attributes, its class list and its
      children; text nodes hold their text. */
  datatype Node =
    | Element(name: string, attrs: map<string, string>, classes: set<string>, children: seq<Node>)
    | Text(text: string)

  /** `#id`, `.class` and a bare tag name. */
  datatype Selector = ById(id: string) | ByClass(className: string) | ByName(tag: string)

  predicate Matches(sel: Selector, n: Node) {
    && n.Element?
    && match sel
       case ById(id) => "id" in n.attrs && n.attrs["id"] == id
       case ByClass(c) => c in n.classes
       case ByName(t) => n.name == t
  }

  /** `element.value().attr(name)`. */
  function Attr(e: Node, name: string): (r: Option<string>)
    requires e.Element?
    ensures r.Some? <==> name in e.attrs
  {
    if name in e.attrs then Some(e.attrs[name]) else None
  }

  // ---------------------------------------------------------------------------
  // Document order

  /** The elements of a node's subtree, the node first, in document order. */
  function SubtreeElements(n: Node): (es: seq<Node>)
    ensures forall i :: 0 <= i < |es| ==> es[i].Element?
    decreases n
  {
    match n
    case Text(_) => []
    case Element(_, _, _, children) => [n] + Elements(children)
  }

  /** The elements of a sequence of sibling trees, in document order. */
  function Elements(nodes: seq<Node>): (es: seq<Node>)
    ensures forall i :: 0 <= i < |es| ==> es[i].Element?
    decreases nodes
  {
    if |nodes| == 0 then [] else SubtreeElements(nodes[0]) + Elements(nodes[1..])
  }

  /** `x` is one of the trees or sits somewhere inside one of them. */
  ghost predicate InForest(x: Node, nodes: seq<Node>)
    decreases nodes
  {
    exists i :: 0 <= i < |nodes| && InTree(x, nodes[i])
  }

  ghost predicate InTree(x: Node, n: Node)
    decreases n
  {
    x == n || (n.Element? && InForest(x, n.children))
  }

  lemma {:induction false} SubtreeElementsMembers(x: Node, n: Node)
    ensures x in SubtreeElements(n) <==> x.Element? && InTree(x, n)
    decreases n
  {
    if n.Element? {
      ElementsMembers(x, n.children);
    }
  }

  /** The document-order list holds exactly the elements of the trees. */
  lemma {:induction false} ElementsMembers(x: Node, nodes: seq<Node>)
    ensures x in Elements(nodes) <==> x.Element? && InForest(x, nodes)
    decreases nodes
  {
    if |nodes| > 0 {
      SubtreeElementsMembers(x, nodes[0]);
      ElementsMembers(x, nodes[1..]);
      if InForest(x, nodes) {
        var i :| 0 <= i < |nodes| && InTree(x, nodes[i]);
        if i > 0 {
          assert nodes[1..][i - 1] == nodes[i];
        }
      }
      if InForest(x, nodes[1..]) {
        var i :| 0 <= i < |nodes[1..]| && InTree(x, nodes[1..][i]);
        assert nodes[i + 1] == nodes[1..][i];
      }
    }
  }

  /** The elements of `es` the selector matches, in order. */
  function Filter(es: seq<Node>, sel: Selector): (r: seq<Node>)
    ensures |r| <= |es|
    ensures forall i :: 0 <= i < |r| ==> Matches(sel, r[i])
    ensures forall x :: x in r <==> x in es && Matches(sel, x)
    decreases |es|
  {
    if |es| == 0 then []
    else if Matches(sel, es[0]) then [es[0]] + Filter(es[1..], sel)
    else Filter(es[1..], sel)
  }

  /** Filtering keeps order: filtering a concatenation is filtering each
      part, the first part's matches before the second's. */
  lemma {:induction false} FilterAppend(a: seq<Node>, b: seq<Node>, sel: Selector)
    ensures Filter(a + b, sel) == Filter(a, sel) + Filter(b, sel)
    decreases |a|
  {
    if |a| == 0 {
      assert a + b == b;
    } else {
      assert (a + b)[0] == a[0];
      assert (a + b)[1..] == a[1..] + b;
      FilterAppend(a[1..], b, sel);
    }
  }

  /** A single element is kept, once, exactly when it matches. */
  lemma {:induction false} FilterOne(x: Node, sel: Selector)
    ensures Filter([x], sel) == if Matches(sel, x) then [x] else []
  {
    assert [x][1..] == [];
  }

  /** `Html::select`: the matching elements of a fragment, in document order. */
  function Select(fragment: seq<Node>, sel: Selector): (r: seq<Node>)
    ensures forall i :: 0 <= i < |r| ==> Matches(sel, r[i])
  {
    Filter(Elements(fragment), sel)
  }

  /** `ElementRef::select`: the matching elements strictly below `e`. */
  function SelectWithin(e: Node, sel: Selector): (r: seq<Node>)
    requires e.Element?
    ensures forall i :: 0 <= i < |r| ==> Matches(sel, r[i]) && InForest(r[i], e.children)
  {
    SelectAllBelong(e.children, sel);
    Select(e.children, sel)
  }

  /** Everything a selection yields lies inside the fragment. */
  lemma {:induction false} SelectAllBelong(fragment: seq<Node>, sel: Selector)
    ensures forall i :: 0 <= i < |Select(fragment, sel)| ==> InForest(Select(fragment, sel)[i], fragment)
  {
    var r := Select(fragment, sel);
    forall i | 0 <= i < |r| ensures InForest(r[i], fragment) {
      SelectMembers(fragment, sel, r[i]);
    }
  }

  /** Select finds exactly the matching elements of the fragment. */
  lemma {:induction false} SelectMembers(fragment: seq<Node>, sel: Selector, x: Node)
    ensures x in Select(fragment, sel) <==> Matches(sel, x) && InForest(x, fragment)
  {
    ElementsMembers(x, fragment);
  }

  /** The first element of a selection, as `.next()` returns it. */
  function First(es: seq<Node>): (r: Option<Node>)
    ensures r.None? <==> |es| == 0
    ensures r.Some? ==> r.value == es[0]
  {
    if |es| == 0 then None else Some(es[0])
  }

  // ---------------------------------------------------------------------------
  // Text

  /** The text nodes of a node's subtree, in document order. */
  function SubtreeTexts(n: Node): seq<string>
    decreases n
  {
    match n
    case Text(t) => [t]
    case Element(_, _, _, children) => Texts(children)
  }

  function Texts(nodes: seq<Node>): seq<string>
    decreases nodes
  {
    if |nodes| == 0 then [] else SubtreeTexts(nodes[0]) + Texts(nodes[1..])
  }

  /** `element.text()`: the text nodes below the element. */
  function TextOf(e: Node): (texts: seq<string>)
    requires e.Element?
    ensures forall t :: t in texts <==> InForest(Text(t), e.children)
  {
    TextsAllMembers(e.children);
    Texts(e.children)
  }

  lemma {:induction false} TextsAllMembers(nodes: seq<Node>)
    ensures forall t :: t in Texts(nodes) <==> InForest(Text(t), nodes)
  {
    forall t {
      TextsMembers(t, nodes);
    }
  }

  /** A text piece comes from a text node inside the trees, and every text
      node inside them gives one. */
  lemma {:induction false} TextsMembers(t: string, nodes: seq<Node>)
    ensures t in Texts(nodes) <==> InForest(Text(t), nodes)
    decreases nodes
  {
    if |nodes| > 0 {
      SubtreeTextsMembers(t, nodes[0]);
      TextsMembers(t, nodes[1..]);
      if InForest(Text(t), nodes) {
        var i :| 0 <= i < |nodes| && InTree(Text(t), nodes[i]);
        if i > 0 {
          assert nodes[1..][i - 1] == nodes[i];
        }
      }
      if InForest(Text(t), nodes[1..]) {
        var i :| 0 <= i < |nodes[1..]| && InTree(Text(t), nodes[1..][i]);
        assert nodes[i + 1] == nodes[1..][i];
      }
    }
  }

  lemma {:induction false} SubtreeTextsMembers(t: string, n: Node)
    ensures t in SubtreeTexts(n) <==> InTree(Text(t), n)
    decreases n
  {
    if n.Element? {
      TextsMembers(t, n.children);
    }
  }
}

=== FILE: last_wins.dfy ===
/** Building a map by inserting key/value pairs in order, as a loop of
    `HashMap::insert` calls does: a later pair with the same key replaces
    an earlier one. The loops of the cache deserializers are all instances. */
module LastWins {
  import opened Wrappers

  /** One slot per input element: the pair it inserts, or `None` when the
      element is discarded. */
  type Slots<K, V> = seq<Option<(K, V)>>

  /** No later slot inserts under the key of slot `i`. */
  ghost predicate LastFor<K, V>(slots: Slots<K, V>, i: int)
    requires 0 <= i < |slots| && slots[i].Some?
  {
    forall j :: i < j < |slots| && slots[j].Some? ==> slots[j].value.0 != slots[i].value.0
  }

  ghost function KeysOf<K, V>(slots: Slots<K, V>): set<K> {
    set i | 0 <= i < |slots| && slots[i].Some? :: slots[i].value.0
  }

  /** The map the slots describe: exactly their keys, each holding the value
      of the last slot that carries it. */
  ghost predicate BuiltFrom<K, V>(m: map<K, V>, slots: Slots<K, V>) {
    && m.Keys == KeysOf(slots)
    && forall i :: 0 <= i < |slots| && slots[i].Some? && LastFor(slots, i) ==>
         slots[i].value.0 in m && m[slots[i].value.0] == slots[i].value.1
  }

  /** `map.insert(k, v)` for a present slot. */
  function Insert<K, V>(m: map<K, V>, slot: Option<(K, V)>): map<K, V> {
    if slot.Some? then m[slot.value.0 := slot.value.1] else m
  }

  /** `map.insert` for each slot in order. */
  function InsertAll<K, V>(m: map<K, V>, slots: Slots<K, V>): map<K, V>
    decreases |slots|
  {
    if |slots| == 0 then m else InsertAll(Insert(m, slots[0]), slots[1..])
  }

  lemma {:induction false} KeysOfCons<K, V>(slots: Slots<K, V>)
    requires |slots| > 0
    ensures KeysOf(slots) == (if slots[0].Some? then {slots[0].value.0} else {}) + KeysOf(slots[1..])
  {
    var head: set<K> := if slots[0].Some? then {slots[0].value.0} else {};
    forall k | k in KeysOf(slots) ensures k in head + KeysOf(slots[1..]) {
      var i :| 0 <= i < |slots| && slots[i].Some? && slots[i].value.0 == k;
      if i > 0 {
        assert slots[1..][i - 1] == slots[i];
      }
    }
    forall k | k in KeysOf(slots[1..]) ensures k in KeysOf(slots) {
      var i :| 0 <= i < |slots[1..]| && slots[1..][i].Some? && slots[1..][i].value.0 == k;
      assert slots[i + 1] == slots[1..][i];
    }
  }

  lemma {:induction false} InsertAllKeys<K, V>(m: map<K, V>, slots: Slots<K, V>)
    ensures InsertAll(m, slots).Keys == m.Keys + KeysOf(slots)
    decreases |slots|
  {
    if |slots| > 0 {
      KeysOfCons(slots);
      InsertAllKeys(Insert(m, slots[0]), slots[1..]);
    }
  }

  /** A key no slot carries keeps its value. */
  lemma {:induction false} InsertAllKeeps<K, V>(m: map<K, V>, slots: Slots<K, V>, k: K)
    requires k in m && k !in KeysOf(slots)
    ensures k in InsertAll(m, slots) && InsertAll(m, slots)[k] == m[k]
    decreases |slots|
  {
    if |slots| > 0 {
      KeysOfCons(slots);
      InsertAllKeeps(Insert(m, slots[0]), slots[1..], k);
    }
  }

  /** The last slot for a key decides its value. */
  lemma {:induction false} InsertAllLast<K, V>(m: map<K, V>, slots: Slots<K, V>, i: int)
    requires 0 <= i < |slots| && slots[i].Some? && LastFor(slots, i)
    ensures slots[i].value.0 in InsertAll(m, slots)
    ensures InsertAll(m, slots)[slots[i].value.0] == slots[i].value.1
    decreases |slots|
  {
    var rest := slots[1..];
    if i == 0 {
      var k := slots[0].value.0;
      assert k !in KeysOf(rest);
      InsertAllKeeps(Insert(m, slots[0]), rest, k);
    } else {
      assert rest[i - 1] == slots[i];
      assert LastFor(rest, i - 1) by {
        forall j | i - 1 < j < |rest| && rest[j].Some? ensures rest[j].value.0 != rest[i - 1].value.0 {
          assert rest[j] == slots[j + 1];
        }
      }
      InsertAllLast(Insert(m, slots[0]), rest, i - 1);
    }
  }

  /** Each slot adds at most one entry. */
  lemma {:induction false} InsertAllSize<K, V>(m: map<K, V>, slots: Slots<K, V>)
    ensures |InsertAll(m, slots)| <= |m| + |slots|
    decreases |slots|
  {
    if |slots| > 0 {
      var next := Insert(m, slots[0]);
      if slots[0].Some? {
        assert next.Keys == m.Keys + {slots[0].value.0};
      }
      InsertAllSize(next, slots[1..]);
    }
  }

  /** Some slot at or after `i` with the same key is the last one for it. */
  lemma {:induction false} LastIndexFor<K, V>(slots: Slots<K, V>, i: int) returns (last: int)
    requires 0 <= i < |slots| && slots[i].Some?
    ensures i <= last < |slots| && slots[last].Some? && slots[last].value.0 == slots[i].value.0
    ensures LastFor(slots, last)
    decreases |slots| - i
  {
    if LastFor(slots, i) {
      last := i;
    } else {
      var j :| i < j < |slots| && slots[j].Some? && slots[j].value.0 == slots[i].value.0;
      last := LastIndexFor(slots, j);
    }
  }

  /** Inserting the slots into an empty map builds the map they describe,
      with at most one entry per slot. */
  lemma {:induction false} InsertAllBuilds<K, V>(slots: Slots<K, V>)
    ensures BuiltFrom(InsertAll(map[], slots), slots)
    ensures |InsertAll(map[], slots)| <= |slots|
  {
    InsertAllKeys(map[], slots);
    forall i | 0 <= i < |slots| && slots[i].Some? && LastFor(slots, i)
      ensures slots[i].value.0 in InsertAll(map[], slots)
      ensures InsertAll(map[], slots)[slots[i].value.0] == slots[i].value.1
    {
      InsertAllLast(map[], slots, i);
    }
    InsertAllSize(map[], slots);
  }

  /** The slots describe one map only. */
  lemma {:induction false} BuiltFromUnique<K, V>(a: map<K, V>, b: map<K, V>, slots: Slots<K, V>)
    requires BuiltFrom(a, slots) && BuiltFrom(b, slots)
    ensures a == b
  {
    forall k | k in a ensures b[k] == a[k] {
      var j :| 0 <= j < |slots| && slots[j].Some? && slots[j].value.0 == k;
      var last := LastIndexFor(slots, j);
    }
  }

  /** A map is the one the slots describe exactly when it is what inserting
      them in order produces. */
  lemma {:induction false} BuiltFromIsInsertAll<K, V>(m: map<K, V>, slots: Slots<K, V>)
    ensures BuiltFrom(m, slots) <==> m == InsertAll(map[], slots)
  {
    InsertAllBuilds(slots);
    if BuiltFrom(m, slots) {
      BuiltFromUnique(m, InsertAll(map[], slots), slots);
    }
  }

  /** Every key of the built map holds the value of the last slot carrying it. */
  lemma {:induction false} InsertAllFromSlots<K, V>(slots: Slots<K, V>, k: K) returns (i: int)
    requires k in InsertAll(map[], slots)
    ensures 0 <= i < |slots| && slots[i].Some? && slots[i].value.0 == k && LastFor(slots, i)
    ensures InsertAll(map[], slots)[k] == slots[i].value.1
  {
    InsertAllBuilds(slots);
    var j :| 0 <= j < |slots| && slots[j].Some? && slots[j].value.0 == k;
    i := LastIndexFor(slots, j);
  }
}

=== FILE: mobile_api.dfy ===
/** The request side of the mobile confirmation API: the query parameters
    every confirmation request carries, the parameters of an accept or deny
    action, how the action's `success` flag becomes a result, and the
    listing request whose page `parse_confirmations` reads. The transport
    is a parameter: a function from the request to the response's `success`
    flag, or to the parsed page. */
module MobileRequests {
  import opened Wrappers
  import opened DecimalText
  import opened Bytes
  import opened ConfirmationHash
  import HtmlTree
  import Page = ConfirmationPage

  const HOSTNAME: string := "https://steamcommunity.com"
  const AJAX_OP_PATH: string := "/mobileconf/ajaxop"
  const LIST_PATH: string := "/mobileconf/conf"
  /** The tag both the actions and the listing sign. */
  const CONF_TAG: string := "conf"
  const NO_IDENTITY_SECRET: string := "No identity secret"
  const UNSUCCESSFUL: string := "Confirmation unsuccessful. The confirmation may no longer exist or another trade may be going through. Check confirmations again to verify."

  /** The `Error` variants the confirmation API raises itself; transport and
      body-decoding errors are not modelled. */
  datatype ApiError =
    | Parameter(msg: string)
    | Response(msg: string)
    | Html(err: Page.ParseHtmlError)

  /** The parts of `MobileAPI` the requests read. */
  datatype MobileApi = MobileApi(steamid: u64, identitySecret: Option<string>)

  /** The identity secret, when present, is base64 (the source unwraps its
      decoding). */
  predicate SecretDecodes(crypto: Crypto, api: MobileApi) {
    api.identitySecret.Some? ==> crypto.base64Decode(api.identitySecret.value).Some?
  }

  type Query = map<string, string>

  datatype Request = Request(uri: string, query: Query)

  /** `get_uri`: the path on the community host. */
  function GetUri(pathname: string): (uri: string)
    ensures |uri| == |HOSTNAME| + |pathname|
    ensures uri[..|HOSTNAME|] == HOSTNAME
  {
    HOSTNAME + pathname
  }

  /** The path can be read back off the address. */
  lemma {:induction false} GetUriPath(pathname: string)
    ensures GetUri(pathname)[|HOSTNAME|..] == pathname
  {
  }

  lemma {:induction false} GetUriInjective(a: string, b: string)
    requires GetUri(a) == GetUri(b)
    ensures a == b
  {
    GetUriPath(a);
    GetUriPath(b);
  }

  const BASE_KEYS: set<string> := {"p", "a", "k", "t", "m", "tag"}

  /** `get_confirmation_query_params`: the device id, account id, hash,
      time, platform and tag. The time is the server time, passed in. */
  function ConfirmationQueryParams(crypto: Crypto, api: MobileApi, time: i64, tag: string): (r: Result<Query, ApiError>)
    requires SecretDecodes(crypto, api)
    ensures r.Err? <==> api.identitySecret.None?
    ensures r.Err? ==> r.error == Parameter(NO_IDENTITY_SECRET)
    ensures r.Ok? ==> r.value.Keys == BASE_KEYS
    ensures r.Ok? ==> r.value["m"] == "android" && r.value["tag"] == tag
  {
    if api.identitySecret.None? then Err(Parameter(NO_IDENTITY_SECRET))
    else
      var key := GenerateConfirmationHash(crypto, time, tag, api.identitySecret.value);
      Ok(map[
        "p" := GetDeviceId(crypto, api.steamid),
        "a" := Decimal(api.steamid),
        "k" := key,
        "t" := SignedDecimal(time),
        "m" := "android",
        "tag" := tag])
  }

  /** The account id and the time read back from their parameters, and the
      hash parameter is the confirmation hash of that time and tag. */
  lemma {:induction false} QueryParamsReadBack(crypto: Crypto, api: MobileApi, time: i64, tag: string)
    requires SecretDecodes(crypto, api) && api.identitySecret.Some?
    ensures var q := ConfirmationQueryParams(crypto, api, time, tag).value;
      && ParseUnsigned(q["a"], W64) == Ok(api.steamid)
      && |q["t"]| > 0 && (if q["t"][0] == '-' then AllDigits(q["t"][1..]) else AllDigits(q["t"]))
      && SignedValue(q["t"]) == time
      && q["k"] == GenerateConfirmationHash(crypto, time, tag, api.identitySecret.value)
  {
    DecimalRoundTrip(api.steamid, W64);
    SignedDecimalRoundTrip(time);
  }

  /** The device id parameter has the device-id shape and spells the first
      16 bytes of the SHA-1 digest of the account id. */
  lemma {:induction false} QueryParamsDeviceId(crypto: Crypto, api: MobileApi, time: i64, tag: string)
    requires SecretDecodes(crypto, api) && api.identitySecret.Some? && Sha1Digests(crypto)
    ensures var q := ConfirmationQueryParams(crypto, api, time, tag).value;
      IsDeviceId(q["p"]) && DigestOfDeviceId(q["p"]) == crypto.sha1(Utf8(Decimal(api.steamid)))[..16]
  {
    GetDeviceIdShape(crypto, api.steamid);
  }

  // ---------------------------------------------------------------------------
  // Actions

  const ACTION_KEYS: set<string> := BASE_KEYS + {"op", "cid", "ck"}

  /** The query of `send_confirmation_ajax`: the parameters signed with the
      "conf" tag, plus the operation and the confirmation's id and key. */
  function ActionParams<K>(crypto: Crypto, api: MobileApi, time: i64, confirmation: Page.Confirmation<K>, operation: string): (r: Result<Query, ApiError>)
    requires SecretDecodes(crypto, api)
    ensures r.Err? <==> api.identitySecret.None?
    ensures r.Err? ==> r.error == Parameter(NO_IDENTITY_SECRET)
    ensures r.Ok? ==> r.value.Keys == ACTION_KEYS
    ensures r.Ok? ==> r.value["tag"] == CONF_TAG && r.value["op"] == operation
  {
    match ConfirmationQueryParams(crypto, api, time, CONF_TAG)
    case Err(e) => Err(e)
    case Ok(query) =>
      ActionKeysFresh();
      ActionKeys(query, operation, Decimal(confirmation.id), Decimal(confirmation.key));
      Ok(query["op" := operation]["cid" := Decimal(confirmation.id)]["ck" := Decimal(confirmation.key)])
  }

  /** Adding the action keys to the signed query's keys gives the action keys. */
  lemma {:induction false} ActionKeys(base: Query, op: string, cid: string, ck: string)
    requires base.Keys == BASE_KEYS
    ensures base["op" := op]["cid" := cid]["ck" := ck].Keys == ACTION_KEYS
  {
  }

  /** The action adds to the signed query without changing it, and its id and
      key read back as the confirmation's. */
  lemma {:induction false} ActionParamsExtend<K>(crypto: Crypto, api: MobileApi, time: i64, confirmation: Page.Confirmation<K>, operation: string)
    requires SecretDecodes(crypto, api) && api.identitySecret.Some?
    ensures var q := ActionParams(crypto, api, time, confirmation, operation).value;
      var base := ConfirmationQueryParams(crypto, api, time, CONF_TAG).value;
      && (forall k :: k in base ==> q[k] == base[k])
      && ParseUnsigned(q["cid"], W64) == Ok(confirmation.id)
      && ParseUnsigned(q["ck"], W64) == Ok(confirmation.key)
  {
    var base := ConfirmationQueryParams(crypto, api, time, CONF_TAG).value;
    ActionKeysFresh();
    ExtendKeeps(base, operation, Decimal(confirmation.id), Decimal(confirmation.key));
    DecimalRoundTrip(confirmation.id, W64);
    DecimalRoundTrip(confirmation.key, W64);
  }

  /** The three action keys are not among the signed query's keys. */
  lemma {:induction false} ActionKeysFresh()
    ensures "op" !in BASE_KEYS && "cid" !in BASE_KEYS && "ck" !in BASE_KEYS
  {
  }

  /** Adding the three action keys to a query without them keeps its entries. */
  lemma {:induction false} ExtendKeeps(base: Query, op: string, cid: string, ck: string)
    requires "op" !in base && "cid" !in base && "ck" !in base
    ensures var q := base["op" := op]["cid" := cid]["ck" := ck];
      forall k :: k in base ==> q[k] == base[k]
  {
  }

  /** The signed query has six parameters. */
  lemma {:induction false} QueryParamsSize(crypto: Crypto, api: MobileApi, time: i64, tag: string)
    requires SecretDecodes(crypto, api) && api.identitySecret.Some?
    ensures |ConfirmationQueryParams(crypto, api, time, tag).value| == 6
  {
    var q := ConfirmationQueryParams(crypto, api, time, tag).value;
    var m2 := map["p" := q["p"], "a" := q["a"]];
    assert |m2| == 2;
    var m4 := m2["k" := q["k"]]["t" := q["t"]];
    assert |m4| == 4;
    var m6 := m4["m" := q["m"]]["tag" := q["tag"]];
    assert |m6| == 6;
    assert q == m6;
  }

  /** The action query has nine parameters. */
  lemma {:induction false} ActionParamsSize<K>(crypto: Crypto, api: MobileApi, time: i64, confirmation: Page.Confirmation<K>, operation: string)
    requires SecretDecodes(crypto, api) && api.identitySecret.Some?
    ensures |ActionParams(crypto, api, time, confirmation, operation).value| == 9
  {
    var base := ConfirmationQueryParams(crypto, api, time, CONF_TAG).value;
    QueryParamsSize(crypto, api, time, CONF_TAG);
    ActionKeysFresh();
    var withOp := base["op" := operation];
    assert |withOp| == 7;
    var withCid := withOp["cid" := Decimal(confirmation.id)];
    assert "cid" !in withOp;
    assert |withCid| == 8;
    assert "ck" !in withCid;
  }

  /** The response's `success` flag: `Ok` when set, otherwise the fixed
      advisory message. */
  function ActionOutcome(success: bool): (r: Result<(), ApiError>)
    ensures r.Ok? <==> success
    ensures r.Err? ==> r.error.Response? && r.error.msg == UNSUCCESSFUL
  {
    if success then Ok(()) else Err(Response(UNSUCCESSFUL))
  }

  /** `send_confirmation_ajax`: `respond` is what the server answers in
      `success` to the request. */
  function SendConfirmationAjax<K>(crypto: Crypto, api: MobileApi, time: i64, confirmation: Page.Confirmation<K>, operation: string, respond: Request -> bool): (r: Result<(), ApiError>)
    requires SecretDecodes(crypto, api)
    ensures api.identitySecret.None? ==> r == Err(Parameter(NO_IDENTITY_SECRET))
  {
    var query :- ActionParams(crypto, api, time, confirmation, operation);
    ActionOutcome(respond(Request(GetUri(AJAX_OP_PATH), query)))
  }

  /** The request goes to the action address with the action query, and the
      action succeeds exactly when there is a secret and the answer is a
      success. */
  lemma {:induction false} SendConfirmationAjaxSpec<K>(crypto: Crypto, api: MobileApi, time: i64, confirmation: Page.Confirmation<K>, operation: string, respond: Request -> bool)
    requires SecretDecodes(crypto, api) && api.identitySecret.Some?
    ensures var request := Request(HOSTNAME + AJAX_OP_PATH, ActionParams(crypto, api, time, confirmation, operation).value);
      var r := SendConfirmationAjax(crypto, api, time, confirmation, operation, respond);
      && (r.Ok? <==> respond(request))
      && (r.Err? ==> r.error == Response(UNSUCCESSFUL))
  {
  }

  const ALLOW: string := "allow"
  const CANCEL: string := "cancel"

  /** `accept_confirmation`: the action with operation "allow". */
  function AcceptConfirmation<K>(crypto: Crypto, api: MobileApi, time: i64, confirmation: Page.Confirmation<K>, respond: Request -> bool): (r: Result<(), ApiError>)
    requires SecretDecodes(crypto, api)
    ensures api.identitySecret.None? ==> r == Err(Parameter(NO_IDENTITY_SECRET))
    ensures api.identitySecret.Some? ==>
      var query := ActionParams(crypto, api, time, confirmation, ALLOW).value;
      && query["op"] == ALLOW
      && (r.Ok? <==> respond(Request(HOSTNAME + AJAX_OP_PATH, query)))
      && (r.Err? ==> r.error == Response(UNSUCCESSFUL))
  {
    SendConfirmationAjax(crypto, api, time, confirmation, ALLOW, respond)
  }

  /** `deny_confirmation`: the action with operation "cancel". */
  function DenyConfirmation<K>(crypto: Crypto, api: MobileApi, time: i64, confirmation: Page.Confirmation<K>, respond: Request -> bool): (r: Result<(), ApiError>)
    requires SecretDecodes(crypto, api)
    ensures api.identitySecret.None? ==> r == Err(Parameter(NO_IDENTITY_SECRET))
    ensures api.identitySecret.Some? ==>
      var query := ActionParams(crypto, api, time, confirmation, CANCEL).value;
      && query["op"] == CANCEL
      && (r.Ok? <==> respond(Request(HOSTNAME + AJAX_OP_PATH, query)))
      && (r.Err? ==> r.error == Response(UNSUCCESSFUL))
  {
    SendConfirmationAjax(crypto, api, time, confirmation, CANCEL, respond)
  }

  /** Accepting and denying send the same query to the same address except
      for the operation, "allow" against "cancel". */
  lemma {:induction false} AcceptDenyDiffer<K>(crypto: Crypto, api: MobileApi, time: i64, confirmation: Page.Confirmation<K>)
    requires SecretDecodes(crypto, api) && api.identitySecret.Some?
    ensures var accept := ActionParams(crypto, api, time, confirmation, ALLOW).value;
      var deny := ActionParams(crypto, api, time, confirmation, CANCEL).value;
      && accept.Keys == deny.Keys
      && (forall k :: k in accept && k != "op" ==> accept[k] == deny[k])
      && accept["op"] == ALLOW && deny["op"] == CANCEL
  {
    var base := ConfirmationQueryParams(crypto, api, time, CONF_TAG).value;
    OnlyOpDiffers(base, ALLOW, CANCEL, Decimal(confirmation.id), Decimal(confirmation.key));
  }

  /** Two action queries over the same signed query that differ in the
      operation agree on every other key. */
  lemma {:induction false} OnlyOpDiffers(base: Query, op1: string, op2: string, cid: string, ck: string)
    ensures var q1 := base["op" := op1]["cid" := cid]["ck" := ck];
      var q2 := base["op" := op2]["cid" := cid]["ck" := ck];
      q1.Keys == q2.Keys && forall k :: k in q1 && k != "op" ==> q1[k] == q2[k]
  {
  }

  // ---------------------------------------------------------------------------
  // Listing

  /** The request of `get_trade_confirmations`: the listing address and the
      parameters signed with the "conf" tag. */
  function ListingRequest(crypto: Crypto, api: MobileApi, time: i64): (r: Result<Request, ApiError>)
    requires SecretDecodes(crypto, api)
    ensures r.Err? <==> api.identitySecret.None?
    ensures r.Ok? ==> r.value.uri == HOSTNAME + LIST_PATH && r.value.query.Keys == BASE_KEYS && r.value.query["tag"] == CONF_TAG
  {
    var query :- ConfirmationQueryParams(crypto, api, time, CONF_TAG);
    Ok(Request(GetUri(LIST_PATH), query))
  }

  /** The listing page can be read without a panic. */
  predicate ListingReadable(crypto: Crypto, api: MobileApi, time: i64, fetch: Request -> seq<HtmlTree.Node>)
    requires SecretDecodes(crypto, api)
  {
    var request := ListingRequest(crypto, api, time);
    request.Ok? ==> Page.PageReadable(fetch(request.value))
  }

  /** `get_trade_confirmations`: `fetch` is the page the server answers with,
      already parsed into a tree; parse errors become `Html` errors. */
  function GetTradeConfirmations<K>(crypto: Crypto, api: MobileApi, time: i64, fetch: Request -> seq<HtmlTree.Node>, convert: string -> Option<K>, unknown: K): (r: Result<seq<Page.Confirmation<K>>, ApiError>)
    requires SecretDecodes(crypto, api) && ListingReadable(crypto, api, time, fetch)
    ensures api.identitySecret.None? ==> r == Err(Parameter(NO_IDENTITY_SECRET))
    ensures r.Err? ==> !r.error.Response?
  {
    var request :- ListingRequest(crypto, api, time);
    match Page.ParseConfirmations(fetch(request), convert, unknown)
    case Ok(confirmations) => Ok(confirmations)
    case Err(e) => Err(Html(e))
  }

  /** With a secret, the listing is the page read by `parse_confirmations`,
      its errors wrapped as `Html`. */
  lemma {:induction false} GetTradeConfirmationsSpec<K>(crypto: Crypto, api: MobileApi, time: i64, fetch: Request -> seq<HtmlTree.Node>, convert: string -> Option<K>, unknown: K)
    requires SecretDecodes(crypto, api) && ListingReadable(crypto, api, time, fetch) && api.identitySecret.Some?
    ensures var page := fetch(ListingRequest(crypto, api, time).value);
      var parsed := Page.ParseConfirmations(page, convert, unknown);
      var r := GetTradeConfirmations(crypto, api, time, fetch, convert, unknown);
      && (r.Ok? <==> parsed.Ok?)
      && (r.Ok? ==> r.value == parsed.value)
      && (r.Err? ==> r.error == Html(parsed.error))
  {
  }
}

=== FILE: serializers.dfy ===
/** The field (de)serializers that carry numbers as decimal strings: `string`
    (always a string), `option_string` (a string or null) and
    `option_string_0_as_none` (like `option_string`, but `"0"` reads as no
    value). Serializing writes a wire value; deserializing reads one back.
    The numbers are unsigned integers of a given width. */
module Serializers {
  import opened Wrappers
  import opened DecimalText
  import opened WireValues
  import opened Deserializers

  /** `Option::<String>::deserialize`: null (or nothing) is `None`, a string
      is `Some`, anything else is refused as `String` refuses it. */
  function OptionStringOf(w: Wire): (r: Result<Option<string>, DeError>)
    ensures r == Ok(None) <==> w.Absent? || w.Null?
    ensures r.Ok? && r.value.Some? <==> w.Str?
    ensures w.Str? ==> r == Ok(Some(w.s))
    ensures !(w.Absent? || w.Null? || w.Str?) ==> r == Err(InvalidType(UnexpectedOf(w), "a string"))
  {
    match w
    case Absent => Ok(None)
    case Null => Ok(None)
    case Str(s) => Ok(Some(s))
    case _ => Reject(w, "a string")
  }

  // ---------------------------------------------------------------------------
  // string

  /** `serializer.collect_str(value)`: the number's `Display` text. */
  function SerializeString(n: nat): (w: Wire)
    ensures w.Str? && |w.s| > 0 && AllDigits(w.s)
  {
    Str(Decimal(n))
  }

  /** `String::deserialize(d)?.parse()`: a string holding a number of the
      target width. */
  function DeserializeString(w: Wire, width: Width): (r: Result<nat, DeError>)
    ensures r.Ok? ==> w.Str? && Fits(r.value, width)
    ensures !w.Str? ==> r == Err(InvalidType(UnexpectedOf(w), "a string"))
    ensures w.Str? && ParseUnsigned(w.s, width).Err? ==> r == Err(Custom(IntErrorMessage(ParseUnsigned(w.s, width).error)))
  {
    var s :- StringOf(w);
    FromStr(s, width)
  }

  /** Exactly the strings that are unsigned literals of a fitting value are
      read, as that value. */
  lemma {:induction false} DeserializeStringSpec(w: Wire, width: Width, n: nat)
    ensures DeserializeString(w, width) == Ok(n) <==>
      w.Str? && IsUnsignedLiteral(w.s) && Value(UnsignedDigits(w.s)) == n && Fits(n, width)
  {
    if w.Str? {
      ParseUnsignedSpec(w.s, width, n);
    }
  }

  /** What `string` writes, it reads back. */
  lemma {:induction false} StringRoundTrip(n: nat, width: Width)
    requires Fits(n, width)
    ensures DeserializeString(SerializeString(n), width) == Ok(n)
  {
    DecimalRoundTrip(n, width);
  }

  // ---------------------------------------------------------------------------
  // option_string

  /** `Some(n)` is written as its text, `None` as null. */
  function SerializeOptionString(o: Option<nat>): (w: Wire)
    ensures w.Null? <==> o.None?
    ensures o.Some? ==> w == SerializeString(o.value)
  {
    match o
    case Some(n) => SerializeString(n)
    case None => Null
  }

  function DeserializeOptionString(w: Wire, width: Width): (r: Result<Option<nat>, DeError>)
    ensures r == Ok(None) <==> w.Absent? || w.Null?
    ensures r.Ok? && r.value.Some? ==> w.Str? && Fits(r.value.value, width)
    ensures !(w.Absent? || w.Null? || w.Str?) ==> r == Err(InvalidType(UnexpectedOf(w), "a string"))
  {
    var s :- OptionStringOf(w);
    match s
    case None => Ok(None)
    case Some(v) =>
      var n :- FromStr(v, width);
      Ok(Some(n))
  }

  /** On a string, the optional reader agrees with `string`, in `Some`. */
  lemma {:induction false} OptionStringAgrees(s: string, width: Width)
    ensures DeserializeString(Str(s), width).Ok? ==>
      DeserializeOptionString(Str(s), width) == Ok(Some(DeserializeString(Str(s), width).value))
    ensures DeserializeString(Str(s), width).Err? ==>
      DeserializeOptionString(Str(s), width) == Err(DeserializeString(Str(s), width).error)
  {
    assert OptionStringOf(Str(s)) == Ok(Some(s));
  }

  /** What `option_string` writes, it reads back, `None` included. */
  lemma {:induction false} OptionStringRoundTrip(o: Option<nat>, width: Width)
    requires o.Some? ==> Fits(o.value, width)
    ensures DeserializeOptionString(SerializeOptionString(o), width) == Ok(o)
  {
    if o.Some? {
      StringRoundTrip(o.value, width);
      OptionStringAgrees(Decimal(o.value), width);
    }
  }

  // ---------------------------------------------------------------------------
  // option_string_0_as_none

  /** Written as `option_string` writes: `None` as null and `Some(n)` as
      n's decimal text, so `Some(0)` is written as the string `"0"` that
      the reading side turns into `None`. */
  function SerializeOptionString0AsNone(o: Option<nat>): (w: Wire)
    ensures w.Null? <==> o.None?
    ensures o.Some? ==> w == Str(Decimal(o.value))
    ensures w == Str("0") <==> o == Some(0)
  {
    SerializeOptionString(o)
  }

  /** Like `option_string`, except that the string `"0"` reads as `None`. */
  function DeserializeOptionString0AsNone(w: Wire, width: Width): (r: Result<Option<nat>, DeError>)
    ensures r == Ok(None) <==> w.Absent? || w.Null? || w == Str("0")
    ensures w != Str("0") ==> r == DeserializeOptionString(w, width)
  {
    var s :- OptionStringOf(w);
    match s
    case None => Ok(None)
    case Some(v) =>
      if v == "0" then Ok(None)
      else
        var n :- FromStr(v, width);
        Ok(Some(n))
  }

  /** Every value but `Some(0)` reads back as itself; `Some(0)` is written
      as `"0"` and reads back as `None`. */
  lemma {:induction false} OptionString0AsNoneRoundTrip(o: Option<nat>, width: Width)
    requires o.Some? ==> Fits(o.value, width)
    ensures o != Some(0) ==> DeserializeOptionString0AsNone(SerializeOptionString0AsNone(o), width) == Ok(o)
    ensures DeserializeOptionString0AsNone(SerializeOptionString0AsNone(Some(0)), width) == Ok(None)
  {
    OptionStringRoundTrip(o, width);
    if o.Some? && o.value != 0 {
      var s := Decimal(o.value);
      assert s[0] != '0';
      assert s != "0";
    }
    assert Decimal(0) == "0";
  }
}

=== FILE: text.dfy ===
/** String operations the confirmation page parser uses: Rust's `str::trim`,
    concatenation (`collect::<String>()`) and `join`. */
module TextOps {

  /** Unicode `White_Space`, the set `str::trim` strips. */
  predicate IsWhitespace(c: char) {
    || ('\U{9}' <= c <= '\U{D}') || c == ' '
    || c == '\U{85}' || c == '\U{A0}' || c == '\U{1680}'
    || ('\U{2000}' <= c <= '\U{200A}')
    || c == '\U{2028}' || c == '\U{2029}' || c == '\U{202F}' || c == '\U{205F}' || c == '\U{3000}'
  }

  predicate AllWhitespace(s: string) {
    forall i :: 0 <= i < |s| ==> IsWhitespace(s[i])
  }

  /** A Rust variant identifier as strum prints it: ASCII letters, the first
      one upper-case. */
  predicate IsVariantName(s: string) {
    && |s| > 0 && 'A' <= s[0] <= 'Z'
    && forall c :: c in s ==> 'A' <= c <= 'Z' || 'a' <= c <= 'z'
  }

  /** Neither end of `s` is whitespace (vacuous for the empty string). */
  predicate Trimmed(s: string) {
    s == [] || (!IsWhitespace(s[0]) && !IsWhitespace(s[|s| - 1]))
  }

  /** `trim_start`: what is left after the leading whitespace. */
  function TrimStart(s: string): (r: string)
    ensures |r| <= |s| && r == s[|s| - |r|..]
    ensures forall i :: 0 <= i < |s| - |r| ==> IsWhitespace(s[i])
    ensures r == [] || !IsWhitespace(r[0])
    decreases |s|
  {
    if |s| > 0 && IsWhitespace(s[0]) then TrimStart(s[1..]) else s
  }

  /** `trim_end`: what is left before the trailing whitespace. */
  function TrimEnd(s: string): (r: string)
    ensures |r| <= |s| && r == s[..|r|]
    ensures forall i :: |r| <= i < |s| ==> IsWhitespace(s[i])
    ensures r == [] || !IsWhitespace(r[|r| - 1])
    decreases |s|
  {
    if |s| > 0 && IsWhitespace(s[|s| - 1]) then TrimEnd(s[..|s| - 1]) else s
  }

  /** `str::trim`: the text between the leading and the trailing whitespace. */
  function Trim(s: string): (r: string)
    ensures Trimmed(r)
    ensures |r| <= |s|
  {
    TrimEnd(TrimStart(s))
  }

  lemma {:induction false} AllWhitespaceAppend(a: string, b: string)
    requires AllWhitespace(a) && AllWhitespace(b)
    ensures AllWhitespace(a + b)
  {
    forall i | 0 <= i < |a + b| ensures IsWhitespace((a + b)[i]) {
      if i >= |a| {
        assert (a + b)[i] == b[i - |a|];
      }
    }
  }

  /** Leading whitespace is skipped up to the first other character. */
  lemma {:induction false} TrimStartOf(pre: string, rest: string)
    requires AllWhitespace(pre)
    requires rest == [] || !IsWhitespace(rest[0])
    ensures TrimStart(pre + rest) == rest
    decreases |pre|
  {
    if |pre| == 0 {
      assert pre + rest == rest;
    } else {
      assert (pre + rest)[1..] == pre[1..] + rest;
      TrimStartOf(pre[1..], rest);
    }
  }

  /** Trailing whitespace is dropped back to the last other character. */
  lemma {:induction false} TrimEndOf(rest: string, post: string)
    requires AllWhitespace(post)
    requires rest == [] || !IsWhitespace(rest[|rest| - 1])
    ensures TrimEnd(rest + post) == rest
    decreases |post|
  {
    if |post| == 0 {
      assert rest + post == rest;
    } else {
      var shorter := post[..|post| - 1];
      assert (rest + post)[..|rest + post| - 1] == rest + shorter;
      TrimEndOf(rest, shorter);
    }
  }

  /** Trimming text that is whitespace, then text with non-whitespace ends,
      then whitespace, gives the middle part: the trim is the unique such
      middle. */
  lemma {:induction false} TrimOf(pre: string, core: string, post: string)
    requires AllWhitespace(pre) && AllWhitespace(post) && Trimmed(core)
    ensures Trim(pre + core + post) == core
  {
    if core == [] {
      assert pre + core + post == pre + post;
      AllWhitespaceAppend(pre, post);
      TrimStartOf(pre + post, []);
      assert pre + post + [] == pre + post;
      TrimEndOf([], []);
    } else {
      assert pre + core + post == pre + (core + post);
      TrimStartOf(pre, core + post);
      TrimEndOf(core, post);
    }
  }

  /** Every string is its trim surrounded by whitespace: the trim starts
      after the `k` leading whitespace characters. */
  lemma {:induction false} TrimSplits(s: string) returns (k: nat)
    ensures k + |Trim(s)| <= |s|
    ensures s[k..k + |Trim(s)|] == Trim(s)
    ensures forall i :: 0 <= i < k ==> IsWhitespace(s[i])
    ensures forall i :: k + |Trim(s)| <= i < |s| ==> IsWhitespace(s[i])
  {
    var t := TrimStart(s);
    k := |s| - |t|;
    var r := TrimEnd(t);
    assert r == Trim(s);
    assert t == s[k..];
    assert r == t[..|r|];
    assert s[k..k + |r|] == t[..|r|];
    forall i | k + |r| <= i < |s| ensures IsWhitespace(s[i]) {
      assert s[i] == t[i - k];
      assert IsWhitespace(t[i - k]);
    }
  }

  /** Trimming twice trims once. */
  lemma {:induction false} TrimIdempotent(s: string)
    ensures Trim(Trim(s)) == Trim(s)
  {
    TrimOf([], Trim(s), []);
    assert [] + Trim(s) + [] == Trim(s);
  }

  /** `collect::<String>()` over string pieces. */
  function Concat(parts: seq<string>): (r: string)
    decreases |parts|
  {
    if |parts| == 0 then "" else parts[0] + Concat(parts[1..])
  }

  /** `join(" ")`: the pieces with one space between neighbours. */
  function JoinSpace(parts: seq<string>): (r: string)
    ensures |parts| > 0 ==> |r| == |Concat(parts)| + |parts| - 1
    decreases |parts|
  {
    if |parts| == 0 then ""
    else if |parts| == 1 then parts[0]
    else parts[0] + " " + JoinSpace(parts[1..])
  }

  /** Joining two non-empty runs of pieces is joining each and putting one
      space between them: every pair of neighbouring pieces is separated by
      exactly one space. */
  lemma {:induction false} JoinSpaceAppend(a: seq<string>, b: seq<string>)
    requires |a| > 0 && |b| > 0
    ensures JoinSpace(a + b) == JoinSpace(a) + " " + JoinSpace(b)
    decreases |a|
  {
    if |a| > 1 {
      assert (a + b)[1..] == a[1..] + b;
      JoinSpaceAppend(a[1..], b);
    } else {
      assert (a + b)[1..] == b;
    }
  }

  /** The joined text starts with the first piece and ends with the last. */
  lemma {:induction false} JoinSpaceEnds(parts: seq<string>)
    requires |parts| > 0
    ensures |JoinSpace(parts)| >= |parts[0]| && JoinSpace(parts)[..|parts[0]|] == parts[0]
    ensures |JoinSpace(parts)| >= |parts[|parts| - 1]|
    ensures JoinSpace(parts)[|JoinSpace(parts)| - |parts[|parts| - 1]|..] == parts[|parts| - 1]
    decreases |parts|
  {
    if |parts| > 1 {
      JoinSpaceEnds(parts[1..]);
      var rest := JoinSpace(parts[1..]);
      var last := parts[|parts| - 1];
      assert parts[1..][|parts[1..]| - 1] == last;
      var r := parts[0] + " " + rest;
      assert r[|r| - |last|..] == rest[|rest| - |last|..];
    }
  }
}

=== FILE: trade_offer.dfy ===
/** A trade offer as the response layer hands it out, its `Display` form
    `[partner:tradeofferid]`, and the check for offers that exchange nothing. */
module TradeOffers {
  import opened Wrappers
  import opened DecimalText
  import ConfirmationMethods

  /** The offer. Assets and the offer state are type parameters (their
      definitions are not part of this model); server times are whole
      seconds; the partner is the 64-bit account id. */
  datatype TradeOffer<Asset, State> = TradeOffer(
    tradeofferid: u64,
    tradeid: Option<u64>,
    partner: u64,
    message: Option<string>,
    itemsToReceive: seq<Asset>,
    itemsToGive: seq<Asset>,
    isOurOffer: bool,
    fromRealTimeTrade: bool,
    expirationTime: int,
    timeCreated: int,
    timeUpdated: int,
    tradeOfferState: State,
    escrowEndDate: int,
    confirmationMethod: ConfirmationMethods.ConfirmationMethod)

  // ---------------------------------------------------------------------------
  // Display

  /** `Display`: the partner's account id and the offer id, in brackets and
      separated by a colon. */
  function Display<A, S>(offer: TradeOffer<A, S>): (s: string)
    ensures |s| >= 5 && s[0] == '[' && s[|s| - 1] == ']'
  {
    "[" + Decimal(offer.partner) + ":" + Decimal(offer.tradeofferid) + "]"
  }

  /** The position of the first `c` in `s`. */
  function IndexOf(s: string, c: char): (r: Option<nat>)
    ensures r.Some? ==> r.value < |s| && s[r.value] == c
    ensures r.Some? ==> forall i :: 0 <= i < r.value ==> s[i] != c
    ensures r.None? ==> forall i :: 0 <= i < |s| ==> s[i] != c
    decreases |s|
  {
    if |s| == 0 then None
    else if s[0] == c then Some(0)
    else match IndexOf(s[1..], c)
      case None => None
      case Some(k) => Some(k + 1)
  }

  /** Reads a displayed offer back: the two decimal numbers between the
      brackets, split at the first colon. */
  function ParseDisplay(s: string): (r: Option<(nat, nat)>)
    ensures r.Some? ==> |s| >= 5 && s[0] == '[' && s[|s| - 1] == ']'
  {
    if |s| < 2 || s[0] != '[' || s[|s| - 1] != ']' then None
    else
      var inner := s[1..|s| - 1];
      match IndexOf(inner, ':')
      case None => None
      case Some(k) =>
        var a, b := inner[..k], inner[k + 1..];
        if |a| > 0 && AllDigits(a) && |b| > 0 && AllDigits(b) then Some((Value(a), Value(b)))
        else None
  }

  /** A colon is not a digit, so the first colon of `a:b` follows `a`. */
  lemma {:induction false} ColonAfterDigits(a: string, b: string)
    requires AllDigits(a)
    ensures IndexOf(a + ":" + b, ':') == Some(|a|)
  {
    var s := a + ":" + b;
    assert s[|a|] == ':';
    forall i | 0 <= i < |a| ensures s[i] != ':' {
      assert s[i] == a[i] && IsDigit(a[i]);
    }
  }

  /** The displayed text reads back as the partner and the offer id. */
  lemma {:induction false} DisplayRoundTrip<A, S>(offer: TradeOffer<A, S>)
    ensures ParseDisplay(Display(offer)) == Some((offer.partner as nat, offer.tradeofferid as nat))
  {
    var p, t := Decimal(offer.partner), Decimal(offer.tradeofferid);
    var s := Display(offer);
    assert s[1..|s| - 1] == p + ":" + t;
    ColonAfterDigits(p, t);
    assert (p + ":" + t)[..|p|] == p;
    assert (p + ":" + t)[|p| + 1..] == t;
    DecimalValue(offer.partner);
    DecimalValue(offer.tradeofferid);
  }

  /** Two offers display alike exactly when they have the same partner and
      the same offer id; nothing else shows. */
  lemma {:induction false} DisplayIdentifies<A, S>(a: TradeOffer<A, S>, b: TradeOffer<A, S>)
    ensures Display(a) == Display(b) <==> a.partner == b.partner && a.tradeofferid == b.tradeofferid
  {
    if Display(a) == Display(b) {
      DisplayRoundTrip(a);
      DisplayRoundTrip(b);
    }
  }

  // ---------------------------------------------------------------------------
  // Glitched offers

  /** Every asset the offer moves, either way. */
  function ItemsExchanged<A, S>(offer: TradeOffer<A, S>): (items: seq<A>)
    ensures |items| == |offer.itemsToGive| + |offer.itemsToReceive|
  {
    offer.itemsToGive + offer.itemsToReceive
  }

  /** `is_glitched` as written: it tests `items_to_receive` twice, so an
      offer that only gives is reported as glitched. */
  function IsGlitchedAsWritten<A, S>(offer: TradeOffer<A, S>): (glitched: bool)
    ensures glitched <==> |offer.itemsToReceive| == 0
  {
    |offer.itemsToReceive| == 0 && |offer.itemsToReceive| == 0
  }

  /** The result as written depends on the items to receive alone:
      changing what the offer gives never changes it. */
  lemma {:induction false} AsWrittenIgnoresGive<A, S>(offer: TradeOffer<A, S>, give: seq<A>)
    ensures IsGlitchedAsWritten(offer.(itemsToGive := give)) == IsGlitchedAsWritten(offer)
  {
  }

  /** An offer giving items and receiving none is a gift, not a glitch, but
      the test as written flags it. */
  lemma {:induction false} AsWrittenFlagsGifts<A, S>(offer: TradeOffer<A, S>)
    requires |offer.itemsToReceive| == 0 && |offer.itemsToGive| > 0
    ensures IsGlitchedAsWritten(offer) && |ItemsExchanged(offer)| > 0
  {
  }

  /** `is_glitched` as intended: the offer has no items on either side. */
  function IsGlitched<A, S>(offer: TradeOffer<A, S>): (glitched: bool)
    ensures glitched <==> |ItemsExchanged(offer)| == 0
  {
    |offer.itemsToReceive| == 0 && |offer.itemsToGive| == 0
  }

  /** An offer is glitched exactly when no asset is given or received. */
  lemma {:induction false} GlitchedMovesNothing<A, S>(offer: TradeOffer<A, S>)
    ensures IsGlitched(offer) <==> forall x :: x !in offer.itemsToGive && x !in offer.itemsToReceive
  {
    if !IsGlitched(offer) {
      var x := if |offer.itemsToGive| > 0 then offer.itemsToGive[0] else offer.itemsToReceive[0];
      assert x in offer.itemsToGive || x in offer.itemsToReceive;
    }
  }

  /** The two tests agree except on offers that give and receive nothing
      back, where only the one as written fires. */
  lemma {:induction false} GlitchedAgreement<A, S>(offer: TradeOffer<A, S>)
    ensures IsGlitched(offer) ==> IsGlitchedAsWritten(offer)
    ensures IsGlitchedAsWritten(offer) && !IsGlitched(offer) <==>
      |offer.itemsToReceive| == 0 && |offer.itemsToGive| > 0
  {
  }
}

=== FILE: trade_status.dfy ===
/** `TradeStatus`: the status of a trade, carried on the wire as its
    one-byte code and printed and read by variant name. */
module TradeStatuses {
  import opened Wrappers
  import opened WireValues
  import opened Bytes
  import opened TextOps

  datatype TradeStatus =
    | Init
    | PreCommitted
    | Committed
    | Complete
    | Failed
    | PartialSupportRollback
    | FullSupportRollback
    | SupportRollbackSelective
    | RollbackFailed
    | RollbackAbandoned
    | InEscrow
    | EscrowRollback

  /** `u8::from(status)`: the declared discriminant. */
  function Code(s: TradeStatus): (c: byte)
    ensures c <= 11
  {
    match s
    case Init => 0
    case PreCommitted => 1
    case Committed => 2
    case Complete => 3
    case Failed => 4
    case PartialSupportRollback => 5
    case FullSupportRollback => 6
    case SupportRollbackSelective => 7
    case RollbackFailed => 8
    case RollbackAbandoned => 9
    case InEscrow => 10
    case EscrowRollback => 11
  }

  /** `TradeStatus::try_from(code)`: the variant with that discriminant. */
  function FromCode(c: byte): (r: Option<TradeStatus>)
    ensures r.Some? <==> c <= 11
    ensures r.Some? ==> Code(r.value) == c
  {
    if c == 0 then Some(Init)
    else if c == 1 then Some(PreCommitted)
    else if c == 2 then Some(Committed)
    else if c == 3 then Some(Complete)
    else if c == 4 then Some(Failed)
    else if c == 5 then Some(PartialSupportRollback)
    else if c == 6 then Some(FullSupportRollback)
    else if c == 7 then Some(SupportRollbackSelective)
    else if c == 8 then Some(RollbackFailed)
    else if c == 9 then Some(RollbackAbandoned)
    else if c == 10 then Some(InEscrow)
    else if c == 11 then Some(EscrowRollback)
    else None
  }

  /** Converting a status to its code and back gives the status. */
  lemma {:induction false} CodeRoundTrip(s: TradeStatus)
    ensures FromCode(Code(s)) == Some(s)
  {
  }

  /** Distinct statuses have distinct codes. */
  lemma {:induction false} CodeInjective(a: TradeStatus, b: TradeStatus)
    requires Code(a) == Code(b)
    ensures a == b
  {
    CodeRoundTrip(a);
    CodeRoundTrip(b);
  }

  /** strum's `Display`: the variant name. */
  function Name(s: TradeStatus): (name: string)
    ensures IsVariantName(name)
  {
    match s
    case Init => "Init"
    case PreCommitted => "PreCommitted"
    case Committed => "Committed"
    case Complete => "Complete"
    case Failed => "Failed"
    case PartialSupportRollback => "PartialSupportRollback"
    case FullSupportRollback => "FullSupportRollback"
    case SupportRollbackSelective => "SupportRollbackSelective"
    case RollbackFailed => "RollbackFailed"
    case RollbackAbandoned => "RollbackAbandoned"
    case InEscrow => "InEscrow"
    case EscrowRollback => "EscrowRollback"
  }

  /** strum's `FromStr`: exactly the variant names, case-sensitively. */
  function FromName(name: string): (r: Option<TradeStatus>)
    ensures r.Some? ==> Name(r.value) == name
  {
    if name == "Init" then Some(Init)
    else if name == "PreCommitted" then Some(PreCommitted)
    else if name == "Committed" then Some(Committed)
    else if name == "Complete" then Some(Complete)
    else if name == "Failed" then Some(Failed)
    else if name == "PartialSupportRollback" then Some(PartialSupportRollback)
    else if name == "FullSupportRollback" then Some(FullSupportRollback)
    else if name == "SupportRollbackSelective" then Some(SupportRollbackSelective)
    else if name == "RollbackFailed" then Some(RollbackFailed)
    else if name == "RollbackAbandoned" then Some(RollbackAbandoned)
    else if name == "InEscrow" then Some(InEscrow)
    else if name == "EscrowRollback" then Some(EscrowRollback)
    else None
  }

  /** Reading a printed status gives the status back. */
  lemma {:induction false} NameRoundTrip(s: TradeStatus)
    ensures FromName(Name(s)) == Some(s)
  {
  }

  /** `Serialize_repr`: the bare code. */
  function Serialize(s: TradeStatus): (w: Wire)
    ensures w.U64? && w.n <= 11
  {
    U64(Code(s))
  }

  /** `Deserialize_repr`: a `u8`, then its variant; a code with no variant is
      refused. */
  function Deserialize(w: Wire): (r: Result<TradeStatus, DeError>)
    ensures r.Ok? <==> w.U64? && w.n <= 11
    ensures w.U64? && 11 < w.n <= 0xFF ==> r == Err(InvalidDiscriminant(w.n))
    ensures !(w.U64? && w.n <= 0xFF) ==> r == U8Of(w).PropagateFailure()
  {
    match U8Of(w)
    case Err(e) => Err(e)
    case Ok(c) =>
      match FromCode(c)
      case Some(s) => Ok(s)
      case None => Err(InvalidDiscriminant(c))
  }

  /** What is written reads back as the same status; a code reads as the
      status that has it. */
  lemma {:induction false} SerializeRoundTrip(s: TradeStatus)
    ensures Deserialize(Serialize(s)) == Ok(s)
  {
    CodeRoundTrip(s);
  }

  lemma {:induction false} DeserializeSpec(w: Wire, s: TradeStatus)
    ensures Deserialize(w) == Ok(s) <==> w == Serialize(s)
  {
    if Deserialize(w) == Ok(s) {
      assert FromCode(w.n) == Some(s);
    }
    CodeRoundTrip(s);
  }
}

=== FILE: wire.dfy ===
/** Loosely typed wire values: what a JSON deserializer hands to a visitor
    through `deserialize_any`, one constructor per visitor callback. Also the
    deserializer errors and the two standard element readers (`String` and
    `u8`) the field visitors rely on. */
module WireValues {
  import opened Wrappers
  import opened DecimalText

  /** A negative JSON integer; non-negative ones always arrive as `U64`. */
  type negI64 = i: int | -I64_LIMIT <= i < 0 witness -1

  datatype Wire =
    | U64(n: u64)                         // visit_u64
    | I64(i: negI64)                      // visit_i64
    | Str(s: string)                      // visit_str
    | Bool(b: bool)                       // visit_bool
    | Absent                              // visit_none
    | Null                                // visit_unit: a JSON null read through deserialize_any
    | Seq(items: seq<Wire>)               // visit_seq
    | Map(entries: seq<(string, Wire)>)   // visit_map, entries in document order
    | Other                               // floats, bytes and every other callback

  /** serde's `Unexpected`: how an error names the value it refused. */
  datatype Unexpected =
    | Unsigned(n: nat)
    | Signed(i: int)
    | UStr(s: string)
    | UBool(b: bool)
    | UOption
    | UUnit
    | USeq
    | UMap
    | UOther

  /** The deserializer errors the visitors raise. `InvalidDiscriminant` stands
      for the custom error a numeric-code enum raises for an unknown code. */
  datatype DeError =
    | Custom(msg: string)
    | InvalidType(unexpected: Unexpected, expected: string)
    | InvalidValue(unexpected: Unexpected, expected: string)
    | InvalidDiscriminant(code: nat)

  /** What a visitor's default callback reports for a value it does not accept. */
  function UnexpectedOf(w: Wire): Unexpected {
    match w
    case U64(n) => Unsigned(n)
    case I64(i) => Signed(i)
    case Str(s) => UStr(s)
    case Bool(b) => UBool(b)
    case Absent => UOption
    case Null => UUnit
    case Seq(_) => USeq
    case Map(_) => UMap
    case Other => UOther
  }

  /** Every callback a visitor does not override rejects its value with
      the visitor's own `expecting` text. */
  function Reject<T>(w: Wire, expecting: string): Result<T, DeError> {
    Err(InvalidType(UnexpectedOf(w), expecting))
  }

  /** `String::deserialize`: strings only. */
  function StringOf(w: Wire): (r: Result<string, DeError>)
    ensures r.Ok? <==> w.Str?
    ensures r.Ok? ==> r.value == w.s
    ensures r.Err? ==> r.error == InvalidType(UnexpectedOf(w), "a string")
  {
    match w
    case Str(s) => Ok(s)
    case _ => Reject(w, "a string")
  }

  /** `u8::deserialize`: integers in 0..=255; other integers are invalid
      values, every other shape an invalid type. */
  function U8Of(w: Wire): (r: Result<nat, DeError>)
    ensures r.Ok? <==> w.U64? && w.n <= 0xFF
    ensures r.Ok? ==> r.value == w.n
    ensures w.U64? && w.n > 0xFF ==> r == Err(InvalidValue(Unsigned(w.n), "u8"))
    ensures w.I64? ==> r == Err(InvalidValue(Signed(w.i), "u8"))
    ensures !w.U64? && !w.I64? ==> r == Err(InvalidType(UnexpectedOf(w), "u8"))
  {
    match w
    case U64(n) => if n <= 0xFF then Ok(n) else Err(InvalidValue(Unsigned(n), "u8"))
    case I64(i) => Err(InvalidValue(Signed(i), "u8"))
    case _ => Reject(w, "u8")
  }
}

=== FILE: wrappers.dfy ===
/** Option and Result, the failure-compatible wrappers every other module
    returns. `Result` stands for Rust's `Result<T, E>`, `Option` for `Option<T>`. */
module Wrappers {

  datatype Option<+T> = None | Some(value: T) {

    predicate IsFailure() {
      None?
    }

    function PropagateFailure<U>(): Option<U>
      requires None?
    {
      None
    }

    function Extract(): T
      requires Some?
    {
      value
    }
  }

  datatype Result<+T, +E> = Ok(value: T) | Err(error: E) {

    predicate IsFailure() {
      Err?
    }

    function PropagateFailure<U>(): Result<U, E>
      requires Err?
    {
      Err(error)
    }

    function Extract(): T
      requires Ok?
    {
      value
    }

    /** Rust's `map_err`. */
    function MapErr<F>(f: E -> F): Result<T, F> {
      match this
      case Ok(v) => Ok(v)
      case Err(e) => Err(f(e))
    }
  }
}
